=== FILE: README.md ===
# Anonimatização: the anonymise → revert pipeline in Dafny

This project models the deterministic core of a tool that anonymises Brazilian
legal PDFs and reverts them. The pipeline has five stages:

- **Detection.** Candidate entities come from a named-entity model and from regular
  expressions. They are gated on a stop-term list and a confidence threshold.
  Overlaps are resolved greedily, and all pages are collapsed into one
  text → kind dictionary. Both the improved detector and the older one are modelled.
- **Substitution.** Each sensitive text gets a placeholder `[KIND_n]` from per-kind
  counters, or a fake value. The engine then rewrites every page, longest original
  first, with the `\bX\b` replacement of `_perform_safe_replacement` and its plain
  `str.replace` fallback. An integrity check follows.
- **Reversion.** The mapping is inverted, and the fake values are replaced back,
  longest first. There is also the standalone insertion-order helper.
- **Validation helpers.** These cover the CPF mod-11 check digits, the CNPJ test,
  the confidence heuristics, finding de-duplication, the statistics, the
  recommendations and the risk level.
- **Mapping persistence.** The mapping file is saved next to the PDF under
  `splitext(path)[0] + "_mapping.json"`. Loading it returns `None` on a missing,
  unreadable or non-JSON file; a file that is not UTF-8 raises instead.

Dictionaries are insertion-ordered association lists with Python's
update-in-place semantics (`Base.Put`). Confidences are integer hundredths:
0.5 is 50 and 1.0 is 100. Everything the program gets from outside is a
parameter:

- the entity model's spans and the `finditer` hits (`Detection.Engine`,
  `LegacyDetection.LegacyEngine`);
- Faker's words (`Anonymizer.Draw`);
- the file system, with its write and read failures (`MappingStore.Files`).

The central theorem is `RoundTrip.PlaceholderRoundTrip`. In placeholder mode, with
the rewriting exactly as written (the `\bX\b` anchor),
reverting the anonymised pages with the mapping the engine produced gives back
the original pages. The session revert then reports complete success. This holds
under stated conditions on the items and the pages:

- the items have distinct texts;
- every item kind consists of capital letters and `_`;
- every item text is non-empty, bracket-free, and contains a character that cannot
  appear in a placeholder;
- no page contains `[`.

`RoundTrip.AnonymizeThenRevert` states the general form for any mapping that is
`RoundTrip.Reversible`. Such a mapping needs:

- bracket-delimited replacements;
- no original occurring inside a replacement;
- no replacement occurring in a page;
- pairwise distinct replacements.

These conditions cannot be weakened to "replacements do not occur in the
originals and are pairwise distinct". Here is a counterexample: with
`"b" → "aa"`, the page `"ab"` becomes `"aaa"` and then reverts to `"ba"`.

Four behaviours of the code are worth knowing:

- **Shared replacements.** When two originals share a replacement, the revert
  silently lets the later original win (`Anonimatizacao/app.py:307`). This is
  `Reversion.InvertLatest`.
- **De-duplication.** `_deduplicate_findings` evicts only the first overlapping kept
  finding before appending a more confident one. That is still enough for the
  kept findings never to overlap. The input is sorted by start, so every kept
  finding that overlaps the new one contains its start, and kept findings are
  pairwise disjoint, so there is at most one such finding. `Validator.DeduplicateSound`
  proves the docstring's promise.
- **Revert errors.** In `carregar_e_reverter` the second `except` clause names
  `fitz.fitz.FZ_ERROR_GENERIC`, which is not an exception class. Any exception
  other than `FileNotFoundError` raises again when tested against it, so the
  unexpected-failure dialog is never reached (`Reversion.LoadError.Escaped`).
  In the threaded app the error callback reads `e` after Python has deleted it,
  so it shows nothing (`Reversion.LoadAndRevertThreaded`).
- **Mapping direction.** `deanonymize_text` expects a mapping from fake value to
  original, but `save_mapping` stores original → fake. Given the saved mapping, it
  leaves an anonymised page unchanged (`Reversion.DeanonymizeAbsent`).

## Model

| member | source | states |
|---|---|---|
| Config.StopTermsLowercase | config.py:61 | every stop term is its own lower-case form, so the detector's test on lower-cased text is case-insensitive |
| Config.StopTermExamples | config.py:11-58 | "delegado", "horário", "de" and "e" are in the configured stop-term set |
| Detection.ConfiguredStopTermsNeverDetected | detection.py:23 | a detector holding the configured stop terms never reports "delegado", "horário", "de" or "e", in any casing, whatever the model and the patterns find |
| Detection.StopTermIgnoresCase | detection.py:53-55 | a text is a stop term exactly when its lower-case form is one |
| Detection.ValidateEntity | detection.py:57-70 | a stop term is rejected at any confidence; any other text is accepted exactly when its confidence reaches 0.5 |
| Detection.FullConfidenceOnlyStopTerms | detection.py:113-124 | a regex hit, scored 1.0, is rejected exactly when it is a stop term |
| Detection.NormaliseLabel | detection.py:81-90 | a kept span's kind is always one of the kinds whose counters a session resets |
| Detection.NormaliseRecognises | detection.py:81-92 | a span survives the label mapping exactly when its label is PERSON, GPE or a key of ENTITY_TYPES |
| Detection.NormaliseAgreesWithTable | detection.py:83-90 | the explicit PER/ORG/LOC branches give the same kind as the ENTITY_TYPES table does |
| Detection.SpanEntity | detection.py:94-102 | a recorded span keeps its text and offsets and carries confidence 1.0 when the span has none |
| Detection.SpacyCandidates | detection.py:80-104 | every recorded entity has a known kind, a non-blank text, is no stop term and has confidence at least 0.5 |
| Detection.SpacySound | detection.py:80-104 | every recorded entity is the record of an accepted span of the model |
| Detection.SpacyComplete | detection.py:80-104 | every span with a known label, non-blank text and passing validation is recorded |
| Detection.SpacyEntities | detection.py:72-75 | without a loaded model nothing is recorded |
| Detection.RegexKindNames | detection.py:110-111 | regex hits are typed CPF, PHONE, EMAIL, CEP, RG and CNPJ |
| Detection.HitEntity | detection.py:118-124 | a hit is recorded with its text and offsets, the pattern's kind and confidence 1.0 |
| Detection.HitsSound | detection.py:113-124 | every recorded hit comes from a match that is no stop term |
| Detection.HitsComplete | detection.py:113-124 | a match is dropped only when it is a stop term |
| Detection.RegexEntities | detection.py:106-126 | every regex entity has confidence 1.0, an upper-cased pattern name as kind and is no stop term |
| Detection.OverlapOrderIsWeak | detection.py:134 | the key (start, -confidence, -length) is a strict weak order, so the sort is well defined |
| Detection.Greedy | detection.py:136-143 | the scan keeps entities that start at or after the previous kept end, and always keeps the first eligible one |
| Detection.RemoveOverlaps | detection.py:128-145 | empty exactly for empty input; the first candidate in sort order is kept; kept entities never overlap |
| Detection.RemoveOverlapsSelects | detection.py:128-145 | the result is a subsequence of the sorted candidates, ordered by the sort key, made of input entities |
| Detection.RemoveOverlapsCovers | detection.py:139-143 | every dropped entity starts inside a kept one |
| Detection.RemoveOverlapsExample | detection.py:134-143 | of ("João Silva",0,10,0.9) and ("Silva Pereira",5,18,0.95) only the first is kept |
| Detection.DetectSensitiveData | detection.py:147-175 | blank text yields nothing; the entities returned never overlap, are no stop terms and reach the threshold |
| Detection.LegacyKind | detection.py:280-289 | kinds other than the four renamed ones pass through unchanged |
| Detection.Encontrar | detection.py:270-293 | the collapsed dictionary has one entry per text |
| Detection.EncontrarLatestWins | detection.py:277-291 | the last detection of a text, across all pages, decides its kind |
| Detection.EncontrarOnlyDetected | detection.py:277-291 | a text that was never detected has no entry |
| LegacyDetection.PiiTypeIsLabel | Anonimatizacao/detection.py:21-29 | for every kept model label the recorded type is the label itself |
| LegacyDetection.DedupByText | Anonimatizacao/detection.py:87-95 | the kept items come from the input, their texts are pairwise distinct and none was seen before |
| LegacyDetection.DedupFirstWins | Anonimatizacao/detection.py:87-95 | the first item carrying a new text is the one kept |
| LegacyDetection.DedupKeepsDistinct | Anonimatizacao/detection.py:87-95 | on items with distinct texts the final filter changes nothing |
| LegacyDetection.NerItems | Anonimatizacao/detection.py:52-57 | kept spans have a PER, LOC, ORG or MISC label and non-blank text |
| LegacyDetection.DetectSensitiveData | Anonimatizacao/detection.py:31-95 | nothing without a model; otherwise pairwise distinct texts, each a candidate from the model or the patterns |
| LegacyDetection.DetectFirstSighting | Anonimatizacao/detection.py:47-95 | every candidate text is reported, with the type of its first sighting (model, then CPF, phone, e-mail) |
| LegacyDetection.NerCategory | Anonimatizacao/detection.py:104-112 | PERSON/PER, ORG, GPE/LOC are kept as PERSON, ORG, LOC; every other label is skipped |
| LegacyDetection.CollectedLatestWins | Anonimatizacao/detection.py:99-124 | the last write for a text, across pages and passes, decides its category |
| LegacyDetection.EncontrarAsWritten | Anonimatizacao/detection.py:97-133 | fails exactly when pages exist but no model, or when some entry is PHONE; otherwise returns the collected dictionary |
| LegacyDetection.AsWrittenFailsOnPhone | Anonimatizacao/detection.py:125-128 | any page whose last word on a text is a phone match makes the function fail |
| LegacyDetection.CpfShapeLength | Anonimatizacao/detection.py:16 | a full CPF-shaped match has 11 to 14 characters |
| LegacyDetection.CpfShapeBareDigits | Anonimatizacao/detection.py:16 | eleven bare digits, which the phone pattern also matches, have the CPF shape |
| LegacyDetection.PhoneNotCpfShape | Anonimatizacao/detection.py:16 | a formatted phone number does not have the CPF shape |
| LegacyDetection.RelabelSpec | Anonimatizacao/detection.py:125-132 | relabelling keeps the keys, turns exactly the CPF-shaped PHONE entries into CPF and changes nothing else |
| LegacyDetection.Encontrar | Anonimatizacao/detection.py:97-133 | fails only without a model; otherwise a dictionary with the collected keys, each once |
| LegacyDetection.CorrectedAgreesWhenNoPhone | Anonimatizacao/detection.py:125-133 | whenever the as-written function succeeds, the corrected one returns the same |
| Anonymizer.ResetCounters | anonymizer.py:28-30 | after a reset exactly the configured kinds have a counter, each at zero |
| Anonymizer.ResetReadsZero | anonymizer.py:28-34 | after a reset every kind, configured or not, reads zero |
| Anonymizer.NextPlaceholder | anonymizer.py:32-38 | the kind's counter goes up by one, no other counter moves, and the placeholder carries the new count |
| Anonymizer.PlaceholderInjective | anonymizer.py:35-38 | two placeholders are equal exactly when kind and number are |
| Anonymizer.FirstWord | anonymizer.py:46-48 | `split()[0]` fails exactly on blank text and otherwise is a non-empty run without spaces |
| Anonymizer.FakeValue | anonymizer.py:40-67 | never empty; every kind Faker does not serve gets its constant mask |
| Anonymizer.ReplacementValue | anonymizer.py:40-74 | placeholder mode always answers and draws nothing; in fake mode a constant-mask kind gets its mask without calling Faker, and a Faker kind answers exactly while draws remain, spending one |
| Anonymizer.Retry | anonymizer.py:133-136 | a value the retry loop hands out is not among the used ones; a used constant mask never yields one |
| Anonymizer.Step | anonymizer.py:130-138 | fake mode hands out a fresh value and records it as used |
| Anonymizer.Mapping | anonymizer.py:119-138 | in placeholder mode the mapping is always produced |
| Anonymizer.MappingKeys | anonymizer.py:122-138 | the mapping's originals are exactly the sensitive items, in their insertion order |
| Anonymizer.PlaceholderNumbering | anonymizer.py:119-138 | the n-th item of kind K maps to `[K_n]` |
| Anonymizer.PlaceholdersDistinct | anonymizer.py:119-138 | in placeholder mode no two originals share a replacement |
| Anonymizer.PlaceholderMappingDeterministic | anonymizer.py:69-74 | in placeholder mode the mapping does not depend on Faker |
| Anonymizer.FakeValuesDistinct | anonymizer.py:132-136 | in fake mode a mapping that is produced has pairwise distinct values |
| Anonymizer.RetrySpins | anonymizer.py:133-135 | a constant mask already used makes the retry loop spin for ever |
| Anonymizer.StepMask | anonymizer.py:51-64 | for a constant-mask kind fake mode hands out the mask, without a draw, while it is unused, and never finishes once it is used |
| Anonymizer.FakeModeHangs | anonymizer.py:126-136 | two items of one constant-mask kind (CPF, phone, CNPJ, CEP, RG, unknown) never produce a mapping |
| Anonymizer.GluedBracketed | anonymizer.py:83-87 | for a placeholder the concatenation test fires exactly where it follows a word character |
| Anonymizer.SafeReplaceSwapsOnly | anonymizer.py:91-103 | the safe replacement, as written and corrected, only swaps occurrences of the original for the replacement |
| Anonymizer.SafeReplaceAgrees | anonymizer.py:94-95 | for an original that begins and ends with a word character the two anchors replace identically |
| Anonymizer.ReplaceStepSwapsOnly | anonymizer.py:152-155 | each rewriting step, the `\bX\b` substitution or its `str.replace` fallback, only swaps occurrences of the original for its replacement |
| Anonymizer.LongestFirst | anonymizer.py:144 | the sorted pairs are a permutation of the mapping |
| Anonymizer.LongestFirstOrdered | anonymizer.py:144 | originals come in non-increasing length |
| Anonymizer.LongestFirstStable | anonymizer.py:144 | originals of equal length keep their insertion order |
| Anonymizer.RewritePages | anonymizer.py:146-157 | every page is rewritten with the same sorted pairs, each through the `\bX\b` step, and the page count is kept |
| Anonymizer.AnonymizeTexts | anonymizer.py:105-161 | no pages or no items: pages unchanged and empty mapping; placeholder mode always succeeds; the page count is kept |
| Anonymizer.PageErrors | anonymizer.py:186-191 | no error exactly when no key, lower-cased, occurs in the lower-cased page |
| Anonymizer.IntegrityErrors | anonymizer.py:184-191 | no error exactly when every page that `zip` pairs is clean |
| Anonymizer.ConcatWarnings | anonymizer.py:193-200 | no warning exactly when no page shows a word-name-word concatenation |
| Anonymizer.ValidateAnonymization | anonymizer.py:163-202 | counts the mapping and the pages; integrity holds exactly when there are no errors; disabled checks report nothing |
| Anonymizer.ValidationIgnoresOriginalText | anonymizer.py:185-191 | the original pages matter only through their number |
| AnonymizerExamples.AnaSilvaMapping | anonymizer.py:119-138 | two persons are numbered `[PESSOA_1]` and `[PESSOA_2]` in the order they were found |
| AnonymizerExamples.AnaSilvaRewrite | anonymizer.py:143-157 | "Ana Silva chegou" receives the full name's replacement, not the one of "Ana" |
| AnonymizerExamples.AnaSilvaAnonymized | anonymizer.py:105-161 | the whole call on that page gives `[PESSOA_2] chegou` and the numbered mapping |
| AnonymizerExamples.NotGluedAtStart | anonymizer.py:83-87 | a placeholder that only opens the text passes the concatenation test |
| AnonymizerExamples.FirmLeaksAsWritten | anonymizer.py:94-101 | as written, "Alfa Ltda." followed by a space is not replaced |
| AnonymizerExamples.FirmReplaced | anonymizer.py:94-95 | with lookaround anchors the same item is replaced |
| AnonymizerExamples.FirmPipelineLeaks | anonymizer.py:105-161 | the whole call on "Alfa Ltda. paga" maps the firm to `[ORGANIZACAO_1]` yet returns the page unchanged |
| AnonymizerExamples.CpfMaskedWithoutFaker | anonymizer.py:51-57 | in fake mode a CPF is mapped to `XXX.XXX.XXX-XX` even when Faker supplies nothing |
| Rewrite.SubReplaced | anonymizer.py:94-95 | the anchored `re.sub` only swaps non-overlapping occurrences of the pattern |
| Rewrite.ReplaceAllReplaced | anonymizer.py:101 | `str.replace` only swaps occurrences of the pattern |
| Rewrite.SubNoHit | anonymizer.py:95 | with no anchored occurrence `re.sub` returns its input |
| Rewrite.StandaloneReplaced | anonymizer.py:94-95 | a lone occurrence no word character touches is replaced by the lookaround form |
| Rewrite.SubAgree | anonymizer.py:94-95 | `\bX\b` and `(?<!\w)X(?!\w)` scan identically when X begins and ends with a word character |
| Reversion.Invert | Anonimatizacao/app.py:307 | the inverse map has one entry per fake value |
| Reversion.InvertLatest | Anonimatizacao/app.py:307 | a fake value maps back to the original of the last pair that produced it |
| Reversion.InvertMissing | Anonimatizacao/app.py:307 | a string no pair produced has no entry in the inverse |
| Reversion.InvertDistinct | Anonimatizacao/app.py:307 | with distinct fake values the inverse is the swapped mapping, in order |
| Reversion.RevertOrder | Anonimatizacao/app.py:308 | the fake values to apply are a permutation of the inverse map |
| Reversion.RevertOrderLooksUp | Anonimatizacao/app.py:312-314 | each step restores the original the inverse map holds for its fake value |
| Reversion.Revert | Anonimatizacao/app.py:306-315 | every page goes through the same loop and the page count is kept |
| Reversion.RevertPageAbsent | Anonimatizacao/app.py:311-314 | a page holding no fake value comes back unchanged |
| Reversion.RevertSession | Anonimatizacao/app.py:299-330 | refuses exactly without pages or mapping; complete success only when original pages exist and the joined texts agree (also app_fixed.py) |
| Reversion.LoadAndRevert | Anonimatizacao/app.py:358-437 | an exception raised by the load, or by a document that is not a dict of strings, escapes the handlers, since the `fitz.fitz.FZ_ERROR_GENERIC` clause is tested before the catch-all; the load comes before the empty-text check; then no text and a falsy mapping stop with their own errors; otherwise reverts with the loaded dictionary |
| Reversion.LoadAndRevertThreaded | app_fixed.py:401-429 | both load failures show one message; anything raised leaves the screen silent, because the scheduled callback reads `e` after the `except` block deleted it; otherwise the pages of the single-threaded revert |
| Reversion.LoadAndRevertThreadedBound | app_fixed.py:428-429 | with the message bound while the exception is live, every run ends in the pages or a message, a raised exception shows its own text, and every run that was not silent is unchanged |
| Reversion.NumberValueIsSilent | app_fixed.py:418-429 | a mapping with a number as value escapes the single-threaded revert and leaves the threaded one silent, where the bound message is shown |
| Reversion.SavedMappingReverts | Anonimatizacao/app.py:379-388 | reverting from the saved mapping equals the session revert with the mapping in memory |
| Reversion.DeanonymizeText | Anonimatizacao/reversion.py:26-29 | no mapping or an empty one returns the text unchanged |
| Reversion.DeanonymizeAbsent | Anonimatizacao/reversion.py:51-57 | a text in which no key occurs is returned unchanged, so the saved original-to-fake mapping reverts nothing |
| RevertExamples.InsertionOrderBreaks | Anonimatizacao/reversion.py:51-54 | in insertion order a shorter fake value listed first breaks a longer one |
| RevertExamples.LongestFirstRestores | Anonimatizacao/app.py:308-314 | longest first, the same pairs restore the longer original |
| RoundTrip.RewriteLift | anonymizer.py:149-155 | rewriting with the `\bX\b` step keeps track of which text each placeholder stands for |
| RoundTrip.RevertAll | Anonimatizacao/app.py:310-315 | the revert loop restores every placeholder it visits |
| RoundTrip.RevertOrderSwapped | Anonimatizacao/app.py:307-308 | with distinct replacements the revert order holds exactly the swapped pairs |
| RoundTrip.PageRoundTrip | Anonimatizacao/app.py:306-315 | reverting a page rewritten longest first, with the `\bX\b` step, by a well-shaped mapping gives the page back |
| RoundTrip.AnonymizeThenRevert | Anonimatizacao/app.py:320-324 | reverting what `anonymize_texts` as written produced, with a reversible mapping, gives back the pages |
| RoundTrip.PlaceholderShape | anonymizer.py:32-38 | placeholders are bracketed and made only of capitals, digits, `_` and brackets |
| RoundTrip.PlaceholderRoundTrip | anonymizer.py:105-161 | placeholder mode, rewriting as written: revert after anonymise is the identity and the session revert reports complete success |
| Json.FromDict | Anonimatizacao/mapping_utils.py:20 | the dumped document is an object with the mapping's pairs in order; it is truthy exactly for a non-empty mapping |
| Json.StringDictFromDict | Anonimatizacao/mapping_utils.py:20 | a dictionary of strings survives the trip through a document unchanged |
| Json.ObjectDictLast | Anonimatizacao/mapping_utils.py:38 | a repeated name in the file is read with the value of its last occurrence |
| Json.TinyFloatIsFalsy | Anonimatizacao/app.py:371 | a document that is the number `1e-400` loads as `0.0` and is falsy, so the revert reports the missing mapping |
| Json.HalfIsTruthy | Anonimatizacao/app.py:371 | a document that is the number `0.5` is truthy |
| MappingStore.SplitExt | Anonimatizacao/mapping_utils.py:16 | the two parts rejoin to the path; the extension is empty or a dot followed by no dot or slash, after a named part of the last component |
| MappingStore.SplitExtOf | Anonimatizacao/mapping_utils.py:16 | a stem with a named last component plus `.tail` splits into exactly that stem and extension |
| MappingStore.HiddenFileHasNoExtension | Anonimatizacao/mapping_utils.py:16 | a leading dot does not start an extension |
| MappingStore.DottedDirectory | Anonimatizacao/mapping_utils.py:16 | a dot in a directory name is not an extension |
| MappingStore.MappingPathReplacesExtension | Anonimatizacao/mapping_utils.py:4-17 | `docs/contrato.pdf` maps to `docs/contrato_mapping.json` |
| MappingStore.SaveMapping | Anonimatizacao/mapping_utils.py:4-25 | succeeds exactly when the write does; then the derived path is returned and holds the mapping, no other file changes; a failure is passed on |
| MappingStore.LoadMapping | Anonimatizacao/mapping_utils.py:27-48 | a document exactly when the file exists, is readable and parses; `None` for a missing, unreadable or non-JSON file; the decode error of a non-UTF-8 file escapes |
| MappingStore.SaveThenLoad | Anonimatizacao/mapping_utils.py:16-39 | loading what was saved gives back the same dictionary |
| MappingStore.SaveThenRevert | Anonimatizacao/app.py:362-388 | reverting from the saved file equals the session revert |
| MappingStore.LoadedNonObject | Anonimatizacao/mapping_utils.py:37-39 | a stored non-object is returned as loaded, and the exception from its `.items()` escapes the revert rather than reading as a missing mapping |
| MappingStore.UndecodableEscapes | Anonimatizacao/mapping_utils.py:36-48 | a non-UTF-8 mapping file is not a missing mapping: the decode error escapes the revert, even for an empty PDF; the threaded app shows nothing, where the bound message is the decoder's |
| Validator.DigitsOf | enhanced_validator.py:176 | the result holds only digits and is no longer than the input |
| Validator.CheckDigitStandard | enhanced_validator.py:190-200 | the `(sum*10) % 11`, 10 → 0 rule equals the standard 11 − remainder rule |
| Validator.CpfValidIff | enhanced_validator.py:173-204 | accepted exactly when the digits are nine non-uniform digits followed by their two check digits |
| Validator.FormattedCpfDigits | enhanced_validator.py:176 | the digits of `ddd.ddd.ddd-dd` are the four groups joined |
| Validator.CpfAccepted | enhanced_validator.py:173-204 | "123.456.789-09" passes |
| Validator.CpfWrongCheckDigit | enhanced_validator.py:196-202 | "123.456.789-00" fails on its second check digit |
| Validator.CpfRepeatedDigit | enhanced_validator.py:182-183 | "999.999.999-99" fails as a repeated digit |
| Validator.CnpjValidIff | enhanced_validator.py:206-225 | accepted exactly when there are 14 digits, not all the same |
| Validator.CnpjIgnoresCheckDigits | enhanced_validator.py:218-223 | any two final digits are accepted |
| Validator.NomeCompletoNeverFiltered | enhanced_validator.py:138-145 | the capitalised `nome_completo` entries never filter a lower-cased text |
| Validator.PatternConfidence | enhanced_validator.py:155-171 | the pattern confidence lies between 0.4 and 0.95 |
| Validator.PatternConfidenceShortPenalty | enhanced_validator.py:168-171 | a match shorter than three characters scores exactly 0.2 less |
| Validator.NerConfidence | enhanced_validator.py:261-282 | the clamp never bites: the confidence lies between 0.35 and 0.9 |
| Validator.NerConfidenceAdjustments | enhanced_validator.py:261-282 | the confidence is 0.8 plus independent length, digit and upper-case adjustments |
| Validator.StrongPatternsAreHigh | enhanced_validator.py:155-171 | patterns scored 0.95 are all high-severity |
| Validator.NerSeverity | enhanced_validator.py:325-333 | only persons are high; every label outside PER, ORG and LOC is low |
| Validator.FirstOverlap | enhanced_validator.py:382-391 | the index found is the first kept finding that overlaps |
| Validator.DeduplicateSound | enhanced_validator.py:370-396 | the result is drawn from the input, ordered by start, pairwise non-overlapping, and empty only for empty input |
| Validator.DeduplicateKeepsFirst | enhanced_validator.py:383-391 | a later overlapping finding that is not more confident is dropped |
| Validator.DeduplicateReplaces | enhanced_validator.py:386-388 | a strictly more confident overlapping finding replaces the kept one |
| Validator.StatisticsCountAll | enhanced_validator.py:398-427 | the severity counts add up to the number of findings |
| Validator.NothingFoundRecommendations | enhanced_validator.py:429-462 | with nothing found both the low-confidence warning and the all-clear are emitted |
| Validator.AllClearIffNothingFound | enhanced_validator.py:458-461 | the all-clear appears exactly when nothing was found |
| Validator.RiskFromStatistics | enhanced_validator.py:465-478 | risk is high exactly when a finding is high, medium exactly when none is and more than two are medium |
| Validator.HighRiskIsReported | enhanced_validator.py:434-438 | a high risk always comes with the advice to re-process first |
| Validator.ComprehensiveValidation | enhanced_validator.py:335-368 | the report is complete and counts its findings |
| Validator.ReportConsistent | enhanced_validator.py:345-363 | the report's findings are a non-overlapping selection of all findings and its risk agrees with its statistics |
| Sorting.SortStable | anonymizer.py:144 | the sort keeps the input order among elements of equal key |

## Left out

- Model inference: the spaCy pipeline, the entity ruler and the transformers are left out. The spans arrive as input sequences.
- The regex engine: `finditer` hits are inputs. `\b` and `\w` are modelled over ASCII and Latin-1; Python's `\w` is full Unicode. The CPF shape is a hand-written full-match predicate.
- `validate_with_patterns`, `validate_with_ner` and `validate_context_analysis` are regex tables and model calls. Their findings are inputs to `Validator.ComprehensiveValidation`.
- `validate_anonymization_quality` and `validar_anonimizacao` build reports over the model-based validator.
- validator.py is language-model text generation, and pdf_utils.py is PDF I/O. Both are left out.
- The GUI, dialogs and threads of both apps are left out, apart from the revert loops.
- The logging and the printed messages are left out.
- The two module-level `detect_sensitive_data` functions of detection.py are left out. The later one shadows the first and uses an undefined `nlp`.
- Faker is a stream of drawn words (`Anonymizer.Draw`). A generation error gives `[DADO_ANONIMIZADO]`, as in the code.
- Anonymizer.ReplacementValue / Anonymizer.Retry: Faker's output is a finite stream of draws. For a Faker kind, `None` also stands for the stream running out, which the program cannot do; for a constant-mask kind `None` means the uniqueness loop never ends.
- RoundTrip.AnonymizeThenRevert: the round trip is proved for bracket-delimited replacements only. Fake mode's `exemplo1234@email-ficticio.com` values are not covered; fake mode cannot map two CPFs anyway.
- Numbers in a loaded JSON document keep their lexeme. Only their truthiness is modelled, including a float that underflows to `0.0`.
- Validator.DedupStep / Validator.NerConfidence / Validator.PatternConfidence: confidences are exact hundredths, not doubles. Python computes 0.8 - 0.1 and 0.9 - 0.2 as 0.7000000000000001 and 0.6 - 0.2 as 0.39999999999999997. Where the model sees a tie at 0.7 between such a score and a context finding's literal 0.7, the `>` in `_deduplicate_findings` sees a strict winner, so which overlapping finding survives can differ. The lowest pattern score, 0.4 in the model, is 0.39999999999999997 in Python.
- Validator.CalculateStatistics: coverage and average confidence are kept as exact integer totals. The floating-point percentages and `round(…, 2)` are not modelled.
- Validator.Recommendations compares the exact coverage and average against 10% and 0.7, not the values rounded to two decimals. They differ only in a band narrower than 0.005.
- Text.Lower / Validator.DigitsOf: `str.lower` is followed on ASCII and Latin-1 only, and `\d` on ASCII digits only. Python lowers every cased letter ("Ł" becomes "ł") and its `\d` keeps every Unicode decimal digit (fullwidth "１", which `int` reads as 1).
- Anonymizer.PageErrors: the case-insensitive survival test inherits that limit. A key "łukasz" that survives in a page as "Łukasz" is reported by the program and not by the model.
- Anonymizer.IntegrityErrors: the same limit, through `Anonymizer.PageErrors`.
- Anonymizer.ValidateAnonymization: the same limit, through `Anonymizer.IntegrityErrors`.
- Validator.CpfValid: a CPF written in fullwidth digits passes the program's check and fails the model's, through `Validator.DigitsOf`.
- LegacyDetection.CpfShape / LegacyDetection.RelabelSpec: the CPF shape accepts ASCII digits only, while the `\d` of `CPF_REGEX` accepts every Unicode decimal digit, so a fullwidth "１２３.４５６.７８９-０９" matches in Python and not in the model.
- Anonymizer.SafeReplaceAsWritten / Rewrite.Sub: the replacement is inserted as literal text. Python's `re.sub` reads it as a template (`\1`, `\g<…>`, `\n`) and raises `re.error` on a bad escape. Placeholders and the masks contain no backslash; a Faker draw that did would be expanded by the program and not by the model.
- Validator.IsDigitLike and Validator.IsAllUpper follow `str.isdigit` and `str.isupper` on Latin-1 only.
- MappingStore.SplitExt follows `posixpath.splitext`. The Windows rules (backslash separators, drive letters) are not modelled.
- MappingStore.SaveMapping: the JSON text itself (indentation, `ensure_ascii=False`, UTF-8) is not modelled. A file holds the decoded document, so Unicode content is preserved by construction.
- MappingStore.SaveMapping does not model a partially written file left behind by a failed write.

## Findings

| source | as written | input that shows it | evidently intended | confidence | as-written member | corrected member |
|---|---|---|---|---|---|---|
| Anonimatizacao/detection.py:125-133 | the PHONE → CPF post-pass uses `PADRAO_CPF`, which this file never defines, so `NameError` is raised | any page with a phone number, e.g. "(11) 98765-4321" | CPF-shaped PHONE entries become CPF and everything else is returned unchanged | high; not executed | LegacyDetection.AsWrittenFailsOnPhone | LegacyDetection.RelabelSpec |
| app_fixed.py:428-429 | the error callback is a lambda that reads `e` when Tk runs it, after the `except` block has deleted `e`, so it raises `NameError`: no dialog, and the UI stays busy | a mapping file that is not UTF-8, or a mapping `{"Ana": 1}` | the exception's message shown, as the validation thread does by passing `e` as an argument | medium; not executed | Reversion.LoadAndRevertThreaded | Reversion.LoadAndRevertThreadedBound |
| anonymizer.py:94-101 | `\bX\b` needs a word character after an item that ends in punctuation, so the item is not replaced and the boundary check accepts the untouched text | "Alfa Ltda. paga" with the item "Alfa Ltda." | every occurrence not glued to a word is replaced, which `(?<!\w)X(?!\w)` does | high; not executed | AnonymizerExamples.FirmLeaksAsWritten | AnonymizerExamples.FirmReplaced |

=== FILE: Anonymizer.dfy ===
/** The substitution engine of anonymizer.py (`ImprovedAnonymizer`): one
    replacement per sensitive item, numbered placeholders or Faker values,
    then every page rewritten longest original first. Faker is an oracle: the
    values it would return are supplied as a stream of draws. */
module Anonymizer {
  import opened Base
  import opened Text
  import opened Sorting
  import opened Config
  import opened Rewrite

  /** The switches the engine reads from `SUBSTITUTION_CONFIG` and `VALIDATION_CONFIG`. */
  datatype Settings = Settings(
    usePlaceholders: bool,
    preserveStructure: bool,
    checkTokenBoundaries: bool,
    checkDocumentIntegrity: bool,
    counterKinds: seq<string>)

  /** The engine as configured in config.py; the counters reset are the values of `ENTITY_TYPES`. */
  const Default: Settings := Settings(
    Substitution.usePlaceholders, Substitution.preserveStructure,
    Validation.checkTokenBoundaries, Validation.checkDocumentIntegrity,
    CounterKinds)

  // ---------------------------------------------------------------- counters

  /** Per-kind placeholder counters. */
  type Counters = Dict<string, nat>

  /** `_reset_counters`: `{kind: 0 for kind in kinds}`. */
  function ResetCounters(kinds: seq<string>): (c: Counters)
    ensures forall k :: Lookup(c, k) == (if k in kinds then Some(0) else None)
  {
    if kinds == [] then []
    else
      var init := kinds[..|kinds| - 1];
      assert kinds == init + [kinds[|kinds| - 1]];
      Put(ResetCounters(init), kinds[|kinds| - 1], 0)
  }

  /** `entity_counters.get(kind, 0)`. */
  function Count(c: Counters, kind: string): nat {
    match Lookup(c, kind)
    case None => 0
    case Some(n) => n
  }

  /** Fresh counters read zero for every kind, reset or not. */
  lemma ResetReadsZero(kinds: seq<string>, kind: string)
    ensures Count(ResetCounters(kinds), kind) == 0
  {
    assert Lookup(ResetCounters(kinds), kind) == (if kind in kinds then Some(0) else None);
  }

  /** The format `[{entity_type}_{counter}]`. */
  function Placeholder(kind: string, n: nat): string {
    "[" + kind + "_" + Decimal(n) + "]"
  }

  /** `_get_next_placeholder`: bump the kind's counter and format it. */
  function NextPlaceholder(c: Counters, kind: string): (r: (string, Counters))
    ensures Count(r.1, kind) == Count(c, kind) + 1
    ensures forall k :: k != kind ==> Lookup(r.1, k) == Lookup(c, k)
    ensures r.0 == Placeholder(kind, Count(r.1, kind))
  {
    var n: nat := Count(c, kind) + 1;
    (Placeholder(kind, n), Put(c, kind, n))
  }

  /** Length of the run of digits that ends `s`. */
  function TrailingDigits(s: string): nat {
    if s == [] || !IsDigit(s[|s| - 1]) then 0 else 1 + TrailingDigits(s[..|s| - 1])
  }

  lemma {:induction false} TrailingDigitsAfterUnderscore(k: string, d: string)
    requires forall i :: 0 <= i < |d| ==> IsDigit(d[i])
    ensures TrailingDigits(k + "_" + d) == |d|
    decreases |d|
  {
    var s := k + "_" + d;
    if d == [] {
      assert s[|s| - 1] == '_';
    } else {
      var d' := d[..|d| - 1];
      assert s[|s| - 1] == d[|d| - 1];
      assert s[..|s| - 1] == k + "_" + d';
      TrailingDigitsAfterUnderscore(k, d');
    }
  }

  /** Placeholders are injective: the kind and the number can be read back. */
  lemma PlaceholderInjective(k1: string, n1: nat, k2: string, n2: nat)
    ensures Placeholder(k1, n1) == Placeholder(k2, n2) <==> k1 == k2 && n1 == n2
  {
    if Placeholder(k1, n1) == Placeholder(k2, n2) {
      var d1, d2 := Decimal(n1), Decimal(n2);
      var p := Placeholder(k1, n1);
      var b := p[1..|p| - 1];
      assert b == k1 + "_" + d1;
      assert b == k2 + "_" + d2;
      TrailingDigitsAfterUnderscore(k1, d1);
      TrailingDigitsAfterUnderscore(k2, d2);
      assert d1 == b[|b| - |d1|..] == d2;
      assert k1 == b[..|k1|] == k2;
      DecimalInjective(n1, n2);
    }
  }

  // ------------------------------------------------------------------- Faker

  /** What one call of `_generate_fake_value` may obtain from Faker:
      `first_name()`, `company()`, `city()` and `random_int(1000, 9999)`. */
  datatype Draw = Draw(firstName: string, company: string, city: string, number: nat)

  /** The leading non-space run of `s`. */
  function TakeWord(s: string): (w: string)
    ensures |w| <= |s| && w == s[..|w|]
    ensures forall i :: 0 <= i < |w| ==> !IsSpace(w[i])
    ensures |w| == |s| || IsSpace(s[|w|])
  {
    if s == [] || IsSpace(s[0]) then [] else [s[0]] + TakeWord(s[1..])
  }

  /** `s.split()[0]`; `None` where Python raises `IndexError` (a blank string). */
  function FirstWord(s: string): (r: Option<string>)
    ensures r.None? <==> forall i :: 0 <= i < |s| ==> IsSpace(s[i])
    ensures r.Some? ==> r.value != [] && forall i :: 0 <= i < |r.value| ==> !IsSpace(r.value[i])
  {
    var t := TrimStart(s);
    if t == [] then None else Some(TakeWord(t))
  }

  /** The value returned when generation fails, and for every unknown kind. */
  const Anonymised: string := "[DADO_ANONIMIZADO]"

  /** The kinds whose fake value comes from Faker; every other kind gets a constant. */
  predicate UsesFaker(kind: string) {
    kind in ["PESSOA", "PERSON", "ORGANIZACAO", "ORG", "LOCAL", "LOC", "EMAIL"]
  }

  /** The constant masks: clearly fake shapes, the same on every call. */
  function Mask(kind: string): string {
    if kind == "TELEFONE" || kind == "PHONE" then "(XX) XXXXX-XXXX"
    else if kind == "CPF" then "XXX.XXX.XXX-XX"
    else if kind == "CNPJ" then "XX.XXX.XXX/XXXX-XX"
    else if kind == "CEP" then "XXXXX-XXX"
    else if kind == "RG" then "XX.XXX.XXX-X"
    else Anonymised
  }

  /** A Faker word wrapped in its marker, or the fallback when the word is missing. */
  function Marked(prefix: string, w: Option<string>): string {
    match w
    case None => Anonymised
    case Some(x) => prefix + x + "]"
  }

  /** `_generate_fake_value`. */
  function FakeValue(kind: string, d: Draw): (r: string)
    ensures r != []
    ensures !UsesFaker(kind) ==> r == Mask(kind)
  {
    if kind == "PESSOA" || kind == "PERSON" then "[NOME_FICTICIO_" + d.firstName + "]"
    else if kind == "ORGANIZACAO" || kind == "ORG" then Marked("[EMPRESA_FICTICIA_", FirstWord(d.company))
    else if kind == "LOCAL" || kind == "LOC" then Marked("[LOCAL_FICTICIO_", FirstWord(d.city))
    else if kind == "EMAIL" then "exemplo" + Decimal(d.number) + "@email-ficticio.com"
    else Mask(kind)
  }

  // ------------------------------------------------------- replacement values

  /** The engine's mutable state during one call: the counters and what Faker has left. */
  datatype Session = Session(counters: Counters, draws: seq<Draw>)

  /** `_get_replacement_value`. A constant-mask kind never calls Faker and
      takes no draw; a Faker kind takes one, and yields `None` when the draws
      are used up. */
  function ReplacementValue(st: Settings, s: Session, kind: string): (r: Option<(string, Session)>)
    ensures st.usePlaceholders ==> r.Some? && r.value.1.draws == s.draws
    ensures !st.usePlaceholders ==> (r.Some? <==> s.draws != [] || !UsesFaker(kind))
    ensures !st.usePlaceholders && !UsesFaker(kind) ==> r == Some((Mask(kind), s))
    ensures r.Some? ==> |r.value.1.draws| <= |s.draws|
    ensures !st.usePlaceholders && r.Some? ==> r.value.1.counters == s.counters
    ensures !st.usePlaceholders && UsesFaker(kind) && r.Some? ==> |r.value.1.draws| < |s.draws|
  {
    if st.usePlaceholders then
      var (v, c) := NextPlaceholder(s.counters, kind);
      Some((v, Session(c, s.draws)))
    else if !UsesFaker(kind) then Some((Mask(kind), s))
    else if s.draws == [] then None
    else Some((FakeValue(kind, s.draws[0]), Session(s.counters, s.draws[1..])))
  }

  /** The uniqueness loop `while replacement in valores_usados`. A used
      constant mask comes back on every retry, so the loop never ends (`None`);
      a Faker kind takes one draw per retry, and `None` also stands for the
      draws running out before a fresh value appears. */
  function Retry(s: Session, kind: string, v: string, used: set<string>): (r: Option<(string, Session)>)
    ensures r.Some? ==> r.value.0 !in used
    ensures r.Some? ==> |r.value.1.draws| <= |s.draws|
    ensures !UsesFaker(kind) && v in used ==> r.None?
    decreases |s.draws|
  {
    if v !in used then Some((v, s))
    else if !UsesFaker(kind) || s.draws == [] then None
    else Retry(Session(s.counters, s.draws[1..]), kind, FakeValue(kind, s.draws[0]), used)
  }

  /** Everything the mapping loop does for an original not yet mapped: its
      replacement, the session after it and the set of values used so far. */
  function Step(st: Settings, s: Session, kind: string, used: set<string>): (r: Option<(string, Session, set<string>)>)
    ensures st.usePlaceholders ==>
      r == Some((NextPlaceholder(s.counters, kind).0, Session(NextPlaceholder(s.counters, kind).1, s.draws), used))
    ensures !st.usePlaceholders && r.Some? ==> r.value.0 !in used && r.value.2 == used + {r.value.0}
  {
    match ReplacementValue(st, s, kind)
    case None => None
    case Some((v, s1)) =>
      if st.usePlaceholders then Some((v, s1, used))
      else match Retry(s1, kind, v, used)
        case None => None
        case Some((v', s2)) => Some((v', s2, used + {v'}))
  }

  /** The mapping loop of `anonymize_texts`, from the item at the head of `items` on. */
  function BuildFrom(st: Settings, items: Dict<string, string>, s: Session,
                     m: Dict<string, string>, used: set<string>): (r: Option<(Dict<string, string>, Session)>)
    ensures st.usePlaceholders ==> r.Some?
    decreases |items|
  {
    if items == [] then Some((m, s))
    else if items[0].0 in Keys(m) then BuildFrom(st, items[1..], s, m, used)
    else match Step(st, s, items[0].1, used)
      case None => None
      case Some((v, s', used')) => BuildFrom(st, items[1..], s', Put(m, items[0].0, v), used')
  }

  /** The mapping `anonymize_texts` builds, counters freshly reset. */
  function Mapping(st: Settings, items: Dict<string, string>, draws: seq<Draw>): (r: Option<Dict<string, string>>)
    ensures st.usePlaceholders ==> r.Some?
  {
    match BuildFrom(st, items, Session(ResetCounters(st.counterKinds), draws), [], {})
    case None => None
    case Some((m, _)) => Some(m)
  }

  // ---------------------------------------------------------------- rewriting

  /** The search `\wR|\bR\w` of `_validate_replacement` at `j`: the replacement
      glued to a word on its left, or starting a word and running into one. */
  predicate GluedAt(t: string, rep: string, j: int) {
    MatchAt(t, rep, j) && (WordBefore(t, j) || (Boundary(t, j) && WordAt(t, j + |rep|)))
  }

  predicate Glued(t: string, rep: string) {
    exists j | 0 <= j <= |t| :: GluedAt(t, rep, j)
  }

  /** `_validate_replacement`. */
  predicate ValidReplacement(st: Settings, rep: string, after: string) {
    !st.checkTokenBoundaries || !Glued(after, rep)
  }

  /** A replacement that opens with a non-word character, as every placeholder does,
      is glued exactly where it directly follows a word character. */
  lemma GluedBracketed(t: string, rep: string, j: int)
    requires rep != [] && !IsWordChar(rep[0])
    ensures GluedAt(t, rep, j) <==> MatchAt(t, rep, j) && WordBefore(t, j)
  {
    if MatchAt(t, rep, j) {
      assert t[j] == t[j..j + |rep|][0] == rep[0];
    }
  }

  /** `_perform_safe_replacement` as written: `\bX\b`, falling back to
      `str.replace` on the original text when the result looks glued. */
  function SafeReplaceAsWritten(st: Settings, text: string, orig: string, rep: string): string {
    var t := Sub(WordBounded, text, orig, rep);
    if ValidReplacement(st, rep, t) then t else ReplaceAll(text, orig, rep)
  }

  /** The same step with the anchor `(?<!\w)X(?!\w)`, which also replaces items
      that begin or end with punctuation. */
  function SafeReplace(st: Settings, text: string, orig: string, rep: string): string {
    var t := Sub(Standalone, text, orig, rep);
    if ValidReplacement(st, rep, t) then t else ReplaceAll(text, orig, rep)
  }

  /** Both forms only ever swap occurrences of the original for the replacement. */
  lemma SafeReplaceSwapsOnly(st: Settings, text: string, orig: string, rep: string)
    requires orig != []
    ensures Replaced(text, SafeReplace(st, text, orig, rep), orig, rep)
    ensures Replaced(text, SafeReplaceAsWritten(st, text, orig, rep), orig, rep)
  {
    SubReplaced(Standalone, text, orig, rep, 0);
    SubReplaced(WordBounded, text, orig, rep, 0);
    ReplaceAllReplaced(text, orig, rep);
    assert text[0..] == text;
  }

  /** An item that begins and ends with a word character is treated identically by both forms. */
  lemma SafeReplaceAgrees(st: Settings, text: string, orig: string, rep: string)
    requires orig != [] && IsWordChar(orig[0]) && IsWordChar(orig[|orig| - 1])
    ensures SafeReplace(st, text, orig, rep) == SafeReplaceAsWritten(st, text, orig, rep)
  {
    SubAgree(text, orig, rep, 0);
  }

  /** One rewriting step: `_perform_safe_replacement` as written (the `\bX\b`
      anchor) when `preserve_structure` is on, plain `str.replace` otherwise. */
  function ReplaceStep(st: Settings, text: string, orig: string, rep: string): string {
    if st.preserveStructure then SafeReplaceAsWritten(st, text, orig, rep) else ReplaceAll(text, orig, rep)
  }

  /** The step only ever swaps occurrences of the original for its replacement. */
  lemma ReplaceStepSwapsOnly(st: Settings, text: string, orig: string, rep: string)
    requires orig != []
    ensures Replaced(text, ReplaceStep(st, text, orig, rep), orig, rep)
  {
    SafeReplaceSwapsOnly(st, text, orig, rep);
    ReplaceAllReplaced(text, orig, rep);
  }

  /** Goes first when its original is strictly longer: `key=len, reverse=True`. */
  predicate LongerKey(p: (string, string), q: (string, string)) {
    |p.0| > |q.0|
  }

  /** `sorted(mapeamento.keys(), key=len, reverse=True)`, each key with its replacement. */
  function LongestFirst(m: Dict<string, string>): (r: Dict<string, string>)
    ensures |r| == |m| && multiset(r) == multiset(m)
  {
    Sort(m, LongerKey)
  }

  /** The order is by non-increasing length of the original. */
  lemma LongestFirstOrdered(m: Dict<string, string>)
    ensures forall i, j :: 0 <= i < j < |m| ==> |LongestFirst(m)[i].0| >= |LongestFirst(m)[j].0|
  {
    SortSorted(m, LongerKey);
    SortedToPairs(LongestFirst(m), LongerKey);
  }

  /** Originals of equal length keep their insertion order (the sort is stable). */
  function KeyLength(n: nat): ((string, string)) -> bool {
    (p: (string, string)) => |p.0| == n
  }

  lemma LongestFirstStable(m: Dict<string, string>, n: nat)
    ensures Filter(LongestFirst(m), KeyLength(n)) == Filter(m, KeyLength(n))
  {
    SortStable(m, LongerKey, KeyLength(n));
  }

  /** The inner loop over the sorted keys for one page. */
  function RewritePage(st: Settings, text: string, pairs: Dict<string, string>): string
    decreases |pairs|
  {
    if pairs == [] then text
    else RewritePage(st, ReplaceStep(st, text, pairs[0].0, pairs[0].1), pairs[1..])
  }

  function RewritePages(st: Settings, pages: seq<string>, pairs: Dict<string, string>): (r: seq<string>)
    ensures |r| == |pages|
    ensures forall i :: 0 <= i < |pages| ==> r[i] == RewritePage(st, pages[i], pairs)
  {
    if pages == [] then [] else [RewritePage(st, pages[0], pairs)] + RewritePages(st, pages[1..], pairs)
  }

  /** `anonymize_texts`: the rewritten pages and the mapping original to
      replacement; `None` when fake-value mode runs out of draws. */
  function AnonymizeTexts(st: Settings, pages: seq<string>, items: Dict<string, string>,
                          draws: seq<Draw>): (r: Option<(seq<string>, Dict<string, string>)>)
    ensures pages == [] || items == [] ==> r == Some((pages, []))
    ensures st.usePlaceholders ==> r.Some?
    ensures r.Some? ==> |r.value.0| == |pages|
  {
    if pages == [] || items == [] then Some((pages, []))
    else match Mapping(st, items, draws)
      case None => None
      case Some(m) => Some((RewritePages(st, pages, LongestFirst(m)), m))
  }

  // --------------------------------------------------------------- validation

  /** The outcome of `validate_anonymization`. */
  datatype Report = Report(
    errors: seq<string>,
    warnings: seq<string>,
    totalReplacements: nat,
    pagesProcessed: nat,
    integrityCheck: bool)

  function SurvivorMessage(k: string): string {
    "Original data '" + k + "' still present in anonymized text"
  }

  /** No key survives, compared lower-cased, in the page. */
  predicate Clean(keys: seq<string>, page: string) {
    forall i :: 0 <= i < |keys| ==> !Occurs(Lower(keys[i]), Lower(page))
  }

  /** One error per key whose lower-cased text is still in the lower-cased page. */
  function PageErrors(keys: seq<string>, page: string): (r: seq<string>)
    ensures |r| <= |keys|
    ensures r == [] <==> Clean(keys, page)
  {
    if keys == [] then []
    else
      assert forall i :: 0 < i < |keys| ==> keys[i] == keys[1..][i - 1];
      (if Occurs(Lower(keys[0]), Lower(page)) then [SurvivorMessage(keys[0])] else [])
      + PageErrors(keys[1..], page)
  }

  /** The error loop over `zip(original_texts, anonymized_texts)`: the original
      pages only bound how many anonymized pages are looked at. */
  function IntegrityErrors(origs: seq<string>, anons: seq<string>, keys: seq<string>): (r: seq<string>)
    ensures r == [] <==> forall p :: 0 <= p < |origs| && p < |anons| ==> Clean(keys, anons[p])
    decreases |anons|
  {
    if origs == [] || anons == [] then []
    else
      assert forall p :: 0 < p < |origs| && p < |anons| ==> anons[p] == anons[1..][p - 1];
      PageErrors(keys, anons[0]) + IntegrityErrors(origs[1..], anons[1..], keys)
  }

  /** `\w[A-Z][a-z]+[A-Z]` matches at `i`. */
  predicate ConcatAt(t: string, i: int) {
    && 0 <= i && i + 3 < |t|
    && IsWordChar(t[i]) && IsAsciiUpper(t[i + 1])
    && exists j | i + 3 <= j < |t| ::
         IsAsciiUpper(t[j]) && forall k | i + 2 <= k < j :: IsAsciiLower(t[k])
  }

  predicate Concatenated(t: string) {
    exists i | 0 <= i < |t| :: ConcatAt(t, i)
  }

  /** One warning per anonymized page with a suspicious concatenation. */
  function ConcatWarnings(anons: seq<string>): (r: seq<string>)
    ensures |r| <= |anons|
    ensures r == [] <==> forall p :: 0 <= p < |anons| ==> !Concatenated(anons[p])
  {
    if anons == [] then []
    else
      assert forall p :: 0 < p < |anons| ==> anons[p] == anons[1..][p - 1];
      (if Concatenated(anons[0]) then ["Potential word concatenation detected in anonymized text"] else [])
      + ConcatWarnings(anons[1..])
  }

  /** `validate_anonymization`. */
  function ValidateAnonymization(st: Settings, origs: seq<string>, anons: seq<string>,
                                 m: Dict<string, string>): (r: Report)
    ensures r.totalReplacements == |m| && r.pagesProcessed == |anons|
    ensures r.integrityCheck <==> r.errors == []
    ensures !st.checkDocumentIntegrity ==> r.integrityCheck && r.warnings == []
    ensures st.checkDocumentIntegrity ==>
      (r.integrityCheck <==> forall p :: 0 <= p < |origs| && p < |anons| ==> Clean(Keys(m), anons[p]))
    ensures st.checkDocumentIntegrity ==>
      (r.warnings == [] <==> forall p :: 0 <= p < |anons| ==> !Concatenated(anons[p]))
  {
    if !st.checkDocumentIntegrity then Report([], [], |m|, |anons|, true)
    else
      var errs := IntegrityErrors(origs, anons, Keys(m));
      Report(errs, ConcatWarnings(anons), |m|, |anons|, errs == [])
  }

  // ------------------------------------------------------- mapping properties

  /** Number of items of the given kind. */
  function KindCount(items: Dict<string, string>, kind: string): nat {
    if items == [] then 0 else (if items[0].1 == kind then 1 else 0) + KindCount(items[1..], kind)
  }

  lemma {:induction false} KindCountAppend(a: Dict<string, string>, b: Dict<string, string>, kind: string)
    ensures KindCount(a + b, kind) == KindCount(a, kind) + KindCount(b, kind)
    decreases |a|
  {
    if a == [] {
      assert a + b == b;
    } else {
      assert (a + b)[1..] == a[1..] + b;
      KindCountAppend(a[1..], b, kind);
    }
  }

  /** A later item of the same kind has seen strictly more items of that kind. */
  lemma KindCountGrows(items: Dict<string, string>, i: nat, j: nat)
    requires i < j <= |items|
    ensures KindCount(items[..j], items[i].1) >= KindCount(items[..i], items[i].1) + 1
  {
    assert items[..j] == items[..i] + items[i..j];
    KindCountAppend(items[..i], items[i..j], items[i].1);
  }

  /** The head item moves from "to come" to "seen". */
  lemma KindCountShift(items: Dict<string, string>, i: nat, kind: string)
    requires 0 < i <= |items|
    ensures KindCount(items[..i], kind) == (if items[0].1 == kind then 1 else 0) + KindCount(items[1..][..i - 1], kind)
  {
    assert items[..i][1..] == items[1..][..i - 1];
  }

  /** Dropping the head of a dict with distinct keys. */
  lemma DistinctTail(items: Dict<string, string>)
    requires DistinctKeys(items) && items != []
    ensures DistinctKeys(items[1..])
    ensures forall j :: 0 <= j < |items[1..]| ==> items[1..][j].0 != items[0].0
  {
    assert Keys(items[1..]) == Keys(items)[1..];
    forall j | 0 <= j < |items[1..]| ensures items[1..][j].0 != items[0].0 {
      assert Keys(items)[0] != Keys(items)[j + 1];
    }
  }

  /** Mapping a new original: its key goes to the end, nothing else moves. */
  lemma AddNew(m: Dict<string, string>, orig: string, v: string, items: Dict<string, string>)
    requires DistinctKeys(items) && items != [] && orig == items[0].0
    requires forall j :: 0 <= j < |items| ==> items[j].0 !in Keys(m)
    ensures Keys(Put(m, orig, v)) == Keys(m) + [orig]
    ensures forall j :: 0 <= j < |items[1..]| ==> items[1..][j].0 !in Keys(Put(m, orig, v))
    ensures DistinctKeys(items[1..])
  {
    assert orig !in Keys(m);
    DistinctTail(items);
  }

  /** An original already mapped keeps its replacement. */
  lemma {:induction false} BuildKeepsOld(st: Settings, items: Dict<string, string>, s: Session,
                                          m: Dict<string, string>, used: set<string>, k: string)
    requires k in Keys(m)
    requires BuildFrom(st, items, s, m, used).Some?
    ensures Lookup(BuildFrom(st, items, s, m, used).value.0, k) == Lookup(m, k)
    decreases |items|
  {
    if items != [] {
      var orig := items[0].0;
      if orig in Keys(m) {
        BuildKeepsOld(st, items[1..], s, m, used, k);
      } else {
        var (v, s', used') := Step(st, s, items[0].1, used).value;
        var m' := Put(m, orig, v);
        assert Lookup(m', k) == Lookup(m, k);
        BuildKeepsOld(st, items[1..], s', m', used', k);
      }
    }
  }

  /** One turn of the mapping loop for an original not yet mapped. */
  lemma BuildUnfold(st: Settings, items: Dict<string, string>, s: Session,
                    m: Dict<string, string>, used: set<string>)
    requires items != [] && items[0].0 !in Keys(m)
    ensures Step(st, s, items[0].1, used).None? ==> BuildFrom(st, items, s, m, used).None?
    ensures Step(st, s, items[0].1, used).Some? ==>
      var (v, s', used') := Step(st, s, items[0].1, used).value;
      BuildFrom(st, items, s, m, used) == BuildFrom(st, items[1..], s', Put(m, items[0].0, v), used')
  {
  }

  /** The mapping's originals are the item keys, in the items' order. */
  lemma {:induction false} BuildKeys(st: Settings, items: Dict<string, string>, s: Session,
                                      m: Dict<string, string>, used: set<string>)
    requires DistinctKeys(items)
    requires forall j :: 0 <= j < |items| ==> items[j].0 !in Keys(m)
    requires BuildFrom(st, items, s, m, used).Some?
    ensures Keys(BuildFrom(st, items, s, m, used).value.0) == Keys(m) + Keys(items)
    decreases |items|
  {
    if items == [] {
      assert Keys(items) == [];
    } else {
      var orig := items[0].0;
      BuildUnfold(st, items, s, m, used);
      var r := Step(st, s, items[0].1, used);
      var v, s', used' := r.value.0, r.value.1, r.value.2;
      var m' := Put(m, orig, v);
      AddNew(m, orig, v, items);
      BuildKeys(st, items[1..], s', m', used');
      assert Keys(items) == [orig] + Keys(items[1..]);
      AppendAssoc(Keys(m), [orig], Keys(items[1..]));
    }
  }

  /** `anonymize_texts` maps exactly the sensitive items, in their insertion
      order; the `continue` for an already-mapped original never fires. */
  lemma MappingKeys(st: Settings, items: Dict<string, string>, draws: seq<Draw>)
    requires DistinctKeys(items)
    requires Mapping(st, items, draws).Some?
    ensures Keys(Mapping(st, items, draws).value) == Keys(items)
  {
    BuildKeys(st, items, Session(ResetCounters(st.counterKinds), draws), [], {});
    assert [] + Keys(items) == Keys(items);
  }

  /** Placeholder mode: one turn of the mapping loop for an original not yet mapped. */
  lemma PlaceholderTurn(st: Settings, items: Dict<string, string>, s: Session,
                        m: Dict<string, string>, used: set<string>)
    requires st.usePlaceholders && items != [] && items[0].0 !in Keys(m)
    ensures var (v, c1) := NextPlaceholder(s.counters, items[0].1);
      BuildFrom(st, items, s, m, used) == BuildFrom(st, items[1..], Session(c1, s.draws), Put(m, items[0].0, v), used)
  {
    BuildUnfold(st, items, s, m, used);
  }

  /** Bumping one kind's counter leaves every other kind's count alone. */
  lemma NextCount(c: Counters, kind: string, k: string)
    ensures Count(NextPlaceholder(c, kind).1, k) == Count(c, k) + (if k == kind then 1 else 0)
  {
  }

  /** Placeholder mode: the item at `i` is numbered after the items of its kind
      before it; `n` names that number. */
  lemma {:induction false} BuildPlaceholders(st: Settings, items: Dict<string, string>, s: Session,
                                              m: Dict<string, string>, used: set<string>, i: nat, n: nat)
    requires st.usePlaceholders
    requires DistinctKeys(items)
    requires forall j :: 0 <= j < |items| ==> items[j].0 !in Keys(m)
    requires i < |items|
    requires n == Count(s.counters, items[i].1) + KindCount(items[..i], items[i].1) + 1
    ensures Lookup(BuildFrom(st, items, s, m, used).value.0, items[i].0) == Some(Placeholder(items[i].1, n))
    decreases |items|, 1
  {
    if i == 0 {
      assert items[..i] == [];
      PlaceholderHead(st, items, s, m, used, n);
    } else {
      PlaceholderLater(st, items, s, m, used, i, n);
    }
  }

  /** A later item: the head's number is spent, and only counts if it has the same kind. */
  lemma {:induction false} PlaceholderLater(st: Settings, items: Dict<string, string>, s: Session,
                                             m: Dict<string, string>, used: set<string>, i: nat, n: nat)
    requires st.usePlaceholders
    requires DistinctKeys(items)
    requires forall j :: 0 <= j < |items| ==> items[j].0 !in Keys(m)
    requires 0 < i < |items|
    requires n == Count(s.counters, items[i].1) + KindCount(items[..i], items[i].1) + 1
    ensures Lookup(BuildFrom(st, items, s, m, used).value.0, items[i].0) == Some(Placeholder(items[i].1, n))
    decreases |items|, 0
  {
    var orig, kind, K := items[0].0, items[0].1, items[i].1;
    var p := NextPlaceholder(s.counters, kind);
    var s1 := Session(p.1, s.draws);
    var m' := Put(m, orig, p.0);
    AddNew(m, orig, p.0, items);
    PlaceholderTurn(st, items, s, m, used);
    assert BuildFrom(st, items, s, m, used) == BuildFrom(st, items[1..], s1, m', used);
    var tl, j := items[1..], i - 1;
    assert tl[j] == items[i];
    KindCountShift(items, i, K);
    NextCount(s.counters, kind, K);
    BuildPlaceholders(st, tl, s1, m', used, j, n);
  }

  /** The head item gets the next number of its kind. */
  lemma PlaceholderHead(st: Settings, items: Dict<string, string>, s: Session,
                        m: Dict<string, string>, used: set<string>, n: nat)
    requires st.usePlaceholders
    requires DistinctKeys(items)
    requires forall j :: 0 <= j < |items| ==> items[j].0 !in Keys(m)
    requires items != []
    requires n == Count(s.counters, items[0].1) + 1
    ensures Lookup(BuildFrom(st, items, s, m, used).value.0, items[0].0) == Some(Placeholder(items[0].1, n))
  {
    var orig, kind := items[0].0, items[0].1;
    var p := NextPlaceholder(s.counters, kind);
    var m' := Put(m, orig, p.0);
    AddNew(m, orig, p.0, items);
    PlaceholderTurn(st, items, s, m, used);
    var rest := BuildFrom(st, items[1..], Session(p.1, s.draws), m', used);
    assert BuildFrom(st, items, s, m, used) == rest;
    BuildKeepsOld(st, items[1..], Session(p.1, s.draws), m', used, orig);
    assert Lookup(rest.value.0, orig) == Some(p.0);
    NextCount(s.counters, kind, kind);
    assert Count(p.1, kind) == n;
    assert p.0 == Placeholder(kind, n);
  }

  /** Placeholder mode: the n-th item of kind K maps to `[K_n]`, counting from 1
      in every call, whatever the counters held before. */
  lemma PlaceholderNumbering(st: Settings, items: Dict<string, string>, draws: seq<Draw>, i: nat)
    requires st.usePlaceholders
    requires DistinctKeys(items)
    requires i < |items|
    ensures Lookup(Mapping(st, items, draws).value, items[i].0)
         == Some(Placeholder(items[i].1, KindCount(items[..i], items[i].1) + 1))
  {
    var s := Session(ResetCounters(st.counterKinds), draws);
    var k, v := items[i].0, Placeholder(items[i].1, KindCount(items[..i], items[i].1) + 1);
    ResetReadsZero(st.counterKinds, items[i].1);
    BuildFromEmpty(st, items, s, i, KindCount(items[..i], items[i].1) + 1);
    MappingLookup(st, items, draws, k, v);
  }

  /** What the loop stored under `k` is what the mapping holds under `k`. */
  lemma MappingLookup(st: Settings, items: Dict<string, string>, draws: seq<Draw>, k: string, v: string)
    requires st.usePlaceholders
    requires Lookup(BuildFrom(st, items, Session(ResetCounters(st.counterKinds), draws), [], {}).value.0, k) == Some(v)
    ensures Lookup(Mapping(st, items, draws).value, k) == Some(v)
  {
    MappingIsBuild(st, items, draws);
  }

  /** The same count, from an empty mapping and any counters. */
  lemma BuildFromEmpty(st: Settings, items: Dict<string, string>, s: Session, i: nat, n: nat)
    requires st.usePlaceholders
    requires DistinctKeys(items)
    requires i < |items|
    requires n == Count(s.counters, items[i].1) + KindCount(items[..i], items[i].1) + 1
    ensures Lookup(BuildFrom(st, items, s, [], {}).value.0, items[i].0) == Some(Placeholder(items[i].1, n))
  {
    assert Keys<string, string>([]) == [];
    BuildPlaceholders(st, items, s, [], {}, i, n);
  }

  lemma MappingIsBuild(st: Settings, items: Dict<string, string>, draws: seq<Draw>)
    requires st.usePlaceholders
    ensures Mapping(st, items, draws).value
         == BuildFrom(st, items, Session(ResetCounters(st.counterKinds), draws), [], {}).value.0
  {
  }

  /** The replacement stored at position `i` of the mapping. */
  lemma MappingAt(st: Settings, items: Dict<string, string>, draws: seq<Draw>, i: nat)
    requires st.usePlaceholders
    requires DistinctKeys(items)
    requires i < |items|
    ensures |Mapping(st, items, draws).value| == |items|
    ensures Mapping(st, items, draws).value[i].1
         == Placeholder(items[i].1, KindCount(items[..i], items[i].1) + 1)
  {
    var m := Mapping(st, items, draws).value;
    MappingKeys(st, items, draws);
    assert m[i].0 == Keys(m)[i] == items[i].0;
    LookupDistinct(m, i);
    PlaceholderNumbering(st, items, draws, i);
  }

  lemma MappingAtDiffer(st: Settings, items: Dict<string, string>, draws: seq<Draw>, i: nat, j: nat)
    requires st.usePlaceholders
    requires DistinctKeys(items)
    requires i < j < |items|
    ensures |Mapping(st, items, draws).value| == |items|
    ensures Mapping(st, items, draws).value[i].1 != Mapping(st, items, draws).value[j].1
  {
    var ni, nj := KindCount(items[..i], items[i].1) + 1, KindCount(items[..j], items[j].1) + 1;
    MappingAt(st, items, draws, i);
    MappingAt(st, items, draws, j);
    if items[i].1 == items[j].1 {
      KindCountGrows(items, i, j);
    }
    PlaceholderInjective(items[i].1, ni, items[j].1, nj);
  }

  /** Placeholder mode: no two originals share a replacement. */
  lemma PlaceholdersDistinct(st: Settings, items: Dict<string, string>, draws: seq<Draw>)
    requires st.usePlaceholders
    requires DistinctKeys(items)
    ensures Distinct(Values(Mapping(st, items, draws).value))
  {
    var m := Mapping(st, items, draws).value;
    MappingKeys(st, items, draws);
    forall i, j | 0 <= i < j < |m| ensures Values(m)[i] != Values(m)[j] {
      MappingAtDiffer(st, items, draws, i, j);
    }
  }

  /** Placeholder mode never consults Faker: the mapping is the same for every draw stream. */
  lemma {:induction false} BuildIgnoresDraws(st: Settings, items: Dict<string, string>, c: Counters,
                                              d1: seq<Draw>, d2: seq<Draw>, m: Dict<string, string>, used: set<string>)
    requires st.usePlaceholders
    ensures BuildFrom(st, items, Session(c, d1), m, used).value.0
         == BuildFrom(st, items, Session(c, d2), m, used).value.0
    decreases |items|
  {
    if items != [] {
      var (orig, kind) := items[0];
      if orig in Keys(m) {
        BuildIgnoresDraws(st, items[1..], c, d1, d2, m, used);
      } else {
        var (v, c1) := NextPlaceholder(c, kind);
        BuildIgnoresDraws(st, items[1..], c1, d1, d2, Put(m, orig, v), used);
      }
    }
  }

  lemma PlaceholderMappingDeterministic(st: Settings, items: Dict<string, string>, d1: seq<Draw>, d2: seq<Draw>)
    requires st.usePlaceholders
    ensures Mapping(st, items, d1) == Mapping(st, items, d2)
  {
    BuildIgnoresDraws(st, items, ResetCounters(st.counterKinds), d1, d2, [], {});
  }

  /** Fake-value mode: a mapping that is produced at all has pairwise distinct values. */
  lemma {:induction false} BuildFakeDistinct(st: Settings, items: Dict<string, string>, s: Session,
                                              m: Dict<string, string>, used: set<string>)
    requires !st.usePlaceholders
    requires Distinct(Values(m))
    requires forall i :: 0 <= i < |m| ==> m[i].1 in used
    requires BuildFrom(st, items, s, m, used).Some?
    ensures Distinct(Values(BuildFrom(st, items, s, m, used).value.0))
    decreases |items|, 1
  {
    if items != [] {
      if items[0].0 in Keys(m) {
        BuildFakeDistinct(st, items[1..], s, m, used);
      } else {
        FakeTurnDistinct(st, items, s, m, used);
      }
    }
  }

  /** The step of `BuildFakeDistinct` for a new original: the fresh value joins `used`. */
  lemma {:induction false} FakeTurnDistinct(st: Settings, items: Dict<string, string>, s: Session,
                                             m: Dict<string, string>, used: set<string>)
    requires !st.usePlaceholders
    requires Distinct(Values(m))
    requires forall i :: 0 <= i < |m| ==> m[i].1 in used
    requires items != [] && items[0].0 !in Keys(m)
    requires BuildFrom(st, items, s, m, used).Some?
    ensures Distinct(Values(BuildFrom(st, items, s, m, used).value.0))
    decreases |items|, 0
  {
    var orig := items[0].0;
    BuildUnfold(st, items, s, m, used);
    var r := Step(st, s, items[0].1, used).value;
    var v, s', used' := r.0, r.1, r.2;
    assert v !in used && used' == used + {v};
    var m' := Put(m, orig, v);
    PutNew(m, orig, v);
    FreshValueDistinct(m, orig, v, used);
    SnocInside(m, orig, v, used);
    BuildFakeDistinct(st, items[1..], s', m', used');
  }

  lemma FakeValuesDistinct(st: Settings, items: Dict<string, string>, draws: seq<Draw>)
    requires !st.usePlaceholders
    requires Mapping(st, items, draws).Some?
    ensures Distinct(Values(Mapping(st, items, draws).value))
  {
    BuildFakeDistinct(st, items, Session(ResetCounters(st.counterKinds), draws), [], {});
  }

  /** A constant mask already handed out makes the retry loop spin for ever. */
  lemma RetrySpins(s: Session, kind: string, used: set<string>)
    requires !UsesFaker(kind) && Mask(kind) in used
    ensures Retry(s, kind, Mask(kind), used).None?
  {
  }

  /** For a constant-mask kind fake mode hands out the mask, without a draw,
      the first time, and never finishes the second time. */
  lemma StepMask(st: Settings, s: Session, kind: string, used: set<string>)
    requires !st.usePlaceholders && !UsesFaker(kind)
    ensures Mask(kind) !in used ==> Step(st, s, kind, used) == Some((Mask(kind), s, used + {Mask(kind)}))
    ensures Mask(kind) in used ==> Step(st, s, kind, used).None?
  {
    if Mask(kind) in used {
      RetrySpins(s, kind, used);
    }
  }

  /** Once the mask of the kind at `j` is used, the mapping loop never finishes. */
  lemma {:induction false} BuildSpins(st: Settings, items: Dict<string, string>, s: Session,
                                       m: Dict<string, string>, used: set<string>, j: nat)
    requires !st.usePlaceholders
    requires j < |items| && !UsesFaker(items[j].1) && Mask(items[j].1) in used
    requires items[j].0 !in Keys(m)
    requires forall i :: 0 <= i < j ==> items[i].0 != items[j].0
    ensures BuildFrom(st, items, s, m, used).None?
    decreases |items|
  {
    var orig := items[0].0;
    var r := Step(st, s, items[0].1, used);
    if j == 0 {
      StepMask(st, s, items[0].1, used);
    } else if orig in Keys(m) {
      BuildSpins(st, items[1..], s, m, used, j - 1);
    } else if r.Some? {
      var (v, s', used') := r.value;
      var m' := Put(m, orig, v);
      assert Keys(m') == Keys(m) + [orig];
      BuildSpins(st, items[1..], s', m', used', j - 1);
    }
  }

  /** Two items of one constant-mask kind: the second waits forever for a fresh value. */
  lemma {:induction false} BuildHangs(st: Settings, items: Dict<string, string>, s: Session,
                                       m: Dict<string, string>, used: set<string>, i: nat, j: nat, kind: string)
    requires !st.usePlaceholders && !UsesFaker(kind)
    requires DistinctKeys(items)
    requires i < j < |items| && items[i].1 == kind && items[j].1 == kind
    requires forall k :: 0 <= k < |items| ==> items[k].0 !in Keys(m)
    ensures BuildFrom(st, items, s, m, used).None?
    decreases |items|, 1
  {
    BuildUnfold(st, items, s, m, used);
    if Step(st, s, items[0].1, used).Some? {
      if i == 0 {
        HangsAfterMask(st, items, s, m, used, j, kind);
      } else {
        HangsLater(st, items, s, m, used, i, j, kind);
      }
    }
  }

  /** Both items lie past the head: the head is mapped and the search goes on. */
  lemma {:induction false} HangsLater(st: Settings, items: Dict<string, string>, s: Session,
                                       m: Dict<string, string>, used: set<string>, i: nat, j: nat, kind: string)
    requires !st.usePlaceholders && !UsesFaker(kind)
    requires DistinctKeys(items)
    requires 0 < i < j < |items| && items[i].1 == kind && items[j].1 == kind
    requires forall k :: 0 <= k < |items| ==> items[k].0 !in Keys(m)
    requires Step(st, s, items[0].1, used).Some?
    ensures var (v, s', used') := Step(st, s, items[0].1, used).value;
      BuildFrom(st, items[1..], s', Put(m, items[0].0, v), used').None?
    decreases |items|, 0
  {
    var r := Step(st, s, items[0].1, used).value;
    var v, s', used' := r.0, r.1, r.2;
    var m', tl := Put(m, items[0].0, v), items[1..];
    AddNew(m, items[0].0, v, items);
    assert tl[i - 1] == items[i] && tl[j - 1] == items[j];
    BuildHangs(st, tl, s', m', used', i - 1, j - 1, kind);
  }


  /** The head hands out the constant mask, so a later item of its kind spins. */
  lemma HangsAfterMask(st: Settings, items: Dict<string, string>, s: Session,
                       m: Dict<string, string>, used: set<string>, j: nat, kind: string)
    requires !st.usePlaceholders && !UsesFaker(kind)
    requires DistinctKeys(items)
    requires 0 < j < |items| && items[0].1 == kind && items[j].1 == kind
    requires forall k :: 0 <= k < |items| ==> items[k].0 !in Keys(m)
    requires Step(st, s, items[0].1, used).Some?
    ensures var (v, s', used') := Step(st, s, items[0].1, used).value;
      BuildFrom(st, items[1..], s', Put(m, items[0].0, v), used').None?
  {
    var orig, tl := items[0].0, items[1..];
    var r := Step(st, s, items[0].1, used);
    var v, s', used' := r.value.0, r.value.1, r.value.2;
    StepMask(st, s, items[0].1, used);
    assert Mask(tl[j - 1].1) in used';
    AddNew(m, orig, v, items);
    forall k | 0 <= k < j - 1 ensures tl[k].0 != tl[j - 1].0 {
      assert Keys(items)[k + 1] != Keys(items)[j];
    }
    BuildSpins(st, tl, s', Put(m, orig, v), used', j - 1);
  }


  /** Fake-value mode with two CPFs (or phones, CNPJs, CEPs, RGs, unknown kinds):
      `anonymize_texts` does not return, whatever Faker supplies. */
  lemma FakeModeHangs(st: Settings, pages: seq<string>, items: Dict<string, string>,
                      draws: seq<Draw>, i: nat, j: nat)
    requires !st.usePlaceholders && pages != []
    requires DistinctKeys(items)
    requires i < j < |items| && items[i].1 == items[j].1 && !UsesFaker(items[i].1)
    ensures AnonymizeTexts(st, pages, items, draws).None?
  {
    BuildHangs(st, items, Session(ResetCounters(st.counterKinds), draws), [], {}, i, j, items[i].1);
  }

  /** Validation reads the original pages only to count them (`zip` truncation). */
  lemma {:induction false} IntegrityIgnoresOriginals(o1: seq<string>, o2: seq<string>, anons: seq<string>, keys: seq<string>)
    requires |o1| == |o2|
    ensures IntegrityErrors(o1, anons, keys) == IntegrityErrors(o2, anons, keys)
    decreases |anons|
  {
    if o1 != [] && anons != [] {
      IntegrityIgnoresOriginals(o1[1..], o2[1..], anons[1..], keys);
    }
  }

  lemma ValidationIgnoresOriginalText(st: Settings, o1: seq<string>, o2: seq<string>,
                                      anons: seq<string>, m: Dict<string, string>)
    requires |o1| == |o2|
    ensures ValidateAnonymization(st, o1, anons, m) == ValidateAnonymization(st, o2, anons, m)
  {
    IntegrityIgnoresOriginals(o1, o2, anons, Keys(m));
  }
}

=== FILE: AnonymizerExamples.dfy ===
/** Worked cases of the substitution engine with the default configuration:
    longest original first, and the punctuation-ended item that the `\b`
    anchors of `_perform_safe_replacement` cannot match. */
module AnonymizerExamples {
  import opened Base
  import opened Text
  import opened Sorting
  import opened Rewrite
  import opened Config
  import opened Anonymizer

  const Page: string := "Ana Silva chegou"
  const Done: string := "[PESSOA_2] chegou"

  /** Of two names where one extends the other, the longer is applied first. */
  lemma AnaSilvaOrder()
    ensures LongestFirst([("Ana", "[PESSOA_1]"), ("Ana Silva", "[PESSOA_2]")])
         == [("Ana Silva", "[PESSOA_2]"), ("Ana", "[PESSOA_1]")]
  {
    var a, b := ("Ana", "[PESSOA_1]"), ("Ana Silva", "[PESSOA_2]");
    assert [a, b][1..] == [b];
    assert Sort([b], LongerKey) == [b];
    assert LongerKey(b, a);
    assert Insert(a, [b], LongerKey) == [b] + Insert(a, [], LongerKey);
  }

  /** The full name begins and ends with a letter, so `\b` anchors it exactly
      as the lookarounds would. */
  lemma AnaSilvaFirstStep()
    ensures ReplaceStep(Default, Page, "Ana Silva", "[PESSOA_2]") == Done
  {
    AnaSilvaFirstStandalone();
    SafeReplaceAgrees(Default, Page, "Ana Silva", "[PESSOA_2]");
  }

  /** The full name is a standalone occurrence at the start of the page. */
  lemma AnaSilvaFirstStandalone()
    ensures SafeReplace(Default, Page, "Ana Silva", "[PESSOA_2]") == Done
  {
    var pat, y := "Ana Silva", " chegou";
    assert Page == [] + pat + y;
    forall k | 0 <= k <= |Page| && k != 0 ensures !MatchAt(Page, pat, k) {
      if k + |pat| <= |Page| {
        assert Page[k..k + |pat|][0] == Page[k];
      }
    }
    StandaloneReplaced([], pat, y, "[PESSOA_2]");
    assert [] + "[PESSOA_2]" + y == Done;
    NotGluedAtStart(Done, "[PESSOA_2]");
  }

  /** Afterwards the short name no longer occurs, so the page is left as it is. */
  lemma AnaSilvaSecondStep()
    ensures ReplaceStep(Default, Done, "Ana", "[PESSOA_1]") == Done
  {
    AnaSilvaSecondStandalone();
    SafeReplaceAgrees(Default, Done, "Ana", "[PESSOA_1]");
  }

  lemma AnaSilvaSecondStandalone()
    ensures SafeReplace(Default, Done, "Ana", "[PESSOA_1]") == Done
  {
    forall k | 0 <= k <= |Done| ensures !Hit(Standalone, Done, "Ana", k) {
      if k + 3 <= |Done| {
        assert Done[k..k + 3][0] == Done[k];
      }
    }
    SubNoHit(Standalone, Done, "Ana", "[PESSOA_1]");
    forall j | 0 <= j <= |Done| ensures !GluedAt(Done, "[PESSOA_1]", j) {
      if j + 10 <= |Done| {
        assert Done[j..j + 10][8] == Done[j + 8];
      }
    }
  }

  /** `_validate_replacement` accepts a placeholder whose only occurrence opens the text. */
  lemma NotGluedAtStart(t: string, rep: string)
    requires rep != [] && rep[0] == '['
    requires forall j :: 0 < j < |t| ==> t[j] != '['
    ensures !Glued(t, rep)
  {
    forall j | 0 <= j <= |t| ensures !GluedAt(t, rep, j) {
      GluedBracketed(t, rep, j);
      if MatchAt(t, rep, j) {
        assert t[j] == t[j..j + |rep|][0];
      }
    }
  }

  /** "Ana Silva chegou" receives the replacement of the full name, not of "Ana". */
  lemma AnaSilvaRewrite()
    ensures RewritePage(Default, Page, LongestFirst([("Ana", "[PESSOA_1]"), ("Ana Silva", "[PESSOA_2]")])) == Done
  {
    AnaSilvaOrder();
    AnaSilvaFirstStep();
    AnaSilvaSecondStep();
    var pairs := [("Ana Silva", "[PESSOA_2]"), ("Ana", "[PESSOA_1]")];
    assert pairs[1..][1..] == [];
  }

  const Items: Dict<string, string> := [("Ana", "PESSOA"), ("Ana Silva", "PESSOA")]
  const Numbered: Dict<string, string> := [("Ana", "[PESSOA_1]"), ("Ana Silva", "[PESSOA_2]")]

  lemma PersonPlaceholders()
    ensures Placeholder("PESSOA", 1) == "[PESSOA_1]" && Placeholder("PESSOA", 2) == "[PESSOA_2]"
  {
    assert Decimal(1) == "1" && Decimal(2) == "2";
  }

  /** The counter after a bump, as `NextPlaceholder` formats it. */
  lemma BumpedTo(c: Counters, kind: string, n: nat)
    requires Count(c, kind) + 1 == n
    ensures NextPlaceholder(c, kind).0 == Placeholder(kind, n)
  {
  }

  /** Two persons in one call are numbered 1 and 2, in the order they were found. */
  lemma AnaSilvaMapping()
    ensures Mapping(Default, Items, []) == Some(Numbered)
  {
    var c0 := ResetCounters(CounterKinds);
    var c1 := NextPlaceholder(c0, "PESSOA").1;
    var c2 := NextPlaceholder(c1, "PESSOA").1;
    ResetReadsZero(CounterKinds, "PESSOA");
    FirstPerson(c0);
    SecondPerson(c1);
    assert Mapping(Default, Items, []) == match BuildFrom(Default, [], Session(c2, []), Numbered, {})
      case None => None
      case Some((m, _)) => Some(m);
  }

  /** One item not yet mapped, under placeholders: it receives the next
      placeholder of its kind and the loop moves on. */
  lemma BuildHeadPlaceholder(st: Settings, items: Dict<string, string>, c: Counters,
                             m: Dict<string, string>)
    requires st.usePlaceholders && items != [] && items[0].0 !in Keys(m)
    ensures BuildFrom(st, items, Session(c, []), m, {})
         == BuildFrom(st, items[1..], Session(NextPlaceholder(c, items[0].1).1, []),
                      Put(m, items[0].0, NextPlaceholder(c, items[0].1).0), {})
  {
  }

  // Literal facts about the "Ana" / "Ana Silva" sample, one small lemma each so
  // that the steps of the mapping proof below unfold one literal at a time.

  lemma DefaultUsesPlaceholders()
    ensures Default.usePlaceholders
  {
  }

  lemma FirstTag(c0: Counters)
    requires Count(c0, "PESSOA") == 0
    ensures NextPlaceholder(c0, "PESSOA").0 == "[PESSOA_1]"
  {
    BumpedTo(c0, "PESSOA", 1);
    PersonPlaceholders();
  }

  lemma SecondTag(c1: Counters)
    requires Count(c1, "PESSOA") == 1
    ensures NextPlaceholder(c1, "PESSOA").0 == "[PESSOA_2]"
  {
    BumpedTo(c1, "PESSOA", 2);
    PersonPlaceholders();
  }

  lemma ItemsShape()
    ensures Items[0] == ("Ana", "PESSOA") && Items[1..] == [("Ana Silva", "PESSOA")]
    ensures Items[1..][1..] == []
  {
  }

  lemma PutFirst()
    ensures Put([], "Ana", "[PESSOA_1]") == [("Ana", "[PESSOA_1]")]
    ensures Keys<string, string>([]) == []
  {
  }

  lemma PutSecond()
    ensures Keys([("Ana", "[PESSOA_1]")]) == ["Ana"]
    ensures "Ana Silva" !in ["Ana"]
    ensures Put([("Ana", "[PESSOA_1]")], "Ana Silva", "[PESSOA_2]") == Numbered
  {
    var m1: Dict<string, string> := [("Ana", "[PESSOA_1]")];
    assert Keys(m1) == ["Ana"];
    PutNew(m1, "Ana Silva", "[PESSOA_2]");
  }

  /** "Ana" is the first person: `[PESSOA_1]`. */
  lemma FirstPerson(c0: Counters)
    requires Count(c0, "PESSOA") == 0
    ensures BuildFrom(Default, Items, Session(c0, []), [], {})
         == BuildFrom(Default, Items[1..], Session(NextPlaceholder(c0, "PESSOA").1, []), [("Ana", "[PESSOA_1]")], {})
  {
    DefaultUsesPlaceholders();
    ItemsShape();
    PutFirst();
    BuildHeadPlaceholder(Default, Items, c0, []);
    FirstTag(c0);
  }

  /** "Ana Silva" is the second: `[PESSOA_2]`, appended after "Ana". */
  lemma SecondPerson(c1: Counters)
    requires Count(c1, "PESSOA") == 1
    ensures BuildFrom(Default, Items[1..], Session(c1, []), [("Ana", "[PESSOA_1]")], {})
         == BuildFrom(Default, [], Session(NextPlaceholder(c1, "PESSOA").1, []), Numbered, {})
  {
    DefaultUsesPlaceholders();
    ItemsShape();
    PutSecond();
    BuildHeadPlaceholder(Default, Items[1..], c1, [("Ana", "[PESSOA_1]")]);
    SecondTag(c1);
  }

  /** The whole call on the page "Ana Silva chegou". */
  lemma AnaSilvaAnonymized()
    ensures AnonymizeTexts(Default, [Page], Items, []) == Some(([Done], Numbered))
  {
    AnaSilvaMapping();
    AnaSilvaRewrite();
    var pages := RewritePages(Default, [Page], LongestFirst(Numbered));
    assert pages == [Done];
  }

  const Firm: string := "Alfa Ltda."
  const FirmPage: string := "Alfa Ltda. paga"
  const FirmTag: string := "[ORGANIZACAO_1]"

  /** No occurrence of the firm's name other than the one that opens the page. */
  lemma FirmOnce()
    ensures forall k :: 0 <= k <= |FirmPage| && k != 0 ==> !MatchAt(FirmPage, Firm, k)
  {
    forall k | 0 <= k <= |FirmPage| && k != 0 ensures !MatchAt(FirmPage, Firm, k) {
      if k + |Firm| <= |FirmPage| {
        assert FirmPage[k..k + |Firm|][0] == FirmPage[k];
      }
    }
  }

  /** As written, `\bAlfa Ltda\.\b` needs a word character after the final dot, so an
      item ending in punctuation is never replaced and survives in the output. */
  lemma FirmLeaksAsWritten()
    ensures SafeReplaceAsWritten(Default, FirmPage, Firm, FirmTag) == FirmPage
  {
    FirmOnce();
    assert !Boundary(FirmPage, |Firm|) by {
      assert FirmPage[|Firm| - 1] == '.' && FirmPage[|Firm|] == ' ';
    }
    forall k | 0 <= k <= |FirmPage| ensures !Hit(WordBounded, FirmPage, Firm, k) {
    }
    SubNoHit(WordBounded, FirmPage, Firm, FirmTag);
    forall j | 0 <= j <= |FirmPage| ensures !GluedAt(FirmPage, FirmTag, j) {
      if j + |FirmTag| <= |FirmPage| {
        assert FirmPage[j..j + |FirmTag|][0] == FirmPage[j];
      }
    }
  }

  /** With the lookaround anchors the item is replaced like any other. */
  lemma FirmReplaced()
    ensures SafeReplace(Default, FirmPage, Firm, FirmTag) == FirmTag + " paga"
  {
    FirmOnce();
    assert FirmPage == [] + Firm + " paga";
    StandaloneReplaced([], Firm, " paga", FirmTag);
    assert [] + FirmTag + " paga" == FirmTag + " paga";
    NotGluedAtStart(FirmTag + " paga", FirmTag);
  }

  const FirmItems: Dict<string, string> := [(Firm, "ORGANIZACAO")]

  /** The first organisation of a call is `[ORGANIZACAO_1]`. */
  lemma FirmTagIsFirst(c0: Counters)
    requires Count(c0, "ORGANIZACAO") == 0
    ensures NextPlaceholder(c0, "ORGANIZACAO").0 == FirmTag
  {
    BumpedTo(c0, "ORGANIZACAO", 1);
    FirmPlaceholder();
  }

  lemma FirmPlaceholder()
    ensures Placeholder("ORGANIZACAO", 1) == FirmTag
  {
    assert Decimal(1) == "1";
  }

  /** The literal facts about the one-item call: its only item, the empty
      mapping it starts from and the mapping after one insertion. */
  lemma FirmItemsShape()
    ensures FirmItems != [] && FirmItems[0] == (Firm, "ORGANIZACAO") && FirmItems[1..] == []
    ensures Keys<string, string>([]) == []
    ensures Put([], Firm, FirmTag) == [(Firm, FirmTag)]
  {
  }

  lemma FirmMapping()
    ensures Mapping(Default, FirmItems, []) == Some([(Firm, FirmTag)])
  {
    var c0 := ResetCounters(CounterKinds);
    ResetReadsZero(CounterKinds, "ORGANIZACAO");
    DefaultUsesPlaceholders();
    FirmItemsShape();
    BuildHeadPlaceholder(Default, FirmItems, c0, []);
    FirmTagIsFirst(c0);
  }

  /** One pair is already in longest-first order. */
  lemma SingleLongestFirst(p: (string, string))
    ensures LongestFirst([p]) == [p]
  {
    assert [p][1..] == [];
  }

  /** The whole `anonymize_texts` call as written: the firm gets its placeholder
      in the mapping, yet the page comes back with the name still in it. */
  lemma FirmPipelineLeaks()
    ensures AnonymizeTexts(Default, [FirmPage], FirmItems, []) == Some(([FirmPage], [(Firm, FirmTag)]))
  {
    FirmMapping();
    SingleLongestFirst((Firm, FirmTag));
    FirmLeaksAsWritten();
    var pairs := [(Firm, FirmTag)];
    assert RewritePage(Default, FirmPage, pairs) == RewritePage(Default, FirmPage, pairs[1..]);
    assert RewritePages(Default, [FirmPage], pairs) == [FirmPage];
  }

  /** Fake-value mode with the rest of the default configuration. */
  const FakeMode: Settings := Default.(usePlaceholders := false)

  const CpfItems: Dict<string, string> := [("123.456.789-09", "CPF")]

  /** The literal facts about the CPF call: a constant-mask kind, its mask,
      and the mapping after one insertion. */
  lemma CpfItemsShape()
    ensures !FakeMode.usePlaceholders && !UsesFaker("CPF") && Mask("CPF") == "XXX.XXX.XXX-XX"
    ensures CpfItems != [] && CpfItems[0] == ("123.456.789-09", "CPF") && CpfItems[1..] == []
    ensures Keys<string, string>([]) == []
    ensures Put([], "123.456.789-09", "XXX.XXX.XXX-XX") == [("123.456.789-09", "XXX.XXX.XXX-XX")]
  {
  }

  /** A CPF is masked in fake mode even when Faker supplies nothing: the mask
      kinds never call it. */
  lemma CpfMaskedWithoutFaker()
    ensures Mapping(FakeMode, CpfItems, []) == Some([("123.456.789-09", "XXX.XXX.XXX-XX")])
  {
    var s := Session(ResetCounters(FakeMode.counterKinds), []);
    CpfItemsShape();
    StepMask(FakeMode, s, "CPF", {});
    assert BuildFrom(FakeMode, CpfItems, s, [], {})
        == BuildFrom(FakeMode, [], s, [("123.456.789-09", "XXX.XXX.XXX-XX")], {"XXX.XXX.XXX-XX"});
  }
}

=== FILE: Base.dfy ===
/** Shared building blocks: optional values, results with an error, and the
    insertion-ordered dictionary that the Python code uses everywhere
    (a `dict` keeps keys in first-insertion order and updates values in place). */
module Base {

  datatype Option<+T> = None | Some(value: T)

  datatype Result<+T, +E> = Success(value: T) | Failure(error: E)

  /** A Python dict modelled as an association list. Only lists whose keys are
      pairwise distinct are real dicts; `Put` and `Invert` keep that invariant. */
  type Dict<K, V> = seq<(K, V)>

  function Keys<K, V>(d: Dict<K, V>): (ks: seq<K>)
    ensures |ks| == |d|
    ensures forall i :: 0 <= i < |d| ==> ks[i] == d[i].0
  {
    if d == [] then [] else [d[0].0] + Keys(d[1..])
  }

  function Values<K, V>(d: Dict<K, V>): (vs: seq<V>)
    ensures |vs| == |d|
    ensures forall i :: 0 <= i < |d| ==> vs[i] == d[i].1
  {
    seq(|d|, i requires 0 <= i < |d| => d[i].1)
  }

  /** The dict built from parallel key and value lists. */
  function Zip<K, V>(ks: seq<K>, vs: seq<V>): (d: Dict<K, V>)
    requires |ks| == |vs|
    ensures Keys(d) == ks && Values(d) == vs
  {
    seq(|ks|, i requires 0 <= i < |ks| => (ks[i], vs[i]))
  }

  ghost predicate Distinct<T>(s: seq<T>) {
    forall i, j :: 0 <= i < j < |s| ==> s[i] != s[j]
  }

  /** In a sequence without repeats equal elements sit at the same index. */
  lemma DistinctAt<T>(s: seq<T>, i: nat, j: nat)
    requires Distinct(s) && i < |s| && j < |s| && s[i] == s[j]
    ensures i == j
  {
  }

  ghost predicate DistinctKeys<K, V>(d: Dict<K, V>) {
    Distinct(Keys(d))
  }

  /** `d.get(k)`: the value stored under `k`, if any. */
  function Lookup<K(==), V>(d: Dict<K, V>, k: K): (r: Option<V>)
    ensures r.None? <==> k !in Keys(d)
    ensures r.Some? ==> (k, r.value) in d
  {
    if d == [] then None
    else if d[0].0 == k then Some(d[0].1)
    else Lookup(d[1..], k)
  }

  /** `d[k] = v`: overwrite in place when `k` is present, append otherwise. */
  function Put<K(==,!new), V>(d: Dict<K, V>, k: K, v: V): (r: Dict<K, V>)
    ensures k in Keys(d) ==> Keys(r) == Keys(d)
    ensures k !in Keys(d) ==> Keys(r) == Keys(d) + [k]
    ensures Lookup(r, k) == Some(v)
    ensures forall k' :: k' != k ==> Lookup(r, k') == Lookup(d, k')
  {
    if d == [] then [(k, v)]
    else if d[0].0 == k then [(k, v)] + d[1..]
    else [d[0]] + Put(d[1..], k, v)
  }

  /** Concatenation regrouped; stated once so that larger proofs need not rediscover it. */
  lemma AppendAssoc<T>(a: seq<T>, b: seq<T>, c: seq<T>)
    ensures (a + b) + c == a + (b + c)
  {
  }

  /** A new key goes to the end. */
  lemma {:induction false} PutNew<K(!new), V>(d: Dict<K, V>, k: K, v: V)
    requires k !in Keys(d)
    ensures Put(d, k, v) == d + [(k, v)]
  {
    if d != [] {
      var t := d[1..];
      assert d[0].0 != k by { assert d[0].0 == Keys(d)[0]; }
      assert Keys(d) == [d[0].0] + Keys(t);
      PutNew(t, k, v);
      calc {
        Put(d, k, v);
        [d[0]] + Put(t, k, v);
        [d[0]] + (t + [(k, v)]);
        { AppendAssoc([d[0]], t, [(k, v)]); }
        ([d[0]] + t) + [(k, v)];
        { assert [d[0]] + t == d; }
        d + [(k, v)];
      }
    }
  }

  lemma ValuesSnoc<K, V>(d: Dict<K, V>, k: K, v: V)
    ensures Values(d + [(k, v)]) == Values(d) + [v]
  {
    var vs, ws := Values(d + [(k, v)]), Values(d) + [v];
    forall i | 0 <= i < |vs| ensures vs[i] == ws[i] {
      assert (d + [(k, v)])[i] == if i < |d| then d[i] else (k, v);
    }
  }

  lemma DistinctSnoc<T>(a: seq<T>, v: T)
    requires Distinct(a) && v !in a
    ensures Distinct(a + [v])
  {
    var b := a + [v];
    forall i, j | 0 <= i < j < |b| ensures b[i] != b[j] {
      if j == |a| {
        assert b[i] == a[i];
      }
    }
  }

  /** Appending a value outside a set that holds every value keeps the values distinct. */
  lemma FreshValueDistinct<K, V>(d: Dict<K, V>, k: K, v: V, used: set<V>)
    requires Distinct(Values(d))
    requires forall i :: 0 <= i < |d| ==> d[i].1 in used
    requires v !in used
    ensures Distinct(Values(d + [(k, v)]))
  {
    ValuesSnoc(d, k, v);
    OutsideValues(d, v, used);
    DistinctSnoc(Values(d), v);
  }

  /** Appending `v` keeps every value inside `used + {v}`. */
  lemma SnocInside<K, V>(d: Dict<K, V>, k: K, v: V, used: set<V>)
    requires forall i :: 0 <= i < |d| ==> d[i].1 in used
    ensures forall i :: 0 <= i < |d + [(k, v)]| ==> (d + [(k, v)])[i].1 in used + {v}
  {
    var e := d + [(k, v)];
    forall i | 0 <= i < |e| ensures e[i].1 in used + {v} {
      if i < |d| {
        assert e[i] == d[i];
      }
    }
  }

  lemma OutsideValues<K, V>(d: Dict<K, V>, v: V, used: set<V>)
    requires forall i :: 0 <= i < |d| ==> d[i].1 in used
    requires v !in used
    ensures v !in Values(d)
  {
    var a := Values(d);
    forall i | 0 <= i < |a| ensures a[i] != v {
      assert d[i].1 in used;
    }
  }

  lemma {:induction false} PutKeepsDistinct<K(!new), V>(d: Dict<K, V>, k: K, v: V)
    requires DistinctKeys(d)
    ensures DistinctKeys(Put(d, k, v))
  {
    var ks := Keys(d);
    if k !in ks {
      var ks' := ks + [k];
      assert Keys(Put(d, k, v)) == ks';
      forall i, j | 0 <= i < j < |ks'| ensures ks'[i] != ks'[j] {
        if j == |ks| {
          assert ks'[i] == ks[i];
        }
      }
    }
  }

  lemma LookupDistinct<K, V>(d: Dict<K, V>, i: nat)
    requires DistinctKeys(d)
    requires i < |d|
    ensures Lookup(d, d[i].0) == Some(d[i].1)
  {
    if i > 0 {
      assert Keys(d)[0] != Keys(d)[i];
      assert Keys(d[1..]) == Keys(d)[1..];
      LookupDistinct(d[1..], i - 1);
    }
  }

  /** Number of elements of `s` satisfying `p`. */
  function CountWhere<T>(s: seq<T>, p: T -> bool): (n: nat)
    ensures n <= |s|
  {
    if s == [] then 0 else (if p(s[0]) then 1 else 0) + CountWhere(s[1..], p)
  }

  /** The elements of `s` satisfying `p`, in order. */
  function Filter<T>(s: seq<T>, p: T -> bool): (r: seq<T>)
    ensures |r| <= |s|
    ensures forall x :: x in r ==> x in s && p(x)
  {
    if s == [] then [] else (if p(s[0]) then [s[0]] else []) + Filter(s[1..], p)
  }

  lemma FilterAppend<T>(a: seq<T>, b: seq<T>, p: T -> bool)
    ensures Filter(a + b, p) == Filter(a, p) + Filter(b, p)
  {
    if a != [] {
      assert (a + b)[0] == a[0];
      assert (a + b)[1..] == a[1..] + b;
      FilterAppend(a[1..], b, p);
    } else {
      assert a + b == b;
    }
  }

  /** The loop `for x in xs: if (y := f(x)) is not None: out.append(y)`. */
  function FilterMap<A, B>(f: A -> Option<B>, xs: seq<A>): (r: seq<B>)
    ensures |r| <= |xs|
  {
    if xs == [] then [] else (if f(xs[0]).Some? then [f(xs[0]).value] else []) + FilterMap(f, xs[1..])
  }

  /** Everything kept comes from some element of the input. */
  lemma {:induction false} FilterMapSound<A, B>(f: A -> Option<B>, xs: seq<A>, y: B)
    requires y in FilterMap(f, xs)
    ensures exists k :: 0 <= k < |xs| && f(xs[k]) == Some(y)
  {
    if !(f(xs[0]).Some? && f(xs[0]).value == y) {
      assert y in FilterMap(f, xs[1..]);
      FilterMapSound(f, xs[1..], y);
      var k :| 0 <= k < |xs[1..]| && f(xs[1..][k]) == Some(y);
      assert xs[1..][k] == xs[k + 1];
    }
  }

  /** Every element the map accepts contributes its image. */
  lemma {:induction false} FilterMapComplete<A, B>(f: A -> Option<B>, xs: seq<A>, k: nat)
    requires k < |xs| && f(xs[k]).Some?
    ensures f(xs[k]).value in FilterMap(f, xs)
  {
    if k > 0 {
      assert xs[1..][k - 1] == xs[k];
      FilterMapComplete(f, xs[1..], k - 1);
    }
  }

  /** `for k, v in kvs: d[k] = v`. */
  function PutAll<K(==,!new), V>(d: Dict<K, V>, kvs: seq<(K, V)>): (r: Dict<K, V>)
    ensures forall k :: k in Keys(d) ==> k in Keys(r)
    decreases |kvs|
  {
    if kvs == [] then d else PutAll(Put(d, kvs[0].0, kvs[0].1), kvs[1..])
  }

  lemma {:induction false} PutAllKeepsDistinct<K(!new), V>(d: Dict<K, V>, kvs: seq<(K, V)>)
    requires DistinctKeys(d)
    ensures DistinctKeys(PutAll(d, kvs))
    decreases |kvs|
  {
    if kvs != [] {
      PutKeepsDistinct(d, kvs[0].0, kvs[0].1);
      PutAllKeepsDistinct(Put(d, kvs[0].0, kvs[0].1), kvs[1..]);
    }
  }

  /** A key no later pair mentions keeps its old value. */
  lemma {:induction false} PutAllUntouched<K(!new), V>(d: Dict<K, V>, kvs: seq<(K, V)>, k: K)
    requires forall j :: 0 <= j < |kvs| ==> kvs[j].0 != k
    ensures Lookup(PutAll(d, kvs), k) == Lookup(d, k)
    decreases |kvs|
  {
    if kvs != [] {
      PutAllUntouched(Put(d, kvs[0].0, kvs[0].1), kvs[1..], k);
    }
  }

  /** The last pair written for a key decides its value: later writes overwrite. */
  lemma {:induction false} PutAllLast<K(!new), V>(d: Dict<K, V>, kvs: seq<(K, V)>, i: nat)
    requires i < |kvs|
    requires forall j :: i < j < |kvs| ==> kvs[j].0 != kvs[i].0
    ensures Lookup(PutAll(d, kvs), kvs[i].0) == Some(kvs[i].1)
    decreases |kvs|
  {
    var d' := Put(d, kvs[0].0, kvs[0].1);
    if i == 0 {
      PutAllUntouched(d', kvs[1..], kvs[0].0);
    } else {
      PutAllLast(d', kvs[1..], i - 1);
    }
  }

  /** Writing keys that are all new, and new to each other, appends the pairs in order. */
  lemma {:induction false} PutAllFresh<K(!new), V>(d: Dict<K, V>, kvs: seq<(K, V)>)
    requires forall i, j :: 0 <= i < j < |d + kvs| ==> (d + kvs)[i].0 != (d + kvs)[j].0
    ensures PutAll(d, kvs) == d + kvs
    decreases |kvs|
  {
    if kvs != [] {
      var e := d + kvs;
      var k := kvs[0].0;
      assert e[|d|] == kvs[0];
      assert k !in Keys(d) by {
        forall i | 0 <= i < |d| ensures Keys(d)[i] != k {
          assert e[i] == d[i];
        }
      }
      assert kvs == [kvs[0]] + kvs[1..];
      AppendAssoc(d, [kvs[0]], kvs[1..]);
      PutNew(d, k, kvs[0].1);
      PutAllFresh(d + [kvs[0]], kvs[1..]);
    }
  }

  /** `a` is obtained from `b` by deleting elements. */
  ghost predicate IsSubseq<T>(a: seq<T>, b: seq<T>)
    decreases |b|
  {
    if a == [] then true
    else if b == [] then false
    else (a[0] == b[0] && IsSubseq(a[1..], b[1..])) || IsSubseq(a, b[1..])
  }

  lemma {:induction false} SubseqMembers<T>(a: seq<T>, b: seq<T>)
    requires IsSubseq(a, b)
    ensures forall x :: x in a ==> x in b
    decreases |b|
  {
    if a != [] {
      if a[0] == b[0] && IsSubseq(a[1..], b[1..]) {
        SubseqMembers(a[1..], b[1..]);
        assert a == [a[0]] + a[1..];
      } else {
        SubseqMembers(a, b[1..]);
      }
    }
  }
}

=== FILE: Config.dfy ===
/** The configuration constants the pipeline reads (config.py). */
module Config {
  import opened Base
  import opened Text

  // The stop terms as written in the source, one constant per group.

  /** Stop terms: legal roles. */
  const LegalRoles: set<string> := {
    "delegacia", "delegado", "delegada", "juiz", "juíza", "promotor", "promotora",
    "advogado", "advogada", "defensor", "defensora", "escrivão", "escrivã",
    "testemunha", "réu", "ré", "vítima", "autor", "autora", "querelante",
    "investigado", "investigada", "denunciado", "denunciada", "acusado", "acusada"
  }

  /** Stop terms: times and dates. */
  const TimeWords: set<string> := {
    "horário", "hora", "data", "dia", "semana", "mês", "ano", "manhã", "tarde", "noite",
    "segunda", "terça", "quarta", "quinta", "sexta", "sábado", "domingo",
    "janeiro", "fevereiro", "março", "abril", "maio", "junho",
    "julho", "agosto", "setembro", "outubro", "novembro", "dezembro"
  }

  /** Stop terms: prepositions, articles and connectives. */
  const FunctionWords: set<string> := {
    "de", "da", "do", "das", "dos", "em", "na", "no", "nas", "nos",
    "para", "por", "com", "sem", "sob", "sobre", "entre", "contra", "durante",
    "o", "a", "os", "as", "um", "uma", "uns", "umas",
    "e", "ou", "mas", "porque", "quando", "onde", "como", "que", "se"
  }

  /** Stop terms: procedural terms. */
  const ProceduralWords: set<string> := {
    "processo", "inquérito", "ação", "procedimento", "audiência", "sessão",
    "depoimento", "oitiva", "interrogatório", "acareação", "reconhecimento",
    "perícia", "laudo", "exame", "auto", "termo", "ata", "certidão"
  }

  /** Stop terms: documents and identification. */
  const DocumentWords: set<string> := {
    "documento", "identidade", "carteira", "passaporte", "título", "registro",
    "certidão", "comprovante", "declaração", "atestado", "relatório"
  }

  /** Stop terms: generic institutional places. */
  const InstitutionWords: set<string> := {
    "tribunal", "fórum", "vara", "comarca", "cartório", "tabelião", "ofício",
    "ministério", "secretaria", "departamento", "seção", "divisão"
  }

  /** Stop terms: other functional terms. */
  const ActionWords: set<string> := {
    "presente", "ausente", "comparecer", "intimar", "notificar", "citar",
    "determinar", "ordenar", "deferir", "indeferir", "arquivar", "protocolar"
  }

  /** Stop terms: technical terms. */
  const TechnicalWords: set<string> := {
    "artigo", "parágrafo", "inciso", "alínea", "código", "lei", "decreto",
    "resolução", "portaria", "instrução", "normativa", "regulamento"
  }

  /** Stop terms: rights and guarantees. */
  const RightsWords: set<string> := {
    "direito", "garantia", "liberdade", "prisão", "fiança", "habeas", "corpus",
    "mandado", "ordem", "decisão", "sentença", "acórdão", "recurso"
  }

  /** Stop terms: states and conditions. */
  const StatusWords: set<string> := {
    "presente", "ausente", "informado", "comunicado", "cientificado",
    "intimado", "citado", "convocado", "arrolado", "qualificado"
  }

  const StopTermsWritten: set<string> :=
    LegalRoles + TimeWords + FunctionWords + ProceduralWords + DocumentWords
    + InstitutionWords + ActionWords + TechnicalWords + RightsWords + StatusWords

  /** `STOP_TERMS`, rebuilt from its lower-cased members. */
  const StopTerms: set<string> := set t | t in StopTermsWritten :: Lower(t)

  /** `VALIDATION_CONFIG['min_confidence_threshold']` = 0.5, in hundredths. */
  const MinConfidence: int := 50

  /** Confidence given to every regex hit and to NER spans without one: 1.0. */
  const FullConfidence: int := 100

  /** The keys of `REGEX_PATTERNS`, in their dict order. */
  const PatternNames: seq<string> := ["cpf", "phone", "email", "cep", "rg", "cnpj"]

  /** The keys of `ENTITY_TYPES`: labels of the NER model and of the entity rules. */
  const EntityLabels: seq<string> := ["PER", "ORG", "LOC", "CPF", "TELEFONE", "EMAIL", "CEP", "RG", "CNPJ"]

  /** The values of `ENTITY_TYPES`: the kinds whose counters a session resets. */
  const CounterKinds: seq<string> := ["PESSOA", "ORGANIZACAO", "LOCAL", "CPF", "TELEFONE", "EMAIL", "CEP", "RG", "CNPJ"]

  /** `ENTITY_TYPES`: label to kind. */
  const EntityTypes: Dict<string, string> := Zip(EntityLabels, CounterKinds)

  /** The switches of `SUBSTITUTION_CONFIG` the engine reads; the placeholder
      format `[{entity_type}_{counter}]` is fixed in `Anonymizer.Placeholder`. */
  datatype SubstitutionConfig = SubstitutionConfig(
    usePlaceholders: bool,
    preserveStructure: bool,
    caseSensitive: bool)

  const Substitution: SubstitutionConfig := SubstitutionConfig(true, true, false)

  /** The two switches of `VALIDATION_CONFIG` the engine reads. */
  datatype ValidationConfig = ValidationConfig(
    checkTokenBoundaries: bool,
    checkDocumentIntegrity: bool)

  const Validation: ValidationConfig := ValidationConfig(true, true)

  lemma LowerIdempotent(s: string)
    ensures Lower(Lower(s)) == Lower(s)
  {
  }

  /** Membership tests on lower-cased input are case-insensitive: every stop term is lower case. */
  lemma StopTermsLowercase(t: string)
    requires t in StopTerms
    ensures Lower(t) == t
  {
    var w :| w in StopTermsWritten && Lower(w) == t;
    LowerIdempotent(w);
  }

  /** A string without upper-case letters is its own lower-case form. */
  lemma LowerFixed(t: string)
    requires forall i :: 0 <= i < |t| ==> !IsUpperLetter(t[i])
    ensures Lower(t) == t
  {
  }

  lemma WrittenInLegalRoles(w: string)
    requires w in LegalRoles
    ensures w in StopTermsWritten
  {
  }

  lemma WrittenInTimeWords(w: string)
    requires w in TimeWords
    ensures w in StopTermsWritten
  {
  }

  lemma WrittenInFunctionWords(w: string)
    requires w in FunctionWords
    ensures w in StopTermsWritten
  {
  }

  /** A written stop term that is already lower case is a stop term. */
  lemma WrittenLowerIsStopTerm(w: string)
    requires w in StopTermsWritten && Lower(w) == w
    ensures w in StopTerms
  {
  }

  lemma DelegadoWritten()
    ensures "delegado" in StopTermsWritten
  {
    var w := "delegado";
    assert w in LegalRoles;
    WrittenInLegalRoles(w);
  }

  lemma DelegadoLower()
    ensures Lower("delegado") == "delegado"
  {
    LowerFixed("delegado");
  }

  lemma DelegadoIsStopTerm()
    ensures "delegado" in StopTerms
  {
    DelegadoWritten();
    DelegadoLower();
    WrittenLowerIsStopTerm("delegado");
  }

  lemma HorarioWritten()
    ensures "horário" in StopTermsWritten
  {
    var w := "horário";
    assert w in TimeWords;
    WrittenInTimeWords(w);
  }

  lemma HorarioLower()
    ensures Lower("horário") == "horário"
  {
    LowerFixed("horário");
  }

  lemma HorarioIsStopTerm()
    ensures "horário" in StopTerms
  {
    HorarioWritten();
    HorarioLower();
    WrittenLowerIsStopTerm("horário");
  }

  lemma ConnectivesWritten()
    ensures "de" in StopTermsWritten && "e" in StopTermsWritten
  {
    var de, e := "de", "e";
    assert de in FunctionWords && e in FunctionWords;
    WrittenInFunctionWords(de);
    WrittenInFunctionWords(e);
  }

  lemma ConnectivesLower()
    ensures Lower("de") == "de" && Lower("e") == "e"
  {
    LowerFixed("de");
    LowerFixed("e");
  }

  lemma ConnectivesAreStopTerms()
    ensures "de" in StopTerms && "e" in StopTerms
  {
    ConnectivesWritten();
    ConnectivesLower();
    WrittenLowerIsStopTerm("de");
    WrittenLowerIsStopTerm("e");
  }

  /** Legal and functional words that the detector must never anonymise. */
  lemma StopTermExamples()
    ensures "delegado" in StopTerms && "horário" in StopTerms
    ensures "de" in StopTerms && "e" in StopTerms
  {
    DelegadoIsStopTerm();
    HorarioIsStopTerm();
    ConnectivesAreStopTerms();
  }
}

=== FILE: Detection.dfy ===
/** Post-processing of the improved detector (detection.py, `ImprovedPIIDetector`):
    candidates from the NER model and from the regex patterns are gated on the
    stop terms and the confidence threshold, overlaps are resolved greedily, and
    `encontrar_dados_sensiveis` collapses all pages into one text-to-kind dict.
    Model inference and the regex engine are inputs (`Engine`). */
module Detection {
  import opened Base
  import opened Text
  import opened Sorting
  import opened Config

  /** A detected entity `{text, type, start, end, confidence}`; confidence in hundredths. */
  datatype Entity = Entity(text: string, kind: string, start: nat, end: nat, confidence: int)

  /** One span of the NER model; `confidence` is None when the span carries no such attribute. */
  datatype NerSpan = NerSpan(text: string, category: string, start: nat, end: nat, confidence: Option<int>)

  /** One `finditer` hit: `group(0)`, `start()`, `end()`. */
  datatype RegexMatch = RegexMatch(text: string, start: nat, end: nat)

  /** The detector's state and what it gets from the outside: its stop terms, whether
      the NER model loaded, the spans the model finds in a text, and `finditer(name, text)`
      for the pattern `REGEX_PATTERNS[name]`. */
  datatype Engine = Engine(
    stopTerms: set<string>,
    loaded: bool,
    ner: string -> seq<NerSpan>,
    finditer: (string, string) -> seq<RegexMatch>)

  /** `_is_stop_term`: the lower-cased, stripped text is a stop term. */
  predicate IsStopTerm(stopTerms: set<string>, text: string) {
    Strip(Lower(text)) in stopTerms
  }

  /** Upper-case input is recognised like its lower-case form. */
  lemma StopTermIgnoresCase(stopTerms: set<string>, text: string)
    ensures IsStopTerm(stopTerms, text) <==> IsStopTerm(stopTerms, Lower(text))
  {
    LowerIdempotent(text);
  }

  /** `_validate_entity`: stop terms are always rejected; otherwise the confidence decides. */
  function ValidateEntity(stopTerms: set<string>, text: string, confidence: int): (ok: bool)
    ensures IsStopTerm(stopTerms, text) ==> !ok
    ensures !IsStopTerm(stopTerms, text) ==> (ok <==> confidence >= MinConfidence)
  {
    if IsStopTerm(stopTerms, text) then false
    else if confidence < MinConfidence then false
    else true
  }

  /** A regex hit (confidence 1.0) can only be rejected by the stop-term test. */
  lemma FullConfidenceOnlyStopTerms(stopTerms: set<string>, text: string)
    ensures ValidateEntity(stopTerms, text, FullConfidence) <==> !IsStopTerm(stopTerms, text)
  {
  }

  /** Labels the NER mapping accepts: PERSON, GPE and the keys of `ENTITY_TYPES`. */
  const RecognisedLabels: set<string> := {"PERSON", "GPE"} + set l | l in EntityLabels

  /** The category mapping of `_extract_entities_with_spacy`; None drops the span. */
  function NormaliseLabel(category: string): (kind: Option<string>)
    ensures kind.Some? ==> kind.value in CounterKinds
  {
    if category == "PER" || category == "PERSON" then Some("PESSOA")
    else if category == "ORG" then Some("ORGANIZACAO")
    else if category == "LOC" || category == "GPE" then Some("LOCAL")
    else Lookup(EntityTypes, category)
  }

  /** A span survives the mapping exactly when its category is a recognised label. */
  lemma NormaliseRecognises(category: string)
    ensures NormaliseLabel(category).Some? <==> category in RecognisedLabels
  {
  }

  /** The explicit branches agree with the `ENTITY_TYPES` table on every key of the table. */
  lemma NormaliseAgreesWithTable(category: string)
    requires category in EntityLabels
    ensures NormaliseLabel(category) == Lookup(EntityTypes, category)
  {
    if category == "PER" {
      TableEntry(0);
    } else if category == "ORG" {
      TableEntry(1);
    } else if category == "LOC" {
      TableEntry(2);
    } else {
      AliasesOutsideTable();
    }
  }

  /** The aliases the method adds are not keys of the table. */
  lemma AliasesOutsideTable()
    ensures "PERSON" !in EntityLabels && "GPE" !in EntityLabels
  {
  }

  /** The first three keys of the table are distinct, so each one finds its own entry. */
  lemma TableEntry(i: nat)
    requires i < 3
    ensures Lookup(EntityTypes, EntityLabels[i]) == Some(CounterKinds[i])
  {
    var d := EntityTypes;
    assert d[0] == ("PER", "PESSOA") && d[1] == ("ORG", "ORGANIZACAO") && d[2] == ("LOC", "LOCAL");
    if i > 0 {
      assert Lookup(d, d[i].0) == Lookup(d[1..], d[i].0);
      if i > 1 {
        assert Lookup(d[1..], d[i].0) == Lookup(d[2..], d[i].0);
      }
    }
  }

  /** `getattr(ent, 'confidence', 1.0)`. */
  function SpanConfidence(sp: NerSpan): int {
    if sp.confidence.Some? then sp.confidence.value else FullConfidence
  }

  /** The spans `_extract_entities_with_spacy` keeps: known category, not blank, validated. */
  predicate SpanAccepted(stopTerms: set<string>, sp: NerSpan) {
    NormaliseLabel(sp.category).Some? && Strip(sp.text) != [] && ValidateEntity(stopTerms, sp.text, SpanConfidence(sp))
  }

  /** What the loop body makes of one span: its entity, or nothing. */
  function SpanRecord(stopTerms: set<string>, sp: NerSpan): Option<Entity> {
    if SpanAccepted(stopTerms, sp) then Some(SpanEntity(stopTerms, sp)) else None
  }

  function SpanRecords(stopTerms: set<string>): NerSpan -> Option<Entity> {
    sp => SpanRecord(stopTerms, sp)
  }

  /** The entity recorded for an accepted span. */
  function SpanEntity(stopTerms: set<string>, sp: NerSpan): (e: Entity)
    requires SpanAccepted(stopTerms, sp)
    ensures e.text == sp.text && e.start == sp.start && e.end == sp.end
    ensures e.kind in CounterKinds && e.confidence == SpanConfidence(sp)
    ensures Strip(e.text) != [] && !IsStopTerm(stopTerms, e.text) && e.confidence >= MinConfidence
  {
    Entity(sp.text, NormaliseLabel(sp.category).value, sp.start, sp.end, SpanConfidence(sp))
  }

  /** The loop of `_extract_entities_with_spacy` over the model's spans. */
  function SpacyCandidates(stopTerms: set<string>, spans: seq<NerSpan>): (r: seq<Entity>)
    ensures |r| <= |spans|
    ensures forall e :: e in r ==>
      && e.kind in CounterKinds && Strip(e.text) != []
      && !IsStopTerm(stopTerms, e.text) && e.confidence >= MinConfidence
  {
    SpacyGate(stopTerms, spans);
    FilterMap(SpanRecords(stopTerms), spans)
  }

  lemma SpacyGate(stopTerms: set<string>, spans: seq<NerSpan>)
    ensures forall e :: e in FilterMap(SpanRecords(stopTerms), spans) ==>
      && e.kind in CounterKinds && Strip(e.text) != []
      && !IsStopTerm(stopTerms, e.text) && e.confidence >= MinConfidence
  {
    forall e | e in FilterMap(SpanRecords(stopTerms), spans)
      ensures e.kind in CounterKinds && Strip(e.text) != []
      ensures !IsStopTerm(stopTerms, e.text) && e.confidence >= MinConfidence
    {
      SpacySound(stopTerms, spans, e);
    }
  }

  /** Every recorded entity is the record of an accepted span of the model. */
  lemma SpacySound(stopTerms: set<string>, spans: seq<NerSpan>, e: Entity)
    requires e in FilterMap(SpanRecords(stopTerms), spans)
    ensures exists sp :: sp in spans && SpanAccepted(stopTerms, sp) && e == SpanEntity(stopTerms, sp)
  {
    FilterMapSound(SpanRecords(stopTerms), spans, e);
    var k :| 0 <= k < |spans| && SpanRecords(stopTerms)(spans[k]) == Some(e);
    assert SpanRecord(stopTerms, spans[k]) == Some(e);
    assert spans[k] in spans;
  }

  /** Every span that passes the label, blank and validation tests is recorded. */
  lemma SpacyComplete(stopTerms: set<string>, spans: seq<NerSpan>, k: nat)
    requires k < |spans| && SpanAccepted(stopTerms, spans[k])
    ensures SpanEntity(stopTerms, spans[k]) in SpacyCandidates(stopTerms, spans)
  {
    assert SpanRecords(stopTerms)(spans[k]) == Some(SpanEntity(stopTerms, spans[k]));
    FilterMapComplete(SpanRecords(stopTerms), spans, k);
  }

  /** `_extract_entities_with_spacy`: nothing when the model is not loaded. */
  function SpacyEntities(engine: Engine, text: string): (r: seq<Entity>)
    ensures !engine.loaded ==> r == []
    ensures engine.loaded ==> r == SpacyCandidates(engine.stopTerms, engine.ner(text))
  {
    if engine.loaded then SpacyCandidates(engine.stopTerms, engine.ner(text)) else []
  }

  /** The kinds regex hits carry: `pattern_name.upper()`. */
  const RegexKinds: seq<string> := UpperEach(PatternNames)

  function UpperEach(names: seq<string>): (r: seq<string>)
    ensures |r| == |names|
    ensures forall i :: 0 <= i < |names| ==> r[i] == UpperAscii(names[i])
  {
    if names == [] then [] else [UpperAscii(names[0])] + UpperEach(names[1..])
  }

  lemma UpperPatternNames()
    ensures UpperAscii("cpf") == "CPF" && UpperAscii("phone") == "PHONE" && UpperAscii("email") == "EMAIL"
    ensures UpperAscii("cep") == "CEP" && UpperAscii("rg") == "RG" && UpperAscii("cnpj") == "CNPJ"
  {
    UpperName("cpf", "CPF");
    UpperName("phone", "PHONE");
    UpperName("email", "EMAIL");
    UpperName("cep", "CEP");
    UpperName("rg", "RG");
    UpperName("cnpj", "CNPJ");
  }

  lemma UpperName(name: string, upper: string)
    requires |name| == |upper|
    requires forall i :: 0 <= i < |name| ==> IsAsciiLower(name[i]) && upper[i] as int == name[i] as int - 32
    ensures UpperAscii(name) == upper
  {
  }

  lemma RegexKindNames()
    ensures RegexKinds == ["CPF", "PHONE", "EMAIL", "CEP", "RG", "CNPJ"]
  {
    UpperPatternNames();
    var ks := RegexKinds;
    assert |ks| == 6;
    assert ks[0] == UpperAscii("cpf") && ks[1] == UpperAscii("phone") && ks[2] == UpperAscii("email");
    assert ks[3] == UpperAscii("cep") && ks[4] == UpperAscii("rg") && ks[5] == UpperAscii("cnpj");
  }

  /** The entity recorded for a regex hit of pattern `kind`. */
  function HitEntity(kind: string, m: RegexMatch): (e: Entity)
    ensures e.text == m.text && e.start == m.start && e.end == m.end
    ensures e.kind == kind && e.confidence == FullConfidence
  {
    Entity(m.text, kind, m.start, m.end, FullConfidence)
  }

  /** What the loop body makes of one hit: its entity, or nothing. */
  function HitRecord(stopTerms: set<string>, kind: string, m: RegexMatch): Option<Entity> {
    if ValidateEntity(stopTerms, m.text, FullConfidence) then Some(HitEntity(kind, m)) else None
  }

  function HitRecords(stopTerms: set<string>, kind: string): RegexMatch -> Option<Entity> {
    m => HitRecord(stopTerms, kind, m)
  }

  /** The hits of one pattern that pass validation at confidence 1.0. */
  function HitEntities(stopTerms: set<string>, kind: string, hits: seq<RegexMatch>): (r: seq<Entity>)
    ensures |r| <= |hits|
    ensures forall e :: e in r ==> e.kind == kind && e.confidence == FullConfidence && !IsStopTerm(stopTerms, e.text)
  {
    HitsGate(stopTerms, kind, hits);
    FilterMap(HitRecords(stopTerms, kind), hits)
  }

  lemma HitsGate(stopTerms: set<string>, kind: string, hits: seq<RegexMatch>)
    ensures forall e :: e in FilterMap(HitRecords(stopTerms, kind), hits) ==>
      e.kind == kind && e.confidence == FullConfidence && !IsStopTerm(stopTerms, e.text)
  {
    forall e | e in FilterMap(HitRecords(stopTerms, kind), hits)
      ensures e.kind == kind && e.confidence == FullConfidence && !IsStopTerm(stopTerms, e.text)
    {
      HitsSound(stopTerms, kind, hits, e);
    }
  }

  /** Every recorded entity is the record of a hit that is not a stop term. */
  lemma HitsSound(stopTerms: set<string>, kind: string, hits: seq<RegexMatch>, e: Entity)
    requires e in FilterMap(HitRecords(stopTerms, kind), hits)
    ensures exists m :: m in hits && !IsStopTerm(stopTerms, m.text) && e == HitEntity(kind, m)
  {
    FilterMapSound(HitRecords(stopTerms, kind), hits, e);
    var k :| 0 <= k < |hits| && HitRecords(stopTerms, kind)(hits[k]) == Some(e);
    assert HitRecord(stopTerms, kind, hits[k]) == Some(e);
    assert hits[k] in hits;
  }

  /** A regex hit is dropped only when it is a stop term. */
  lemma HitsComplete(stopTerms: set<string>, kind: string, hits: seq<RegexMatch>, k: nat)
    requires k < |hits| && !IsStopTerm(stopTerms, hits[k].text)
    ensures HitEntity(kind, hits[k]) in HitEntities(stopTerms, kind, hits)
  {
    assert HitRecords(stopTerms, kind)(hits[k]) == Some(HitEntity(kind, hits[k]));
    FilterMapComplete(HitRecords(stopTerms, kind), hits, k);
  }

  function PatternEntities(engine: Engine, names: seq<string>, text: string): (r: seq<Entity>)
    ensures forall e :: e in r ==>
      e.confidence == FullConfidence && !IsStopTerm(engine.stopTerms, e.text)
      && e.kind in UpperEach(names)
  {
    if names == [] then []
    else
      assert UpperEach(names) == [UpperAscii(names[0])] + UpperEach(names[1..]);
      HitEntities(engine.stopTerms, UpperAscii(names[0]), engine.finditer(names[0], text))
        + PatternEntities(engine, names[1..], text)
  }

  /** `_extract_entities_with_regex`: every hit has confidence 1.0 and an upper-cased pattern name as kind. */
  function RegexEntities(engine: Engine, text: string): (r: seq<Entity>)
    ensures forall e :: e in r ==>
      e.confidence == FullConfidence && !IsStopTerm(engine.stopTerms, e.text) && e.kind in RegexKinds
  {
    PatternEntities(engine, PatternNames, text)
  }

  /** The sort key `(start, -confidence, -length)` as a strict order. */
  predicate OverlapBefore(a: Entity, b: Entity) {
    || a.start < b.start
    || (a.start == b.start && a.confidence > b.confidence)
    || (a.start == b.start && a.confidence == b.confidence && a.end - a.start > b.end - b.start)
  }

  lemma OverlapOrderIsWeak()
    ensures Asymmetric(OverlapBefore)
    ensures NotAfterTransitive(OverlapBefore)
  {
  }

  /** The scan of `_remove_overlaps`: keep an entity iff it starts at or after the last kept end. */
  function Greedy(s: seq<Entity>, lastEnd: int): (r: seq<Entity>)
    ensures |r| <= |s|
    ensures r != [] ==> r[0].start >= lastEnd
    ensures forall i :: 0 < i < |r| ==> r[i - 1].end <= r[i].start
    ensures s != [] && s[0].start >= lastEnd ==> r != [] && r[0] == s[0]
  {
    if s == [] then []
    else if s[0].start >= lastEnd then [s[0]] + Greedy(s[1..], s[0].end)
    else Greedy(s[1..], lastEnd)
  }

  lemma {:induction false} GreedySubseq(s: seq<Entity>, lastEnd: int)
    ensures IsSubseq(Greedy(s, lastEnd), s)
  {
    if s != [] {
      GreedySubseq(s[1..], if s[0].start >= lastEnd then s[0].end else lastEnd);
    }
  }

  /** `x` starts inside the span of `k`. */
  predicate StartsInside(k: Entity, x: Entity) {
    k.start <= x.start < k.end
  }

  ghost predicate StartOrdered(s: seq<Entity>) {
    forall i, j :: 0 <= i < j < |s| ==> s[i].start <= s[j].start
  }

  /** Every candidate the scan drops starts inside a kept one, or before `lastEnd`. */
  lemma {:induction false} GreedyCovers(s: seq<Entity>, lastEnd: int, x: Entity)
    requires StartOrdered(s)
    requires x in s
    ensures || x in Greedy(s, lastEnd) || x.start < lastEnd
            || exists k :: k in Greedy(s, lastEnd) && StartsInside(k, x)
  {
    var r := Greedy(s, lastEnd);
    if x != s[0] {
      assert x in s[1..];
      var i :| 0 <= i < |s[1..]| && s[1..][i] == x;
      assert s[0].start <= x.start by { assert s[i + 1] == x; }
      if s[0].start >= lastEnd {
        GreedyCovers(s[1..], s[0].end, x);
        assert r == [s[0]] + Greedy(s[1..], s[0].end);
        if x.start < s[0].end {
          assert StartsInside(s[0], x);
        }
      } else {
        GreedyCovers(s[1..], lastEnd, x);
      }
    }
  }

  /** `_remove_overlaps`. */
  function RemoveOverlaps(es: seq<Entity>): (r: seq<Entity>)
    ensures es == [] <==> r == []
    ensures es != [] ==> r[0] == Sort(es, OverlapBefore)[0]
    ensures forall i :: 0 < i < |r| ==> r[i - 1].end <= r[i].start
  {
    if es == [] then [] else Greedy(Sort(es, OverlapBefore), -1)
  }

  /** The result is an ordered selection of the input: a subsequence of the sorted
      candidates, ordered by the sort key, and every member comes from the input. */
  lemma RemoveOverlapsSelects(es: seq<Entity>)
    ensures IsSubseq(RemoveOverlaps(es), Sort(es, OverlapBefore))
    ensures SortedPairs(RemoveOverlaps(es), OverlapBefore)
    ensures forall e :: e in RemoveOverlaps(es) ==> e in es
  {
    var sorted := Sort(es, OverlapBefore);
    if es != [] {
      GreedySubseq(sorted, -1);
    }
    OverlapOrderIsWeak();
    SortSorted(es, OverlapBefore);
    SortedToPairs(sorted, OverlapBefore);
    SubseqSortedPairs(RemoveOverlaps(es), sorted, OverlapBefore);
    SubseqMembers(RemoveOverlaps(es), sorted);
    assert forall e :: e in sorted ==> e in multiset(sorted);
  }

  /** Maximality: every input entity is kept or starts inside a kept one. */
  lemma RemoveOverlapsCovers(es: seq<Entity>, x: Entity)
    requires x in es
    ensures x in RemoveOverlaps(es) || exists k :: k in RemoveOverlaps(es) && StartsInside(k, x)
  {
    var sorted := Sort(es, OverlapBefore);
    OverlapOrderIsWeak();
    SortSorted(es, OverlapBefore);
    SortedToPairs(sorted, OverlapBefore);
    assert x in multiset(sorted);
    GreedyCovers(sorted, -1, x);
  }

  /** The overlapping pair of names keeps only the one that starts first. */
  lemma RemoveOverlapsExample()
    ensures RemoveOverlaps([Entity("João Silva", "PESSOA", 0, 10, 90),
                            Entity("Silva Pereira", "PESSOA", 5, 18, 95)])
         == [Entity("João Silva", "PESSOA", 0, 10, 90)]
  {
    var a := Entity("João Silva", "PESSOA", 0, 10, 90);
    var b := Entity("Silva Pereira", "PESSOA", 5, 18, 95);
    assert Sort([b], OverlapBefore) == [b];
    assert [a, b][1..] == [b];
    assert Sort([a, b], OverlapBefore) == Insert(a, [b], OverlapBefore) == [a, b];
  }

  /** The method `ImprovedPIIDetector.detect_sensitive_data`. */
  function DetectSensitiveData(engine: Engine, text: string): (r: seq<Entity>)
    ensures Strip(text) == [] ==> r == []
    ensures forall i :: 0 < i < |r| ==> r[i - 1].end <= r[i].start
    ensures forall e :: e in r ==> !IsStopTerm(engine.stopTerms, e.text) && e.confidence >= MinConfidence
  {
    if Strip(text) == [] then []
    else
      var candidates := SpacyEntities(engine, text) + RegexEntities(engine, text);
      RemoveOverlapsSelects(candidates);
      RemoveOverlaps(candidates)
  }

  /** The detector as constructed: its stop terms are the configured set. */
  predicate Configured(engine: Engine) {
    engine.stopTerms == StopTerms
  }

  /** With the configured stop terms, whatever the model and the patterns
      find, no reported entity reads as "delegado", "horário", "de" or "e"
      in any casing or surrounding whitespace. */
  lemma ConfiguredStopTermsNeverDetected(engine: Engine, text: string)
    requires Configured(engine)
    ensures forall e :: e in DetectSensitiveData(engine, text) ==>
      Strip(Lower(e.text)) !in {"delegado", "horário", "de", "e"}
  {
    StopTermExamples();
  }

  /** The kind names of the legacy interface. */
  function LegacyKind(kind: string): (k: string)
    ensures kind !in {"PESSOA", "ORGANIZACAO", "LOCAL", "TELEFONE"} ==> k == kind
  {
    if kind == "PESSOA" then "PERSON"
    else if kind == "ORGANIZACAO" then "ORG"
    else if kind == "LOCAL" then "LOC"
    else if kind == "TELEFONE" then "PHONE"
    else kind
  }

  /** All entities detected in the pages, in page order. */
  function PageDetections(engine: Engine, pages: seq<string>): (r: seq<Entity>)
    ensures forall e :: e in r ==> !IsStopTerm(engine.stopTerms, e.text) && e.confidence >= MinConfidence
  {
    if pages == [] then [] else DetectSensitiveData(engine, pages[0]) + PageDetections(engine, pages[1..])
  }

  function LegacyPairs(es: seq<Entity>): (kvs: seq<(string, string)>)
    ensures |kvs| == |es|
    ensures forall i :: 0 <= i < |es| ==> kvs[i] == (es[i].text, LegacyKind(es[i].kind))
  {
    seq(|es|, i requires 0 <= i < |es| => (es[i].text, LegacyKind(es[i].kind)))
  }

  /** `encontrar_dados_sensiveis` of detection.py: one entry per text, legacy kind names. */
  function Encontrar(engine: Engine, pages: seq<string>): (d: Dict<string, string>)
    ensures DistinctKeys(d)
  {
    PutAllKeepsDistinct([], LegacyPairs(PageDetections(engine, pages)));
    PutAll([], LegacyPairs(PageDetections(engine, pages)))
  }

  /** The last detection of a text, across all pages, decides its kind. */
  lemma EncontrarLatestWins(engine: Engine, pages: seq<string>, i: nat)
    requires i < |PageDetections(engine, pages)|
    requires forall j :: i < j < |PageDetections(engine, pages)| ==>
      PageDetections(engine, pages)[j].text != PageDetections(engine, pages)[i].text
    ensures Lookup(Encontrar(engine, pages), PageDetections(engine, pages)[i].text)
         == Some(LegacyKind(PageDetections(engine, pages)[i].kind))
  {
    PutAllLast([], LegacyPairs(PageDetections(engine, pages)), i);
  }

  /** A text that was never detected has no entry. */
  lemma EncontrarOnlyDetected(engine: Engine, pages: seq<string>, t: string)
    requires forall e :: e in PageDetections(engine, pages) ==> e.text != t
    ensures Lookup(Encontrar(engine, pages), t) == None
  {
    var es := PageDetections(engine, pages);
    forall j | 0 <= j < |es| ensures LegacyPairs(es)[j].0 != t {
      assert es[j] in es;
    }
    PutAllUntouched([], LegacyPairs(es), t);
  }
}

=== FILE: Json.dfy ===
/** The values `json.load` produces, and the two views of them the pipeline
    relies on: Python truthiness (`if not mapping`) and "a dict whose every
    value is a string", which is what the revert loop can work with. */
module Json {
  import opened Base

  /** A decoded JSON document. Numbers keep their lexeme (a well-formed JSON
      number): only their truthiness matters here. Object members stay in
      document order, duplicates included; `ObjectDict` applies Python's dict
      semantics. */
  datatype Json =
    | Null
    | Bool(b: bool)
    | Number(lexeme: string)
    | Str(s: string)
    | Array(items: seq<Json>)
    | Object(members: seq<(string, Json)>)

  /** The mantissa of a number lexeme: everything before the exponent marker. */
  function Mantissa(t: string): (r: string)
    ensures |r| <= |t| && r == t[..|r|]
    ensures forall i :: 0 <= i < |r| ==> r[i] != 'e' && r[i] != 'E'
  {
    if t == [] || t[0] == 'e' || t[0] == 'E' then [] else [t[0]] + Mantissa(t[1..])
  }

  predicate IsDecimalDigit(c: char) {
    '0' <= c <= '9'
  }

  /** The number the decimal digits of `s` spell, other characters skipped. */
  function DigitsValue(s: string): nat
    decreases |s|
  {
    if s == [] then 0
    else if IsDecimalDigit(s[|s| - 1]) then DigitsValue(s[..|s| - 1]) * 10 + (s[|s| - 1] as int - '0' as int)
    else DigitsValue(s[..|s| - 1])
  }

  /** The characters after the first `.`, if any. */
  function AfterDot(s: string): string
    decreases |s|
  {
    if s == [] then [] else if s[0] == '.' then s[1..] else AfterDot(s[1..])
  }

  /** The signed exponent of a lexeme, 0 when it has none. */
  function Exponent(t: string): int {
    var e := t[|Mantissa(t)|..];
    var v: int := DigitsValue(e);
    if '-' in e then -v else v
  }

  /** `json.load` turns a number with a fraction or an exponent into a float,
      and any other number into an int. */
  predicate IsFloatLexeme(t: string) {
    '.' in t || 'e' in t || 'E' in t
  }

  /** The lexeme's magnitude is `DigitsValue(Mantissa(t))` times ten to this power. */
  function Scale(t: string): int {
    Exponent(t) - |AfterDot(Mantissa(t))|
  }

  function Pow2(n: nat): (r: nat)
    ensures r >= 1
  {
    if n == 0 then 1 else 2 * Pow2(n - 1)
  }

  function Pow10(n: nat): (r: nat)
    ensures r >= 1
  {
    if n == 0 then 1 else 10 * Pow10(n - 1)
  }

  /** 2^-1075 is half the smallest subnormal double. */
  const HalfSubnormalExponent: nat := 1075

  /** A float whose magnitude is at most 2^-1075 rounds to zero (`1e-400`
      loads as `0.0`). */
  predicate Underflows(t: string) {
    && IsFloatLexeme(t) && Scale(t) < 0
    && DigitsValue(Mantissa(t)) * Pow2(HalfSubnormalExponent) <= Pow10(-Scale(t))
  }

  /** A number is zero when its mantissa has no non-zero digit (`0`, `-0.0`,
      `0e7`), or when it is a float too small for a double. */
  predicate IsZero(lexeme: string) {
    DigitsValue(Mantissa(lexeme)) == 0 || Underflows(lexeme)
  }

  /** Python's `bool(value)` for the decoded value. */
  predicate Truthy(j: Json) {
    match j
    case Null => false
    case Bool(b) => b
    case Number(t) => !IsZero(t)
    case Str(s) => s != []
    case Array(xs) => xs != []
    case Object(ms) => ms != []
  }

  /** `json.load` builds a dict from an object's members: a repeated name keeps
      its first position and takes its last value. */
  function ObjectDict(ms: seq<(string, Json)>): (d: Dict<string, Json>)
    ensures DistinctKeys(d)
  {
    PutAllKeepsDistinct([], ms);
    PutAll([], ms)
  }

  /** Every value of the dict is a string. */
  predicate AllStrings(d: Dict<string, Json>) {
    forall i :: 0 <= i < |d| ==> d[i].1.Str?
  }

  function Strings(d: Dict<string, Json>): (r: Dict<string, string>)
    requires AllStrings(d)
    ensures |r| == |d|
    ensures forall i :: 0 <= i < |d| ==> r[i] == (d[i].0, d[i].1.s)
  {
    seq(|d|, i requires 0 <= i < |d| => (d[i].0, d[i].1.s))
  }

  /** The document as a string-to-string dict, or `None` when it is not an
      object or some value is not a string. */
  function StringDict(j: Json): (r: Option<Dict<string, string>>)
    ensures r.Some? <==> j.Object? && AllStrings(ObjectDict(j.members))
  {
    if j.Object? && AllStrings(ObjectDict(j.members)) then Some(Strings(ObjectDict(j.members))) else None
  }

  /** What `json.dump` writes for a dict of strings, read back as a document. */
  function FromDict(m: Dict<string, string>): (j: Json)
    ensures j.Object? && |j.members| == |m|
    ensures forall i :: 0 <= i < |m| ==> j.members[i] == (m[i].0, Str(m[i].1))
    ensures Truthy(j) <==> m != []
  {
    Object(seq(|m|, i requires 0 <= i < |m| => (m[i].0, Str(m[i].1))))
  }

  lemma FromDictNames(m: Dict<string, string>)
    requires DistinctKeys(m)
    ensures forall i, j :: 0 <= i < j < |m| ==> FromDict(m).members[i].0 != FromDict(m).members[j].0
  {
    var ms := FromDict(m).members;
    forall i, j | 0 <= i < j < |m| ensures ms[i].0 != ms[j].0 {
      assert Keys(m)[i] != Keys(m)[j];
      assert ms[i] == (m[i].0, Str(m[i].1)) && ms[j] == (m[j].0, Str(m[j].1));
    }
  }

  /** A real dict (distinct keys) survives the trip through a document unchanged. */
  lemma StringDictFromDict(m: Dict<string, string>)
    requires DistinctKeys(m)
    ensures StringDict(FromDict(m)) == Some(m)
  {
    var ms := FromDict(m).members;
    FromDictNames(m);
    assert [] + ms == ms;
    PutAllFresh([], ms);
    StringsFromDict(m);
  }

  lemma StringsFromDict(m: Dict<string, string>)
    ensures AllStrings(FromDict(m).members) && Strings(FromDict(m).members) == m
  {
  }

  /** Each name of the document is read with the value of its last occurrence. */
  lemma ObjectDictLast(ms: seq<(string, Json)>, i: nat)
    requires i < |ms|
    requires forall j :: i < j < |ms| ==> ms[j].0 != ms[i].0
    ensures Lookup(ObjectDict(ms), ms[i].0) == Some(ms[i].1)
  {
    PutAllLast([], ms, i);
  }

  // ------------------------------------------------------------ number truthiness

  lemma {:induction false} Pow2Add(a: nat, b: nat)
    ensures Pow2(a + b) == Pow2(a) * Pow2(b)
    decreases b
  {
    if b > 0 {
      Pow2Add(a, b - 1);
      assert Pow2(a + b) == 2 * Pow2(a + (b - 1));
    }
  }

  lemma {:induction false} Pow2Mono(a: nat, b: nat)
    requires a <= b
    ensures Pow2(a) <= Pow2(b)
    decreases b - a
  {
    if a < b {
      Pow2Mono(a, b - 1);
    }
  }

  lemma {:induction false} Pow10Mono(a: nat, b: nat)
    requires a <= b
    ensures Pow10(a) <= Pow10(b)
    decreases b - a
  {
    if a < b {
      Pow10Mono(a, b - 1);
    }
  }

  lemma {:induction false} Pow10Add(a: nat, b: nat)
    ensures Pow10(a + b) == Pow10(a) * Pow10(b)
    decreases b
  {
    if b > 0 {
      Pow10Add(a, b - 1);
      assert Pow10(a + b) == 10 * Pow10(a + (b - 1));
    }
  }

  lemma Pow2Twenty()
    ensures Pow2(20) == 1048576
  {
    assert Pow2(5) == 32;
    Pow2Add(5, 5);
    Pow2Add(10, 10);
  }

  lemma Pow10Seven()
    ensures Pow10(7) == 10000000
  {
  }

  /** 2^20 < 10^7, so 2^(20n) <= 10^(7n). */
  lemma {:induction false} Pow2BelowPow10(n: nat)
    ensures Pow2(20 * n) <= Pow10(7 * n)
    decreases n
  {
    if n > 0 {
      Pow2BelowPow10(n - 1);
      Pow2Add(20 * (n - 1), 20);
      Pow10Add(7 * (n - 1), 7);
      Pow2Twenty();
      Pow10Seven();
    }
  }

  /** 2^a <= 10^c whenever a <= 20n and 7n <= c. */
  lemma Pow2BelowPow10Within(a: nat, n: nat, c: nat)
    requires a <= 20 * n && 7 * n <= c
    ensures Pow2(a) <= Pow10(c)
  {
    Pow2Mono(a, 20 * n);
    Pow2BelowPow10(n);
    Pow10Mono(7 * n, c);
  }

  /** 2^1075 <= 10^400: half the smallest subnormal double is above 10^-400. */
  lemma HalfSubnormalAbove()
    ensures Pow2(HalfSubnormalExponent) <= Pow10(400)
  {
    Pow2BelowPow10Within(HalfSubnormalExponent, 54, 400);
  }

  lemma TinyLexemeParts()
    ensures Mantissa("1e-400") == "1" && "1e-400"[1..] == "e-400"
    ensures DigitsValue("1") == 1 && AfterDot("1") == [] && DigitsValue("e-400") == 400
    ensures '-' in "e-400" && IsFloatLexeme("1e-400")
  {
    assert "1e-400"[1..][0] == 'e';
    assert "e-400"[..4] == "e-40" && "e-40"[..3] == "e-4" && "e-4"[..2] == "e-" && "e-"[..1] == "e";
  }

  /** `1e-400` loads as `0.0`, so a mapping file holding just that number is falsy. */
  lemma TinyFloatIsFalsy()
    ensures Scale("1e-400") == -400
    ensures !Truthy(Number("1e-400"))
  {
    TinyLexemeParts();
    HalfSubnormalAbove();
  }

  lemma {:induction false} Pow2Grows(n: nat)
    ensures Pow2(n) > n
    decreases n
  {
    if n > 0 {
      Pow2Grows(n - 1);
    }
  }

  lemma HalfLexemeParts()
    ensures Mantissa("0.5") == "0.5" && AfterDot("0.5") == "5" && Exponent("0.5") == 0
    ensures DigitsValue("0.5") == 5 && IsFloatLexeme("0.5") && Scale("0.5") == -1
  {
    assert "0.5"[1..] == ".5" && ".5"[1..] == "5" && "5"[1..] == [];
    assert "0.5"[..2] == "0." && "0."[..1] == "0";
  }

  /** 5 * 2^1075 > 10: five tenths are far above half the smallest subnormal. */
  lemma HalfAboveSubnormal()
    ensures 5 * Pow2(HalfSubnormalExponent) > Pow10(1)
  {
    Pow2Grows(HalfSubnormalExponent);
    assert Pow10(1) == 10;
  }

  /** A float with a non-zero digit whose magnitude is above 2^-1075 is truthy. */
  lemma TruthyAboveSubnormal(t: string)
    requires 0 < DigitsValue(Mantissa(t)) && Scale(t) < 0
    requires DigitsValue(Mantissa(t)) * Pow2(HalfSubnormalExponent) > Pow10(-Scale(t))
    ensures Truthy(Number(t))
  {
  }

  /** A small float that a double can hold is truthy: `0.5` is not zero. */
  lemma HalfIsTruthy()
    ensures Truthy(Number("0.5"))
  {
    HalfLexemeParts();
    HalfAboveSubnormal();
    TruthyAboveSubnormal("0.5");
  }
}

=== FILE: LegacyDetection.dfy ===
/** The older detector (Anonimatizacao/detection.py): `detect_sensitive_data`
    deduplicates by text with the first sighting winning, and
    `encontrar_dados_sensiveis` collapses all pages into one text-to-category dict,
    then relabels as CPF the phone entries that have the shape of a CPF. */
module LegacyDetection {
  import opened Base
  import opened Text

  /** `{"text": ..., "type": ...}`. */
  datatype Item = Item(text: string, kind: string)

  /** One NER span: its text and its label. */
  datatype NerHit = NerHit(text: string, category: string)

  /** The module-level model (`nlp`, None when it failed to load) and the matches of
      `CPF_REGEX`, `PHONE_REGEX` and `EMAIL_REGEX` in a text. */
  datatype LegacyEngine = LegacyEngine(
    loaded: bool,
    ner: string -> seq<NerHit>,
    cpfHits: string -> seq<string>,
    phoneHits: string -> seq<string>,
    emailHits: string -> seq<string>)

  /** `PII_TYPES`. */
  const PiiTypes: Dict<string, string> := Zip(
    ["CPF", "TELEFONE", "EMAIL", "NOME", "LOCAL", "ORGANIZACAO", "MISC"],
    ["CPF", "TELEFONE", "EMAIL", "PER", "LOC", "ORG", "MISC"])

  /** The NER labels `detect_sensitive_data` keeps. */
  const NerLabels: set<string> := {"PER", "LOC", "ORG", "MISC"}

  /** `PII_TYPES.get(label, label)`. */
  function PiiType(category: string): string {
    var t := Lookup(PiiTypes, category);
    if t.Some? then t.value else category
  }

  lemma PiiTypesShape()
    ensures Keys(PiiTypes) == ["CPF", "TELEFONE", "EMAIL", "NOME", "LOCAL", "ORGANIZACAO", "MISC"]
    ensures PiiTypes[6] == ("MISC", "MISC")
  {
  }

  lemma PiiTypeMisc()
    ensures PiiType("MISC") == "MISC"
  {
    PiiTypesShape();
    var d := PiiTypes;
    assert Lookup(d, "MISC") == Lookup(d[1..], "MISC") == Lookup(d[2..], "MISC") == Lookup(d[3..], "MISC");
    assert Lookup(d[3..], "MISC") == Lookup(d[4..], "MISC") == Lookup(d[5..], "MISC") == Lookup(d[6..], "MISC");
  }

  lemma PiiTypeUnmapped(category: string)
    requires category == "PER" || category == "LOC" || category == "ORG"
    ensures PiiType(category) == category
  {
    PiiTypesShape();
  }

  /** For every kept label the recorded type is the label itself: `PII_TYPES` has no
      PER, LOC or ORG key and maps MISC to MISC. */
  lemma PiiTypeIsLabel(category: string)
    requires category in NerLabels
    ensures PiiType(category) == category
  {
    if category == "MISC" {
      PiiTypeMisc();
    } else {
      PiiTypeUnmapped(category);
    }
  }

  /** Texts in order of appearance. */
  function Texts(items: seq<Item>): (ts: seq<string>)
    ensures |ts| == |items|
    ensures forall i :: 0 <= i < |items| ==> ts[i] == items[i].text
  {
    if items == [] then [] else [items[0].text] + Texts(items[1..])
  }

  /** The `processed_texts` filter: an item is kept unless its text was kept before. */
  function DedupByText(items: seq<Item>, seen: set<string>): (r: seq<Item>)
    ensures |r| <= |items|
    ensures forall x :: x in r ==> x in items && x.text !in seen
    ensures Distinct(Texts(r))
  {
    if items == [] then []
    else if items[0].text in seen then DedupByText(items[1..], seen)
    else
      var rest := DedupByText(items[1..], seen + {items[0].text});
      assert forall x :: x in items[1..] ==> x in items;
      var r := [items[0]] + rest;
      assert forall j :: 0 < j < |r| ==> r[j] in rest;
      r
  }

  /** First sighting wins: the first item carrying a new text is the one kept. */
  lemma {:induction false} DedupFirstWins(items: seq<Item>, seen: set<string>, i: nat)
    requires i < |items|
    requires items[i].text !in seen
    requires forall j :: 0 <= j < i ==> items[j].text != items[i].text
    ensures items[i] in DedupByText(items, seen)
  {
    var x := items[i];
    if i == 0 {
      assert DedupByText(items, seen) == [x] + DedupByText(items[1..], seen + {x.text});
    } else {
      var tl := items[1..];
      var seen' := if items[0].text in seen then seen else seen + {items[0].text};
      assert tl[i - 1] == x;
      assert x.text !in seen' by { assert items[0].text != x.text; }
      forall j | 0 <= j < i - 1 ensures tl[j].text != x.text {
        assert tl[j] == items[j + 1];
      }
      DedupFirstWins(tl, seen', i - 1);
      if items[0].text in seen {
        assert DedupByText(items, seen) == DedupByText(tl, seen');
      } else {
        assert DedupByText(items, seen) == [items[0]] + DedupByText(tl, seen');
      }
    }
  }

  /** A text already free of duplicates passes through unchanged, so the final pass of
      `detect_sensitive_data` (lines 88-93) changes nothing. */
  lemma {:induction false} DedupKeepsDistinct(items: seq<Item>, seen: set<string>)
    requires Distinct(Texts(items))
    requires forall x :: x in items ==> x.text !in seen
    ensures DedupByText(items, seen) == items
  {
    if items != [] {
      var seen' := seen + {items[0].text};
      forall x | x in items[1..] ensures x.text !in seen' {
        var k :| 0 <= k < |items[1..]| && items[1..][k] == x;
        assert Texts(items)[0] != Texts(items)[k + 1];
      }
      assert Texts(items[1..]) == Texts(items)[1..];
      DedupKeepsDistinct(items[1..], seen');
    }
  }

  /** The NER spans kept by `detect_sensitive_data`: a wanted label and a non-blank text. */
  function NerItems(hits: seq<NerHit>): (r: seq<Item>)
    ensures forall x :: x in r ==> x.kind in NerLabels && Strip(x.text) != []
  {
    if hits == [] then []
    else
      var rest := NerItems(hits[1..]);
      if hits[0].category in NerLabels && Strip(hits[0].text) != [] then
        PiiTypeIsLabel(hits[0].category);
        [Item(hits[0].text, PiiType(hits[0].category))] + rest
      else rest
  }

  function Tagged(texts: seq<string>, kind: string): (r: seq<Item>)
    ensures |r| == |texts|
    ensures forall i :: 0 <= i < |texts| ==> r[i] == Item(texts[i], kind)
  {
    if texts == [] then [] else [Item(texts[0], kind)] + Tagged(texts[1..], kind)
  }

  /** Candidates in the order the function visits them: NER, CPF, phone, e-mail. */
  function Candidates(engine: LegacyEngine, text: string): seq<Item> {
    NerItems(engine.ner(text))
      + Tagged(engine.cpfHits(text), "CPF")
      + Tagged(engine.phoneHits(text), "TELEFONE")
      + Tagged(engine.emailHits(text), "EMAIL")
  }

  /** `detect_sensitive_data` of Anonimatizacao/detection.py. */
  function DetectSensitiveData(engine: LegacyEngine, text: string): (r: seq<Item>)
    ensures !engine.loaded ==> r == []
    ensures Distinct(Texts(r))
    ensures forall x :: x in r ==> x in Candidates(engine, text)
  {
    if !engine.loaded then []
    else
      var items := DedupByText(Candidates(engine, text), {});
      DedupKeepsDistinct(items, {});
      DedupByText(items, {})
  }

  /** Every candidate text is reported, with the type of its first sighting. */
  lemma DetectFirstSighting(engine: LegacyEngine, text: string, i: nat)
    requires engine.loaded
    requires i < |Candidates(engine, text)|
    requires forall j :: 0 <= j < i ==> Candidates(engine, text)[j].text != Candidates(engine, text)[i].text
    ensures Candidates(engine, text)[i] in DetectSensitiveData(engine, text)
  {
    var items := DedupByText(Candidates(engine, text), {});
    DedupFirstWins(Candidates(engine, text), {}, i);
    DedupKeepsDistinct(items, {});
  }

  /** The categories of `encontrar_dados_sensiveis` for an NER label; None skips the span. */
  function NerCategory(category: string): (c: Option<string>)
    ensures c.Some? <==> category in {"PERSON", "PER", "ORG", "GPE", "LOC"}
    ensures c.Some? ==> c.value in {"PERSON", "ORG", "LOC"}
  {
    if category == "PERSON" || category == "PER" then Some("PERSON")
    else if category == "ORG" then Some("ORG")
    else if category == "GPE" || category == "LOC" then Some("LOC")
    else None
  }

  function NerPairs(hits: seq<NerHit>): (r: seq<(string, string)>)
    ensures forall p :: p in r ==> p.1 in {"PERSON", "ORG", "LOC"}
  {
    if hits == [] then []
    else
      var c := NerCategory(hits[0].category);
      (if c.Some? then [(hits[0].text, c.value)] else []) + NerPairs(hits[1..])
  }

  function Labelled(texts: seq<string>, category: string): (r: seq<(string, string)>)
    ensures |r| == |texts|
    ensures forall i :: 0 <= i < |texts| ==> r[i] == (texts[i], category)
  {
    if texts == [] then [] else [(texts[0], category)] + Labelled(texts[1..], category)
  }

  /** The dict writes of one page, in order. */
  function PageWrites(engine: LegacyEngine, text: string): seq<(string, string)> {
    NerPairs(engine.ner(text))
      + Labelled(engine.cpfHits(text), "CPF")
      + Labelled(engine.phoneHits(text), "PHONE")
      + Labelled(engine.emailHits(text), "EMAIL")
  }

  function AllWrites(engine: LegacyEngine, pages: seq<string>): seq<(string, string)> {
    if pages == [] then [] else PageWrites(engine, pages[0]) + AllWrites(engine, pages[1..])
  }

  /** The dict built by the page loop (lines 99-124), before the post-pass. */
  function Collected(engine: LegacyEngine, pages: seq<string>): (d: Dict<string, string>)
    ensures DistinctKeys(d)
  {
    PutAllKeepsDistinct([], AllWrites(engine, pages));
    PutAll([], AllWrites(engine, pages))
  }

  /** The last write for a text, across all pages and passes, decides its category. */
  lemma CollectedLatestWins(engine: LegacyEngine, pages: seq<string>, i: nat)
    requires i < |AllWrites(engine, pages)|
    requires forall j :: i < j < |AllWrites(engine, pages)| ==>
      AllWrites(engine, pages)[j].0 != AllWrites(engine, pages)[i].0
    ensures Lookup(Collected(engine, pages), AllWrites(engine, pages)[i].0) == Some(AllWrites(engine, pages)[i].1)
  {
    PutAllLast([], AllWrites(engine, pages), i);
  }

  /** Why `encontrar_dados_sensiveis` can stop with an exception. */
  datatype LegacyError =
    | ModelNotLoaded          // `nlp(texto)` with `nlp = None`: TypeError
    | UndefinedName(name: string)  // a name the module never defines: NameError

  /** Some entry is labelled PHONE. */
  predicate HasPhone(d: Dict<string, string>) {
    exists i | 0 <= i < |d| :: d[i].1 == "PHONE"
  }

  /** `encontrar_dados_sensiveis` as written: the post-pass evaluates `PADRAO_CPF`
      for the first PHONE entry it meets, and that name is defined nowhere in the module. */
  function EncontrarAsWritten(engine: LegacyEngine, pages: seq<string>): (r: Result<Dict<string, string>, LegacyError>)
    ensures r.Failure? <==> (!engine.loaded && pages != []) || (engine.loaded && HasPhone(Collected(engine, pages)))
    ensures r.Success? ==> r.value == Collected(engine, pages)
  {
    if !engine.loaded && pages != [] then Failure(ModelNotLoaded)
    else if !engine.loaded then Success([])
    else
      var d := Collected(engine, pages);
      if HasPhone(d) then Failure(UndefinedName("PADRAO_CPF")) else Success(d)
  }

  /** Every page with a phone number in it makes the as-written function fail. */
  lemma AsWrittenFailsOnPhone(engine: LegacyEngine, pages: seq<string>, i: nat)
    requires engine.loaded
    requires i < |AllWrites(engine, pages)| && AllWrites(engine, pages)[i].1 == "PHONE"
    requires forall j :: i < j < |AllWrites(engine, pages)| ==>
      AllWrites(engine, pages)[j].0 != AllWrites(engine, pages)[i].0
    ensures EncontrarAsWritten(engine, pages) == Failure(UndefinedName("PADRAO_CPF"))
  {
    var d := Collected(engine, pages);
    CollectedLatestWins(engine, pages, i);
    var k := AllWrites(engine, pages)[i].0;
    assert (k, "PHONE") in d;
    var j :| 0 <= j < |d| && d[j] == (k, "PHONE");
    assert HasPhone(d);
  }

  /** `n` ASCII digits at the front of `s`. */
  predicate StartsWithDigits(s: string, n: nat) {
    n <= |s| && forall i :: 0 <= i < n ==> IsDigit(s[i])
  }

  /** Drop `c` from the front of `s` if it is there (an optional literal, `c?`). */
  function SkipOptional(s: string, c: char): (r: string)
    ensures r == s || (s != [] && s[0] == c && r == s[1..])
  {
    if s != [] && s[0] == c then s[1..] else s
  }

  /** A full match of `\d{3}\.?\d{3}\.?\d{3}-?\d{2}`. The optional separators are never
      digits, so matching them whenever present is the only way to match. */
  predicate CpfShape(s: string) {
    && StartsWithDigits(s, 3)
    && var a := SkipOptional(s[3..], '.');
    && StartsWithDigits(a, 3)
    && var b := SkipOptional(a[3..], '.');
    && StartsWithDigits(b, 3)
    && var c := SkipOptional(b[3..], '-');
    && |c| == 2 && StartsWithDigits(c, 2)
  }

  /** Only strings of 11 to 14 characters have the shape of a CPF. */
  lemma CpfShapeLength(s: string)
    requires CpfShape(s)
    ensures 11 <= |s| <= 14
  {
  }

  /** Three groups of three digits and one of two, each separator present
      (`.`, `.`, `-`) or left out, have the shape of a CPF. */
  lemma CpfShapeOf(s: string, x: string, y: string, z: string, e: string, t1: string, t2: string, t3: string)
    requires StartsWithDigits(x, 3) && StartsWithDigits(y, 3) && StartsWithDigits(z, 3) && StartsWithDigits(e, 2)
    requires |x| == 3 && |y| == 3 && |z| == 3 && |e| == 2
    requires t1 == [] || t1 == ['.']
    requires t2 == [] || t2 == ['.']
    requires t3 == [] || t3 == ['-']
    requires s == x + (t1 + (y + (t2 + (z + (t3 + e)))))
    ensures CpfShape(s)
  {
    var c := t3 + e;
    var b := t2 + (z + c);
    var a := t1 + (y + b);
    GroupThenRest(s, x, a);
    SkipPresentOrAbsent(t1, y + b, '.');
    GroupThenRest(y + b, y, b);
    SkipPresentOrAbsent(t2, z + c, '.');
    GroupThenRest(z + c, z, c);
    SkipPresentOrAbsent(t3, e, '-');
  }

  /** A group of three digits in front: what follows it is the rest. */
  lemma GroupThenRest(s: string, x: string, rest: string)
    requires |x| == 3 && StartsWithDigits(x, 3) && s == x + rest
    ensures StartsWithDigits(s, 3) && s[3..] == rest
  {
    assert forall i :: 0 <= i < 3 ==> s[i] == x[i];
  }

  /** Skipping an optional `c` in front of a digit string removes exactly the separator. */
  lemma SkipPresentOrAbsent(t: string, rest: string, c: char)
    requires t == [] || t == [c]
    requires rest != [] && IsDigit(rest[0]) && !IsDigit(c)
    ensures SkipOptional(t + rest, c) == rest
  {
    if t == [] {
      assert t + rest == rest;
    } else {
      assert (t + rest)[1..] == rest;
    }
  }

  /** Eleven bare digits, as the phone pattern also matches them. */
  lemma CpfShapeBareDigits()
    ensures CpfShape("11987654321")
  {
    BareParts();
    CpfShapeOf("11987654321", "119", "876", "543", "21", [], [], []);
  }

  lemma BareParts()
    ensures "11987654321" == "119" + ([] + ("876" + ([] + ("543" + ([] + "21")))))
    ensures StartsWithDigits("119", 3) && StartsWithDigits("876", 3)
    ensures StartsWithDigits("543", 3) && StartsWithDigits("21", 2)
  {
  }

  lemma CpfShapeFormatted()
    ensures CpfShape("123.456.789-09")
  {
    FormattedParts();
    CpfShapeOf("123.456.789-09", "123", "456", "789", "09", ".", ".", "-");
  }

  lemma FormattedParts()
    ensures "123.456.789-09" == "123" + ("." + ("456" + ("." + ("789" + ("-" + "09")))))
    ensures StartsWithDigits("123", 3) && StartsWithDigits("456", 3)
    ensures StartsWithDigits("789", 3) && StartsWithDigits("09", 2)
  {
  }

  /** A formatted phone number does not have the shape of a CPF. */
  lemma PhoneNotCpfShape()
    ensures !CpfShape("(11) 98765-4321")
  {
    assert !IsDigit("(11) 98765-4321"[0]);
  }

  /** The evidently intended post-pass: PHONE entries with the shape of a CPF become CPF,
      in place. */
  function RelabelCpfPhones(d: Dict<string, string>): (r: Dict<string, string>)
    ensures Keys(r) == Keys(d)
    ensures forall i :: 0 <= i < |d| ==> r[i].1 == Relabelled(d[i].0, d[i].1)
  {
    if d == [] then []
    else [(d[0].0, Relabelled(d[0].0, d[0].1))] + RelabelCpfPhones(d[1..])
  }

  /** The category an entry ends up with. */
  function Relabelled(k: string, v: string): string {
    if v == "PHONE" && CpfShape(k) then "CPF" else v
  }

  /** After relabelling, no PHONE entry has the shape of a CPF, and nothing else moved. */
  lemma RelabelSpec(d: Dict<string, string>, k: string)
    requires DistinctKeys(d)
    ensures DistinctKeys(RelabelCpfPhones(d))
    ensures Lookup(RelabelCpfPhones(d), k).Some? <==> Lookup(d, k).Some?
    ensures Lookup(d, k) == Some("PHONE") && CpfShape(k) ==> Lookup(RelabelCpfPhones(d), k) == Some("CPF")
    ensures Lookup(d, k).Some? && !(Lookup(d, k) == Some("PHONE") && CpfShape(k)) ==>
      Lookup(RelabelCpfPhones(d), k) == Lookup(d, k)
  {
    var r := RelabelCpfPhones(d);
    assert Keys(r) == Keys(d);
    if k in Keys(d) {
      var i :| 0 <= i < |d| && Keys(d)[i] == k;
      RelabelAt(d, i);
      var v := d[i].1;
      assert Lookup(d, k) == Some(v);
      assert Lookup(r, k) == Some(Relabelled(k, v));
    } else {
      assert Lookup(d, k) == None && Lookup(r, k) == None;
    }
  }

  lemma RelabelAt(d: Dict<string, string>, i: nat)
    requires DistinctKeys(d) && i < |d|
    ensures Lookup(d, d[i].0) == Some(d[i].1)
    ensures Lookup(RelabelCpfPhones(d), d[i].0) == Some(Relabelled(d[i].0, d[i].1))
  {
    var r := RelabelCpfPhones(d);
    assert r[i].0 == Keys(r)[i] == Keys(d)[i] == d[i].0;
    LookupDistinct(d, i);
    LookupDistinct(r, i);
  }


  /** `encontrar_dados_sensiveis` with the post-pass it was meant to have. A missing
      model still fails as soon as there is a page to analyse. */
  function Encontrar(engine: LegacyEngine, pages: seq<string>): (r: Result<Dict<string, string>, LegacyError>)
    ensures r.Failure? <==> !engine.loaded && pages != []
    ensures r.Success? ==> DistinctKeys(r.value)
    ensures r.Success? && engine.loaded ==> Keys(r.value) == Keys(Collected(engine, pages))
    ensures r.Success? && !engine.loaded ==> r.value == []
  {
    if !engine.loaded && pages != [] then Failure(ModelNotLoaded)
    else if !engine.loaded then Success([])
    else
      var d := Collected(engine, pages);
      RelabelSpec(d, []);
      Success(RelabelCpfPhones(d))
  }

  /** Relabelling changes nothing in a dict without PHONE entries. */
  lemma RelabelNoPhone(d: Dict<string, string>)
    requires !HasPhone(d)
    ensures RelabelCpfPhones(d) == d
  {
    var r := RelabelCpfPhones(d);
    forall i | 0 <= i < |d| ensures r[i] == d[i] {
      assert d[i].1 != "PHONE";
      assert Keys(r)[i] == Keys(d)[i];
    }
  }

  /** The two versions agree whenever the as-written one succeeds. */
  lemma CorrectedAgreesWhenNoPhone(engine: LegacyEngine, pages: seq<string>)
    requires EncontrarAsWritten(engine, pages).Success?
    ensures Encontrar(engine, pages) == EncontrarAsWritten(engine, pages)
  {
    if engine.loaded {
      RelabelNoPhone(Collected(engine, pages));
    }
  }
}

=== FILE: MappingStore.dfy ===
/** Saving and loading the original-to-replacement mapping next to the PDF.
    The file system is a map from paths to stored documents; a file either
    holds a JSON document (kept as the value `json.load` would rebuild) or
    bytes that do not parse. Write and read failures are parameters. */
module MappingStore {
  import opened Base
  import opened Json
  import opened Reversion

  // ------------------------------------------------------------ paths

  /** `s.rfind(c)`: the last index holding `c`, or -1. */
  function RFind(s: string, c: char): (i: int)
    ensures -1 <= i < |s|
    ensures i >= 0 ==> s[i] == c
    ensures forall j :: i < j < |s| ==> s[j] != c
    decreases |s|
  {
    if s == [] then -1
    else if s[|s| - 1] == c then |s| - 1
    else RFind(s[..|s| - 1], c)
  }

  /** The last component of `p` (after its last `/`) has a character other than `.`. */
  predicate NamedPart(p: string, from: int, to: int)
    requires -1 <= from && to <= |p|
  {
    exists k :: from < k < to && p[k] != '.'
  }

  /** `posixpath.splitext`: the extension starts at the last `.` of the last
      path component, provided some character before it in that component is
      not a dot; leading dots do not start an extension. */
  function SplitExt(p: string): (r: (string, string))
    ensures r.0 + r.1 == p
    ensures r.1 == [] || r.1[0] == '.'
    ensures forall i :: 0 < i < |r.1| ==> r.1[i] != '.' && r.1[i] != '/'
    ensures r.1 != [] ==> |r.0| > RFind(p, '/') + 1 && NamedPart(p, RFind(p, '/'), |r.0|)
  {
    var sep, dot := RFind(p, '/'), RFind(p, '.');
    if dot > sep && NamedPart(p, sep, dot) then
      assert p == p[..dot] + p[dot..];
      (p[..dot], p[dot..])
    else (p, [])
  }

  lemma {:induction false} RFindAppend(a: string, b: string, c: char)
    requires forall i :: 0 <= i < |b| ==> b[i] != c
    ensures RFind(a + b, c) == RFind(a, c)
    decreases |b|
  {
    if b == [] {
      assert a + b == a;
    } else {
      var s := a + b;
      assert s[..|s| - 1] == a + b[..|b| - 1];
      RFindAppend(a, b[..|b| - 1], c);
    }
  }

  /** A stem followed by `.` and a dot-free, slash-free tail splits into
      exactly that stem and extension, when the stem's last component has a
      character that is not a dot. */
  lemma SplitExtOf(stem: string, tail: string)
    requires forall i :: 0 <= i < |tail| ==> tail[i] != '.' && tail[i] != '/'
    requires |stem| > RFind(stem, '/') + 1 && NamedPart(stem, RFind(stem, '/'), |stem|)
    ensures SplitExt(stem + "." + tail) == (stem, "." + tail)
  {
    var ext := "." + tail;
    var p := stem + ext;
    assert p == stem + "." + tail;
    ExtensionPositions(stem, tail);
    NamedPartPrefix(stem, p, RFind(stem, '/'));
    SplitAtDot(p, |stem|);
    assert p[..|stem|] == stem;
    assert p[|stem|..] == ext;
  }

  /** When the last dot lies past the last slash with a named part before
      it, the path splits at that dot. */
  lemma SplitAtDot(p: string, dot: int)
    requires RFind(p, '.') == dot && dot > RFind(p, '/')
    requires NamedPart(p, RFind(p, '/'), dot)
    ensures SplitExt(p) == (p[..dot], p[dot..])
  {
  }

  /** In `stem + "." + tail` the last slash is the stem's and the last dot is
      the one just after the stem. */
  lemma ExtensionPositions(stem: string, tail: string)
    requires forall i :: 0 <= i < |tail| ==> tail[i] != '.' && tail[i] != '/'
    ensures RFind(stem + "." + tail, '/') == RFind(stem, '/')
    ensures RFind(stem + "." + tail, '.') == |stem|
  {
    RFindPast(stem, '.', tail, '/');
    RFindAt(stem, '.', tail);
  }

  /** A character that is neither the marker nor in the tail leaves `RFind` where it was. */
  lemma RFindPast(a: string, m: char, b: string, c: char)
    requires m != c && forall i :: 0 <= i < |b| ==> b[i] != c
    ensures RFind(a + [m] + b, c) == RFind(a, c)
  {
    var mb := [m] + b;
    assert a + [m] + b == a + mb;
    assert forall i :: 0 <= i < |mb| ==> mb[i] != c by {
      forall i | 0 <= i < |mb| ensures mb[i] != c {
        if i > 0 { assert mb[i] == b[i - 1]; }
      }
    }
    RFindAppend(a, mb, c);
  }

  /** The marker is found where it was put when the tail does not hold it. */
  lemma RFindAt(a: string, m: char, b: string)
    requires forall i :: 0 <= i < |b| ==> b[i] != m
    ensures RFind(a + [m] + b, m) == |a|
  {
    RFindAppend(a + [m], b, m);
    RFindLast(a, m);
  }

  lemma RFindLast(a: string, m: char)
    ensures RFind(a + [m], m) == |a|
  {
    var s := a + [m];
    assert s[|s| - 1] == m;
  }

  lemma NamedPartPrefix(stem: string, p: string, from: int)
    requires -1 <= from && |stem| <= |p| && p[..|stem|] == stem
    requires NamedPart(stem, from, |stem|)
    ensures NamedPart(p, from, |stem|)
  {
    var k :| from < k < |stem| && stem[k] != '.';
    assert p[k] == stem[k];
  }

  /** A file name whose only dot is its first character has no extension. */
  lemma HiddenFileHasNoExtension(dir: string, name: string)
    requires forall i :: 0 <= i < |name| ==> name[i] != '.' && name[i] != '/'
    ensures SplitExt(dir + "/." + name) == (dir + "/." + name, [])
  {
    var p := dir + "/." + name;
    assert p == (dir + "/") + ("." + name);
    RFindAppend(dir + "/", "." + name, '/');
    assert (dir + "/")[..|dir + "/"| - 1] == dir;
    RFindAppend(dir + "/.", name, '.');
    assert (dir + "/.")[..|dir + "/."| - 1] == dir + "/";
    assert p == (dir + "/.") + name;
  }

  /** A dot in a directory name is not an extension of the file. */
  lemma DottedDirectory(dir: string, name: string)
    requires forall i :: 0 <= i < |name| ==> name[i] != '.' && name[i] != '/'
    ensures SplitExt(dir + "/" + name) == (dir + "/" + name, [])
  {
    var p := dir + "/" + name;
    RFindAppend(dir + "/", name, '/');
    RFindAppend(dir + "/", name, '.');
    assert (dir + "/")[..|dir + "/"| - 1] == dir;
  }

  const DefaultSuffix: string := "_mapping.json"

  /** `splitext(original_pdf_path)[0] + suffix`. */
  function MappingPath(pdfPath: string, suffix: string): (r: string)
    ensures r == SplitExt(pdfPath).0 + suffix
    ensures pdfPath == SplitExt(pdfPath).0 + SplitExt(pdfPath).1
  {
    SplitExt(pdfPath).0 + suffix
  }

  /** The mapping of `docs/contrato.pdf` goes to `docs/contrato_mapping.json`. */
  lemma MappingPathReplacesExtension(stem: string, tail: string)
    requires forall i :: 0 <= i < |tail| ==> tail[i] != '.' && tail[i] != '/'
    requires |stem| > RFind(stem, '/') + 1 && NamedPart(stem, RFind(stem, '/'), |stem|)
    ensures MappingPath(stem + "." + tail, DefaultSuffix) == stem + DefaultSuffix
  {
    SplitExtOf(stem, tail);
  }

  // ------------------------------------------------------------ files

  /** What a file holds: a document `json.load` accepts, UTF-8 text that does
      not parse, or bytes that are not UTF-8 (with the decoder's message). */
  datatype Stored = Document(doc: Json) | Malformed | Undecodable(reason: string)

  type Files = map<string, Stored>

  /** `save_mapping`: writes `json.dump(mapping)` to the derived path and
      returns that path; a failed write is reported and re-raised. */
  function SaveMapping(files: Files, mapping: Dict<string, string>, pdfPath: string, suffix: string,
                       writeFault: Option<string>): (r: Result<(Files, string), string>)
    ensures r.Success? <==> writeFault.None?
    ensures r.Failure? ==> r.error == writeFault.value
    ensures r.Success? ==> r.value.1 == MappingPath(pdfPath, suffix)
    ensures r.Success? ==> r.value.1 in r.value.0 && r.value.0[r.value.1] == Document(FromDict(mapping))
    ensures r.Success? ==> forall q :: q != r.value.1 ==> (q in r.value.0 <==> q in files)
    ensures r.Success? ==> forall q :: q != r.value.1 && q in files ==> r.value.0[q] == files[q]
  {
    var path := MappingPath(pdfPath, suffix);
    match writeFault
    case Some(e) => Failure(e)
    case None => Success((files[path := Document(FromDict(mapping))], path))
  }

  /** `load_mapping`: the stored document as it is (no check that it is a
      dict); `None` when the file is missing, unreadable or not JSON, the
      three errors it catches. A file that is not UTF-8 raises
      `UnicodeDecodeError`, which it lets through to its caller. */
  function LoadMapping(files: Files, path: string, readFault: Option<string>): (r: Loaded)
    ensures r.Failure? <==> path in files && readFault.None? && files[path].Undecodable?
    ensures r.Failure? ==> r.error == files[path].reason
    ensures r == Success(None) <==> path !in files || readFault.Some? || files[path].Malformed?
    ensures r.Success? && r.value.Some? <==> path in files && readFault.None? && files[path].Document?
    ensures r.Success? && r.value.Some? ==> r.value.value == files[path].doc
  {
    if path !in files then Success(None)
    else if readFault.Some? then Success(None)
    else match files[path]
      case Malformed => Success(None)
      case Undecodable(e) => Failure(e)
      case Document(j) => Success(Some(j))
  }

  /** Loading what was saved gives back the mapping. */
  lemma SaveThenLoad(files: Files, mapping: Dict<string, string>, pdfPath: string, suffix: string)
    requires DistinctKeys(mapping)
    ensures var (files', path) := SaveMapping(files, mapping, pdfPath, suffix, None).value;
      && LoadMapping(files', path, None) == Success(Some(FromDict(mapping)))
      && StringDict(LoadMapping(files', path, None).value.value) == Some(mapping)
  {
    StringDictFromDict(mapping);
  }

  /** Reverting from the saved files reverts with the mapping the session held. */
  lemma SaveThenRevert(files: Files, origs: seq<string>, pages: seq<string>, mapping: Dict<string, string>,
                       pdfPath: string)
    requires pages != [] && mapping != [] && DistinctKeys(mapping)
    ensures var (files', path) := SaveMapping(files, mapping, pdfPath, DefaultSuffix, None).value;
      LoadAndRevert(pages, LoadMapping(files', path, None))
        == Success(RevertSession(origs, pages, mapping).value.restored)
  {
    SavedMappingReverts(origs, pages, mapping);
  }

  /** A stored document that is not an object is returned as loaded; the
      loop's `.items()` then raises, and that exception escapes the revert
      rather than giving "no mapping". */
  lemma LoadedNonObject(files: Files, path: string, pages: seq<string>)
    requires path in files && files[path] == Document(Array([Null]))
    requires pages != []
    ensures LoadMapping(files, path, None) == Success(Some(Array([Null])))
    ensures LoadAndRevert(pages, LoadMapping(files, path, None)) == Failure(Escaped)
  {
  }

  /** A mapping file that is not UTF-8 is not a missing mapping: the decode
      error escapes `load_mapping` and then the revert, even for an empty PDF.
      The threaded app shows nothing, where binding the message would have
      shown the decoder's. */
  lemma UndecodableEscapes(files: Files, path: string, pages: seq<string>, crash: string)
    requires path in files && files[path].Undecodable?
    ensures LoadAndRevert(pages, LoadMapping(files, path, None)) == Failure(Escaped)
    ensures LoadAndRevertThreaded(pages, LoadMapping(files, path, None)) == Silent
    ensures LoadAndRevertThreadedBound(pages, LoadMapping(files, path, None), crash) == Shown(files[path].reason)
  {
  }
}

=== FILE: Reversion.dfy ===
/** Undoing an anonymisation: the session revert and the revert from a saved
    PDF plus mapping file in the desktop apps, and the standalone
    `deanonymize_text` helper. All of them rewrite replacements back into
    originals with `str.replace`. */
module Reversion {
  import opened Base
  import opened Text
  import opened Json
  import opened Anonymizer

  // ------------------------------------------------------------ inverse map

  /** The pairs of `m` with both sides swapped, in insertion order. */
  function Swap(m: Dict<string, string>): (r: Dict<string, string>)
    ensures |r| == |m|
    ensures forall i :: 0 <= i < |m| ==> r[i] == (m[i].1, m[i].0)
  {
    seq(|m|, i requires 0 <= i < |m| => (m[i].1, m[i].0))
  }

  /** `{falso: orig for orig, falso in mapeamento.items()}`. */
  function Invert(m: Dict<string, string>): (inv: Dict<string, string>)
    ensures DistinctKeys(inv)
  {
    PutAllKeepsDistinct([], Swap(m));
    PutAll([], Swap(m))
  }

  /** A replacement maps back to the original of the last pair that produced it. */
  lemma InvertLatest(m: Dict<string, string>, i: nat)
    requires i < |m|
    requires forall j :: i < j < |m| ==> m[j].1 != m[i].1
    ensures Lookup(Invert(m), m[i].1) == Some(m[i].0)
  {
    PutAllLast([], Swap(m), i);
  }

  /** A string no pair produced has no entry in the inverse. */
  lemma InvertMissing(m: Dict<string, string>, fake: string)
    requires forall j :: 0 <= j < |m| ==> m[j].1 != fake
    ensures Lookup(Invert(m), fake) == None
  {
    PutAllUntouched([], Swap(m), fake);
  }

  /** With pairwise distinct replacements the swapped pairs have distinct keys. */
  lemma SwapDistinct(m: Dict<string, string>)
    requires Distinct(Values(m))
    ensures forall i, j :: 0 <= i < j < |m| ==> Swap(m)[i].0 != Swap(m)[j].0
  {
    var s := Swap(m);
    forall i, j | 0 <= i < j < |m| ensures s[i].0 != s[j].0 {
      assert Values(m)[i] != Values(m)[j];
      assert s[i] == (m[i].1, m[i].0) && s[j] == (m[j].1, m[j].0);
    }
  }

  /** With pairwise distinct replacements nothing is overwritten: the inverse
      is the swapped mapping, in the same order. */
  lemma InvertDistinct(m: Dict<string, string>)
    requires Distinct(Values(m))
    ensures Invert(m) == Swap(m)
  {
    var s := Swap(m);
    SwapDistinct(m);
    assert [] + s == s;
    PutAllFresh([], s);
  }

  // ------------------------------------------------------------ reverting

  /** `for falso in chaves_falsas: texto = texto.replace(falso, original)`. */
  function RevertPage(text: string, pairs: Dict<string, string>): string
    decreases |pairs|
  {
    if pairs == [] then text
    else RevertPage(ReplaceAll(text, pairs[0].0, pairs[0].1), pairs[1..])
  }

  /** Fake values longest first (`sorted(..., key=len, reverse=True)`), each
      with the original the inverse map gives it. */
  function RevertOrder(m: Dict<string, string>): (r: Dict<string, string>)
    ensures |r| == |Invert(m)| && multiset(r) == multiset(Invert(m))
  {
    LongestFirst(Invert(m))
  }

  /** Each step of the loop restores the original that `mapeamento_inverso[falso]` holds. */
  lemma RevertOrderLooksUp(m: Dict<string, string>, i: nat)
    requires i < |RevertOrder(m)|
    ensures Lookup(Invert(m), RevertOrder(m)[i].0) == Some(RevertOrder(m)[i].1)
  {
    var inv, r := Invert(m), RevertOrder(m);
    assert r[i] in multiset(r);
    assert r[i] in inv;
    var j :| 0 <= j < |inv| && inv[j] == r[i];
    LookupDistinct(inv, j);
  }

  /** Every page goes through the same loop. */
  function Revert(pages: seq<string>, m: Dict<string, string>): (r: seq<string>)
    ensures |r| == |pages|
    ensures forall i :: 0 <= i < |pages| ==> r[i] == RevertPage(pages[i], RevertOrder(m))
  {
    var order := RevertOrder(m);
    seq(|pages|, i requires 0 <= i < |pages| => RevertPage(pages[i], order))
  }

  /** A page in which no fake value occurs comes back unchanged. */
  lemma {:induction false} RevertPageAbsent(text: string, pairs: Dict<string, string>)
    requires forall i :: 0 <= i < |pairs| ==> pairs[i].0 != [] && !Occurs(pairs[i].0, text)
    ensures RevertPage(text, pairs) == text
    decreases |pairs|
  {
    if pairs != [] {
      ReplaceAbsent(text, pairs[0].0, pairs[0].1);
      RevertPageAbsent(text, pairs[1..]);
    }
  }

  // ------------------------------------------------------------ session revert

  /** The restored pages and whether they join to the original text. */
  datatype SessionRevert = SessionRevert(restored: seq<string>, complete: bool)

  const NothingToRevert: string := "Nenhuma anonimização na sessão atual para reverter."

  /** `reverter_sessao`: refuses when the session holds no anonymised pages or
      an empty mapping; otherwise reverts every page and reports success only
      when original pages exist and the two texts, joined by newlines, agree. */
  function RevertSession(origs: seq<string>, anons: seq<string>, m: Dict<string, string>)
    : (r: Result<SessionRevert, string>)
    ensures r.Failure? <==> anons == [] || m == []
    ensures r.Failure? ==> r.error == NothingToRevert
    ensures r.Success? ==> r.value.restored == Revert(anons, m)
    ensures r.Success? && r.value.complete ==> origs != [] && Join(r.value.restored, "\n") == Join(origs, "\n")
    ensures r.Success? && origs != [] && r.value.restored == origs ==> r.value.complete
  {
    if anons == [] || m == [] then Failure(NothingToRevert)
    else
      var restored := Revert(anons, m);
      Success(SessionRevert(restored, origs != [] && Join(restored, "\n") == Join(origs, "\n")))
  }

  // ------------------------------------------------------------ revert from files

  /** Why a revert from files stops: no text in the PDF, a falsy mapping
      (`load_mapping` gives `None` on a missing, unreadable or unparsable file),
      or an exception inside the `try` that escapes `carregar_e_reverter`: one
      `load_mapping` lets through, or a document the loop cannot use. Such an
      exception is not a `FileNotFoundError`, so Python goes on to test it
      against `fitz.fitz.FZ_ERROR_GENERIC`, which is not an exception class;
      that test raises in turn, and the clauses after it, the
      unexpected-failure dialog included, are never reached. */
  datatype LoadError = NoText | NoMapping | Escaped

  /** What a call of `load_mapping` comes to: the value it returns (`None` on
      the errors it catches), or the message of an exception it does not
      catch (`UnicodeDecodeError` on a file that is not UTF-8). */
  type Loaded = Result<Option<Json>, string>

  /** `carregar_e_reverter`, after both files were chosen: the extracted pages
      and what `load_mapping` came to. The mapping is loaded before the text
      is checked, so an exception from the load wins over an empty PDF. */
  function LoadAndRevert(pages: seq<string>, loaded: Loaded): (r: Result<seq<string>, LoadError>)
    ensures loaded.Failure? ==> r == Failure(Escaped)
    ensures r == Failure(NoText) <==> loaded.Success? && pages == []
    ensures r == Failure(NoMapping) <==>
      loaded.Success? && pages != [] && (loaded.value.None? || !Truthy(loaded.value.value))
    ensures r.Success? <==> loaded.Success? && pages != [] && loaded.value.Some? && Truthy(loaded.value.value)
                            && StringDict(loaded.value.value).Some?
    ensures r.Success? ==> r.value == Revert(pages, StringDict(loaded.value.value).value)
  {
    match loaded
    case Failure(_) => Failure(Escaped)
    case Success(doc) =>
      if pages == [] then Failure(NoText)
      else if doc.None? || !Truthy(doc.value) then Failure(NoMapping)
      else match StringDict(doc.value)
        case None => Failure(Escaped)
        case Some(m) => Success(Revert(pages, m))
  }

  const LoadFailed: string := "Erro ao carregar o PDF ou mapeamento. Verifique se os arquivos são válidos."

  /** What the revert thread of the reworked app leads to on screen: the
      restored pages, a message in the error dialog, or nothing at all. */
  datatype Outcome = Reverted(pages: seq<string>) | Shown(message: string) | Silent

  /** `_processar_reversao_thread` as written: one message for both load
      failures. For anything raised it schedules a callback that reads `e`
      only when it runs, after the `except` block has deleted `e`; the
      callback dies with `NameError`, so no dialog appears and the UI is
      never released. */
  function LoadAndRevertThreaded(pages: seq<string>, loaded: Loaded): (r: Outcome)
    ensures r.Silent? <==> LoadAndRevert(pages, loaded) == Failure(Escaped)
    ensures r.Shown? <==> LoadAndRevert(pages, loaded) in {Failure(NoText), Failure(NoMapping)}
    ensures r.Shown? ==> r.message == LoadFailed
    ensures r.Reverted? <==> LoadAndRevert(pages, loaded).Success?
    ensures r.Reverted? ==> r.pages == LoadAndRevert(pages, loaded).value
  {
    match loaded
    case Failure(_) => Silent
    case Success(doc) =>
      if pages == [] || doc.None? || !Truthy(doc.value) then Shown(LoadFailed)
      else match StringDict(doc.value)
        case None => Silent
        case Some(m) => Reverted(Revert(pages, m))
  }

  /** The thread with the message bound while the exception is live, as the
      validation thread of the same app does by passing `e` along: every run
      ends with the pages or a message, and the exception's own text is shown
      (`crash` for a document the loop cannot use). */
  function LoadAndRevertThreadedBound(pages: seq<string>, loaded: Loaded, crash: string): (r: Outcome)
    ensures !r.Silent?
    ensures loaded.Failure? ==> r == Shown(loaded.error)
    ensures !LoadAndRevertThreaded(pages, loaded).Silent? ==> r == LoadAndRevertThreaded(pages, loaded)
  {
    match loaded
    case Failure(e) => Shown(e)
    case Success(doc) =>
      if pages == [] || doc.None? || !Truthy(doc.value) then Shown(LoadFailed)
      else match StringDict(doc.value)
        case None => Shown(crash)
        case Some(m) => Reverted(Revert(pages, m))
  }

  /** A mapping whose value is a number: taking `len` of the inverted key
      raises, the single-threaded revert lets the exception out, and the
      thread as written shows nothing where the bound message would show. */
  lemma NumberValueIsSilent(pages: seq<string>, crash: string)
    requires pages != []
    ensures var loaded: Loaded := Success(Some(Object([("Ana", Number("1"))])));
      && LoadAndRevert(pages, loaded) == Failure(Escaped)
      && LoadAndRevertThreaded(pages, loaded) == Silent
      && LoadAndRevertThreadedBound(pages, loaded, crash) == Shown(crash)
  {
  }

  /** Reading back the mapping the app saved reverts exactly as the session
      revert does with the mapping in memory. */
  lemma SavedMappingReverts(origs: seq<string>, pages: seq<string>, m: Dict<string, string>)
    requires pages != [] && m != [] && DistinctKeys(m)
    ensures LoadAndRevert(pages, Success(Some(FromDict(m)))) == Success(RevertSession(origs, pages, m).value.restored)
  {
    StringDictFromDict(m);
  }

  // ------------------------------------------------------------ deanonymize_text

  /** `deanonymize_text`: with no mapping (or an empty one) the text is returned
      as is; otherwise each `fake -> original` pair is applied in insertion order. */
  function DeanonymizeText(text: string, mapping: Option<Dict<string, string>>): (r: string)
    ensures mapping.None? || mapping.value == [] ==> r == text
  {
    if mapping.None? || mapping.value == [] then text else RevertPage(text, mapping.value)
  }

  /** A text in which no key of the mapping occurs is returned unchanged. In
      particular, passing the mapping the apps save (original to replacement)
      leaves an anonymised page, which holds no original, as it is. */
  lemma DeanonymizeAbsent(text: string, mapping: Dict<string, string>)
    requires forall i :: 0 <= i < |mapping| ==> mapping[i].0 != [] && !Occurs(mapping[i].0, text)
    ensures DeanonymizeText(text, Some(mapping)) == text
  {
    RevertPageAbsent(text, mapping);
  }
}

=== FILE: RevertExamples.dfy ===
/** Worked examples for the revert side: the insertion-order fold of
    `deanonymize_text` against the longest-first order of the apps. */
module RevertExamples {
  import opened Base
  import opened Text
  import opened Anonymizer
  import opened Reversion

  const Short: (string, string) := ("Ana", "Bob")
  const Long: (string, string) := ("Ana Maria", "Carla Souza")

  /** A pattern that opens the text is replaced there and the scan goes on after it. */
  lemma ReplaceHead(s: string, pat: string, rep: string)
    requires pat != [] && |pat| <= |s| && s[..|pat|] == pat
    ensures ReplaceAll(s, pat, rep) == rep + ReplaceAll(s[|pat|..], pat, rep)
  {
  }

  lemma ShortFirstParts()
    ensures "Ana Maria"[..3] == "Ana" && "Ana Maria"[3..] == " Maria"
    ensures "Ana"[0] !in " Maria"
    ensures "Bob" + " Maria" == "Bob Maria"
  {
  }

  lemma ShortFirst()
    ensures ReplaceAll("Ana Maria", "Ana", "Bob") == "Bob Maria"
  {
    ShortFirstParts();
    ReplaceHead("Ana Maria", "Ana", "Bob");
    ReplaceMissingHead(" Maria", "Ana", "Bob");
  }

  lemma LongAfterShort()
    ensures ReplaceAll("Bob Maria", "Ana Maria", "Carla Souza") == "Bob Maria"
  {
    ReplaceMissingHead("Bob Maria", "Ana Maria", "Carla Souza");
  }

  lemma ShortAfterLong()
    ensures ReplaceAll("Carla Souza", "Ana", "Bob") == "Carla Souza"
  {
    ReplaceMissingHead("Carla Souza", "Ana", "Bob");
  }

  /** In insertion order the shorter fake value, listed first, rewrites part of
      the longer one, which then no longer occurs. */
  lemma InsertionOrderBreaks()
    ensures DeanonymizeText("Ana Maria", Some([Short, Long])) == "Bob Maria"
  {
    ShortFirst();
    LongAfterShort();
    assert [Short, Long][1..] == [Long];
    assert RevertPage("Ana Maria", [Short, Long]) == RevertPage("Bob Maria", [Long]);
  }

  /** Longest first, the same two pairs restore the longer original. */
  lemma LongestFirstRestores()
    ensures RevertPage("Ana Maria", LongestFirst([Short, Long])) == "Carla Souza"
  {
    assert LongerKey(Long, Short);
    assert LongestFirst([Short, Long]) == [Long, Short];
    ReplaceWhole("Ana Maria", "Carla Souza");
    ShortAfterLong();
    assert [Long, Short][1..] == [Short];
    assert RevertPage("Ana Maria", [Long, Short]) == RevertPage("Carla Souza", [Short]);
  }
}

=== FILE: Rewrite.dfy ===
/** Python's `re.sub` for the anchored literal pattern the anonymiser builds
    (`\b` + escaped original + `\b`), and the relation "some non-overlapping
    occurrences of a pattern were swapped for a replacement" that every
    rewriting step of the pipeline satisfies. The replacement is inserted
    literally: the placeholders contain no backslashes. */
module Rewrite {
  import opened Text

  /** A word character ends just before position `i`. */
  predicate WordBefore(s: string, i: int) {
    0 < i <= |s| && IsWordChar(s[i - 1])
  }

  /** A word character starts at position `i`. */
  predicate WordAt(s: string, i: int) {
    0 <= i < |s| && IsWordChar(s[i])
  }

  /** `\b`: exactly one side of position `i` is a word character. */
  predicate Boundary(s: string, i: int) {
    WordBefore(s, i) != WordAt(s, i)
  }

  /** How an occurrence must sit in the text to be replaced: `\bX\b`, or
      `(?<!\w)X(?!\w)`, which keeps words intact without asking `X` itself
      to begin and end with a word character. */
  datatype Anchor = WordBounded | Standalone

  predicate Hit(a: Anchor, s: string, pat: string, i: int) {
    && MatchAt(s, pat, i)
    && match a
       case WordBounded => Boundary(s, i) && Boundary(s, i + |pat|)
       case Standalone => !WordBefore(s, i) && !WordAt(s, i + |pat|)
  }

  /** `re.sub` scanning from position `i`: the leftmost match wins, matches do
      not overlap, and an empty pattern matches emptily wherever it is anchored. */
  function SubFrom(a: Anchor, s: string, pat: string, rep: string, i: nat): string
    requires i <= |s|
    decreases |s| - i
  {
    if i == |s| then (if Hit(a, s, pat, i) then rep else [])
    else if !Hit(a, s, pat, i) then [s[i]] + SubFrom(a, s, pat, rep, i + 1)
    else if pat == [] then rep + [s[i]] + SubFrom(a, s, pat, rep, i + 1)
    else rep + SubFrom(a, s, pat, rep, i + |pat|)
  }

  function Sub(a: Anchor, s: string, pat: string, rep: string): string {
    SubFrom(a, s, pat, rep, 0)
  }

  /** `t` is `s` with some non-overlapping occurrences of `pat` replaced by
      `rep`, every other character copied. */
  ghost predicate Replaced(s: string, t: string, pat: string, rep: string)
    decreases |s|
  {
    if s == [] then t == []
    else
      || (t != [] && t[0] == s[0] && Replaced(s[1..], t[1..], pat, rep))
      || (pat != [] && StartsWith(s, pat) && StartsWith(t, rep)
          && Replaced(s[|pat|..], t[|rep|..], pat, rep))
  }

  /** Leaving the text alone is one way of replacing some occurrences. */
  lemma {:induction false} ReplacedNone(s: string, pat: string, rep: string)
    ensures Replaced(s, s, pat, rep)
    decreases |s|
  {
    if s != [] {
      ReplacedNone(s[1..], pat, rep);
    }
  }

  /** The anchored scan only ever swaps occurrences of the pattern. */
  lemma {:induction false} SubReplaced(a: Anchor, s: string, pat: string, rep: string, i: nat)
    requires pat != [] && i <= |s|
    ensures Replaced(s[i..], SubFrom(a, s, pat, rep, i), pat, rep)
    decreases |s| - i
  {
    var t := SubFrom(a, s, pat, rep, i);
    if i < |s| {
      if !Hit(a, s, pat, i) {
        SubReplaced(a, s, pat, rep, i + 1);
        assert s[i..][1..] == s[i + 1..];
        assert t == [s[i]] + SubFrom(a, s, pat, rep, i + 1);
      } else {
        SubReplaced(a, s, pat, rep, i + |pat|);
        assert s[i..][..|pat|] == s[i..i + |pat|];
        assert s[i..][|pat|..] == s[i + |pat|..];
        assert t == rep + SubFrom(a, s, pat, rep, i + |pat|);
        assert t[..|rep|] == rep && t[|rep|..] == SubFrom(a, s, pat, rep, i + |pat|);
      }
    }
  }

  /** `str.replace` with a non-empty pattern swaps every occurrence it meets. */
  lemma {:induction false} ReplaceAllReplaced(s: string, pat: string, rep: string)
    requires pat != []
    ensures Replaced(s, ReplaceAll(s, pat, rep), pat, rep)
    decreases |s|
  {
    var t := ReplaceAll(s, pat, rep);
    if |s| < |pat| {
      ReplacedNone(s, pat, rep);
    } else if s[..|pat|] == pat {
      ReplaceAllReplaced(s[|pat|..], pat, rep);
      assert t == rep + ReplaceAll(s[|pat|..], pat, rep);
      assert t[|rep|..] == ReplaceAll(s[|pat|..], pat, rep);
    } else {
      ReplaceAllReplaced(s[1..], pat, rep);
      assert t == [s[0]] + ReplaceAll(s[1..], pat, rep);
    }
  }

  /** Through a stretch where no occurrence starts, the relation copies verbatim. */
  lemma {:induction false} ReplacedCopy(p: string, y: string, t: string, pat: string, rep: string)
    requires Replaced(p + y, t, pat, rep)
    requires forall i :: 0 <= i < |p| ==> !MatchAt(p + y, pat, i)
    ensures |p| <= |t| && t[..|p|] == p
    ensures Replaced(y, t[|p|..], pat, rep)
    decreases |p|
  {
    if p == [] {
      assert p + y == y;
    } else {
      var s := p + y;
      assert !MatchAt(s, pat, 0);
      if |pat| <= |s| {
        assert s[..|pat|] == s[0..0 + |pat|];
      }
      assert !StartsWith(s, pat);
      assert s[1..] == p[1..] + y;
      forall i | 0 <= i < |p[1..]| ensures !MatchAt(p[1..] + y, pat, i) {
        MatchShift(s, pat, 1, i);
      }
      ReplacedCopy(p[1..], y, t[1..], pat, rep);
      assert t[1..][..|p| - 1] == t[1..|p|];
      assert t[..|p|] == [t[0]] + t[1..|p|];
      assert t[1..][|p| - 1..] == t[|p|..];
    }
  }

  /** No anchored occurrence from `i` to `j`: the scan copies that stretch. */
  lemma {:induction false} SubCopy(a: Anchor, s: string, pat: string, rep: string, i: nat, j: nat)
    requires i <= j <= |s|
    requires forall k :: i <= k < j ==> !Hit(a, s, pat, k)
    ensures SubFrom(a, s, pat, rep, i) == s[i..j] + SubFrom(a, s, pat, rep, j)
    decreases j - i
  {
    if i < j {
      SubCopy(a, s, pat, rep, i + 1, j);
      assert s[i..j] == [s[i]] + s[i + 1..j];
    }
  }

  /** With no anchored occurrence anywhere, `re.sub` returns its input. */
  lemma SubNoHit(a: Anchor, s: string, pat: string, rep: string)
    requires forall k :: 0 <= k <= |s| ==> !Hit(a, s, pat, k)
    ensures Sub(a, s, pat, rep) == s
  {
    SubCopy(a, s, pat, rep, 0, |s|);
    assert s[0..|s|] == s;
  }

  /** The lookaround form replaces a lone occurrence that no word character touches. */
  lemma StandaloneReplaced(x: string, pat: string, y: string, rep: string)
    requires pat != []
    requires x == [] || !IsWordChar(x[|x| - 1])
    requires y == [] || !IsWordChar(y[0])
    requires forall k :: 0 <= k <= |x + pat + y| && k != |x| ==> !MatchAt(x + pat + y, pat, k)
    ensures Sub(Standalone, x + pat + y, pat, rep) == x + rep + y
  {
    var s := x + pat + y;
    StandaloneHit(x, pat, y);
    NoHitElsewhere(s, pat, |x|);
    SubAround(Standalone, s, pat, rep, |x|);
    StandaloneParts(x, pat, y);
  }

  /** A single hit is swapped and the rest of the text copied around it. */
  lemma SubAround(a: Anchor, s: string, pat: string, rep: string, at: nat)
    requires pat != [] && Hit(a, s, pat, at)
    requires forall k :: 0 <= k <= |s| && k != at ==> !Hit(a, s, pat, k)
    ensures Sub(a, s, pat, rep) == s[0..at] + rep + s[at + |pat|..|s|]
  {
    var e := at + |pat|;
    SubCopy(a, s, pat, rep, 0, at);
    assert SubFrom(a, s, pat, rep, at) == rep + SubFrom(a, s, pat, rep, e);
    SubCopy(a, s, pat, rep, e, |s|);
    assert SubFrom(a, s, pat, rep, |s|) == [];
    AppendAssoc3(s[0..at], rep, s[e..|s|]);
  }

  lemma AppendAssoc3(a: string, b: string, c: string)
    ensures a + (b + (c + [])) == a + b + c
  {
    assert c + [] == c;
  }

  /** The one occurrence sits between non-word characters. */
  lemma StandaloneHit(x: string, pat: string, y: string)
    requires x == [] || !IsWordChar(x[|x| - 1])
    requires y == [] || !IsWordChar(y[0])
    ensures Hit(Standalone, x + pat + y, pat, |x|)
  {
    var s, e := x + pat + y, |x| + |pat|;
    assert s[|x|..e] == pat;
    if |x| > 0 {
      assert s[|x| - 1] == x[|x| - 1];
    }
    if e < |s| {
      assert s[e] == y[0];
    }
  }

  /** Where the pattern does not occur it is not hit. */
  lemma NoHitElsewhere(s: string, pat: string, at: int)
    requires forall k :: 0 <= k <= |s| && k != at ==> !MatchAt(s, pat, k)
    ensures forall k :: 0 <= k <= |s| && k != at ==> !Hit(Standalone, s, pat, k)
  {
  }

  lemma StandaloneParts(x: string, pat: string, y: string)
    ensures var s := x + pat + y;
      s[0..|x|] == x && s[|x| + |pat|..|s|] == y
  {
  }

  /** The two anchors agree on every position when the pattern begins and ends
      with a word character. */
  lemma HitAgree(s: string, pat: string, i: int)
    requires pat != [] && IsWordChar(pat[0]) && IsWordChar(pat[|pat| - 1])
    ensures Hit(WordBounded, s, pat, i) == Hit(Standalone, s, pat, i)
  {
    if MatchAt(s, pat, i) {
      assert s[i] == pat[0];
      assert s[i + |pat| - 1] == pat[|pat| - 1];
    }
  }

  lemma {:induction false} SubAgree(s: string, pat: string, rep: string, i: nat)
    requires pat != [] && IsWordChar(pat[0]) && IsWordChar(pat[|pat| - 1])
    requires i <= |s|
    ensures SubFrom(WordBounded, s, pat, rep, i) == SubFrom(Standalone, s, pat, rep, i)
    decreases |s| - i
  {
    HitAgree(s, pat, i);
    if i < |s| {
      if Hit(WordBounded, s, pat, i) {
        SubAgree(s, pat, rep, i + |pat|);
      } else {
        SubAgree(s, pat, rep, i + 1);
      }
    }
  }
}

=== FILE: RoundTrip.dfy ===
/** Why reverting restores the pages. An anonymised page is read as a sequence
    of symbols: original characters, and slots where an original was swapped
    for its replacement. Rewriting keeps the page's source text (slots read as
    their originals) and only creates slots; reverting turns slots back into
    originals, one replacement at a time. The argument needs the replacements to
    look like placeholders (`[` + bracket-free body + `]`) and the originals to
    be bracket-free, so that no match can straddle a slot boundary. */
module RoundTrip {
  import opened Base
  import opened Text
  import opened Rewrite
  import opened Anonymizer
  import opened Reversion

  predicate Bracket(c: char) {
    c == '[' || c == ']'
  }

  predicate BracketFree(s: string) {
    forall i :: 0 <= i < |s| ==> !Bracket(s[i])
  }

  /** The shape of every placeholder: `[`, a bracket-free body, `]`. */
  predicate TagShaped(v: string) {
    && |v| >= 2 && v[0] == '[' && v[|v| - 1] == ']'
    && forall i :: 0 < i < |v| - 1 ==> !Bracket(v[i])
  }

  datatype Sym = Ch(c: char) | Slot(key: string, tag: string)

  /** A symbol as displayed: slots whose tag is in `done` are already reverted. */
  function Piece(x: Sym, done: set<string>): string {
    match x
    case Ch(c) => [c]
    case Slot(k, t) => if t in done then k else t
  }

  function Render(syms: seq<Sym>, done: set<string>): string
    decreases |syms|
  {
    if syms == [] then [] else Piece(syms[0], done) + Render(syms[1..], done)
  }

  /** The anonymised text: no slot reverted. */
  function Shown(syms: seq<Sym>): string {
    Render(syms, {})
  }

  function SourcePiece(x: Sym): string {
    match x
    case Ch(c) => [c]
    case Slot(k, _) => k
  }

  /** The text before anonymisation: every slot read as its original. */
  function Source(syms: seq<Sym>): string
    decreases |syms|
  {
    if syms == [] then [] else SourcePiece(syms[0]) + Source(syms[1..])
  }

  /** A plain page: one character symbol per character. */
  function Chars(s: string): (r: seq<Sym>)
    ensures |r| == |s|
    ensures forall i :: 0 <= i < |s| ==> r[i] == Ch(s[i])
  {
    seq(|s|, i requires 0 <= i < |s| => Ch(s[i]))
  }

  /** Every slot stands for a pair of the mapping. */
  ghost predicate SlotsIn(syms: seq<Sym>, m: Dict<string, string>) {
    forall x :: x in syms && x.Slot? ==> (x.key, x.tag) in m
  }

  ghost predicate TagsShaped(syms: seq<Sym>) {
    forall x :: x in syms && x.Slot? ==> TagShaped(x.tag)
  }

  // ------------------------------------------------------------ rendering facts

  lemma {:induction false} RenderAppend(a: seq<Sym>, b: seq<Sym>, done: set<string>)
    ensures Render(a + b, done) == Render(a, done) + Render(b, done)
    decreases |a|
  {
    if a == [] {
      assert a + b == b;
    } else {
      assert (a + b)[0] == a[0] && (a + b)[1..] == a[1..] + b;
      RenderAppend(a[1..], b, done);
      var p := Piece(a[0], done);
      assert p + (Render(a[1..], done) + Render(b, done)) == (p + Render(a[1..], done)) + Render(b, done);
    }
  }

  lemma {:induction false} SourceAppend(a: seq<Sym>, b: seq<Sym>)
    ensures Source(a + b) == Source(a) + Source(b)
    decreases |a|
  {
    if a == [] {
      assert a + b == b;
    } else {
      assert (a + b)[0] == a[0] && (a + b)[1..] == a[1..] + b;
      SourceAppend(a[1..], b);
      var p := SourcePiece(a[0]);
      assert p + (Source(a[1..]) + Source(b)) == (p + Source(a[1..])) + Source(b);
    }
  }

  /** Once every slot is reverted the display is the source text. */
  lemma {:induction false} RenderClosed(syms: seq<Sym>, done: set<string>)
    requires forall x :: x in syms && x.Slot? ==> x.tag in done
    ensures Render(syms, done) == Source(syms)
    decreases |syms|
  {
    if syms != [] {
      assert syms[0] in syms;
      assert forall x :: x in syms[1..] ==> x in syms;
      RenderClosed(syms[1..], done);
    }
  }

  lemma CharsPlain(s: string, done: set<string>)
    ensures Render(Chars(s), done) == s && Source(Chars(s)) == s
  {
    CharsSource(s);
    RenderClosed(Chars(s), done);
  }

  lemma {:induction false} CharsSource(s: string)
    ensures Source(Chars(s)) == s
    decreases |s|
  {
    if s != [] {
      assert Chars(s)[1..] == Chars(s[1..]);
      CharsSource(s[1..]);
      assert s == [s[0]] + s[1..];
    }
  }

  // ------------------------------------------------------------ rewriting keeps the source

  /** The display of a non-empty symbol sequence starting with a slot starts with `[`. */
  lemma ShownHead(syms: seq<Sym>)
    ensures syms != [] && syms[0].Slot? && TagShaped(syms[0].tag) ==> Shown(syms)[0] == '['
  {
  }

  /** A bracket-free original found at the start of the display covers only characters. */
  lemma {:induction false} LeadChars(syms: seq<Sym>, k: string)
    requires BracketFree(k)
    requires TagsShaped(syms)
    requires StartsWith(Shown(syms), k)
    ensures |k| <= |syms|
    ensures forall j :: 0 <= j < |k| ==> syms[j] == Ch(k[j])
    decreases |k|
  {
    if k != [] {
      var s := Shown(syms);
      assert syms != [];
      assert syms[0] in syms;
      ShownHead(syms);
      assert k[0] == s[0];
      assert syms[0].Ch?;
      assert s == [syms[0].c] + Shown(syms[1..]);
      assert s[1..] == Shown(syms[1..]);
      assert StartsWith(s[1..], k[1..]) by {
        assert s[1..][..|k| - 1] == s[..|k|][1..];
      }
      assert forall x :: x in syms[1..] ==> x in syms;
      LeadChars(syms[1..], k[1..]);
      forall j | 0 <= j < |k| ensures syms[j] == Ch(k[j]) {
        if j > 0 {
          assert syms[j] == syms[1..][j - 1];
        }
      }
    }
  }

  /** Characters only: displayed and source text agree, whatever is reverted. */
  lemma {:induction false} CharsOnly(a: seq<Sym>, k: string, done: set<string>)
    requires |a| == |k|
    requires forall j :: 0 <= j < |k| ==> a[j] == Ch(k[j])
    ensures Render(a, done) == k && Source(a) == k
  {
    assert a == Chars(k);
    CharsPlain(k, done);
  }

  /** No occurrence of a bracket-free original that is absent from a
      placeholder starts inside that placeholder. */
  lemma NoMatchInTag(w: string, rest: string, k: string, i: nat)
    requires TagShaped(w) && BracketFree(k) && !Occurs(k, w)
    requires i < |w|
    ensures !MatchAt(w + rest, k, i)
  {
    var s := w + rest;
    if i + |k| <= |w| {
      assert !MatchAt(w, k, i);
      assert s[i..i + |k|] == w[i..i + |k|];
    } else if i + |k| <= |s| {
      var o := |w| - 1 - i;
      assert s[i..i + |k|][o] == s[|w| - 1] == ']';
      assert k[o] != ']';
    }
  }

  /** What lifting a step for original `k` needs of the symbols. */
  ghost predicate Liftable(syms: seq<Sym>, k: string) {
    && k != [] && BracketFree(k)
    && TagsShaped(syms)
    && forall x :: x in syms && x.Slot? ==> !Occurs(k, x.tag)
  }

  /** Lifting one rewriting step to symbols: whatever occurrences the step
      replaced, there is a symbol sequence with one new slot per replaced
      occurrence, the same source text, and the old slots untouched. */
  lemma {:induction false} Lift(syms: seq<Sym>, t: string, k: string, v: string) returns (out: seq<Sym>)
    requires Liftable(syms, k)
    requires Replaced(Shown(syms), t, k, v)
    ensures Shown(out) == t
    ensures Source(out) == Source(syms)
    ensures forall x :: x in out && x.Slot? ==> x in syms || x == Slot(k, v)
    decreases |syms|, 1
  {
    var s := Shown(syms);
    if syms == [] {
      out := [];
    } else if syms[0].Slot? {
      out := LiftSlot(syms, t, k, v);
    } else if t != [] && t[0] == s[0] && Replaced(s[1..], t[1..], k, v) {
      out := LiftChar(syms, t, k, v);
    } else {
      out := LiftMatch(syms, t, k, v);
    }
  }

  /** A slot at the front is copied: no occurrence of `k` starts inside it. */
  lemma {:induction false} LiftSlot(syms: seq<Sym>, t: string, k: string, v: string) returns (out: seq<Sym>)
    requires Liftable(syms, k)
    requires Replaced(Shown(syms), t, k, v)
    requires syms != [] && syms[0].Slot?
    ensures Shown(out) == t
    ensures Source(out) == Source(syms)
    ensures forall x :: x in out && x.Slot? ==> x in syms || x == Slot(k, v)
    decreases |syms|, 0
  {
    var w, rest := syms[0].tag, syms[1..];
    assert syms[0] in syms;
    assert Shown(syms) == w + Shown(rest);
    forall i | 0 <= i < |w| ensures !MatchAt(w + Shown(rest), k, i) {
      NoMatchInTag(w, Shown(rest), k, i);
    }
    ReplacedCopy(w, Shown(rest), t, k, v);
    assert forall x :: x in rest ==> x in syms;
    var tail := Lift(rest, t[|w|..], k, v);
    out := [syms[0]] + tail;
    assert out[1..] == tail;
    assert t == w + t[|w|..];
  }

  /** A character at the front that the step copied. */
  lemma {:induction false} LiftChar(syms: seq<Sym>, t: string, k: string, v: string) returns (out: seq<Sym>)
    requires Liftable(syms, k)
    requires syms != [] && syms[0].Ch?
    requires t != [] && t[0] == Shown(syms)[0] && Replaced(Shown(syms)[1..], t[1..], k, v)
    ensures Shown(out) == t
    ensures Source(out) == Source(syms)
    ensures forall x :: x in out && x.Slot? ==> x in syms || x == Slot(k, v)
    decreases |syms|, 0
  {
    var s, rest := Shown(syms), syms[1..];
    assert s == [syms[0].c] + Shown(rest);
    assert s[1..] == Shown(rest);
    assert forall x :: x in rest ==> x in syms;
    var tail := Lift(rest, t[1..], k, v);
    out := [syms[0]] + tail;
    assert out[1..] == tail;
    assert t == [t[0]] + t[1..];
  }

  /** An occurrence the step replaced: it covers characters only, which become one slot. */
  lemma {:induction false} LiftMatch(syms: seq<Sym>, t: string, k: string, v: string) returns (out: seq<Sym>)
    requires Liftable(syms, k)
    requires syms != [] && syms[0].Ch?
    requires StartsWith(Shown(syms), k) && StartsWith(t, v)
    requires Replaced(Shown(syms)[|k|..], t[|v|..], k, v)
    ensures Shown(out) == t
    ensures Source(out) == Source(syms)
    ensures forall x :: x in out && x.Slot? ==> x in syms || x == Slot(k, v)
    decreases |syms|, 0
  {
    var s := Shown(syms);
    LeadChars(syms, k);
    var a, rest := syms[..|k|], syms[|k|..];
    assert syms == a + rest;
    CharsOnly(a, k, {});
    RenderAppend(a, rest, {});
    SourceAppend(a, rest);
    assert s[|k|..] == Shown(rest);
    assert forall x :: x in rest ==> x in syms;
    var tail := Lift(rest, t[|v|..], k, v);
    out := [Slot(k, v)] + tail;
    assert out[1..] == tail;
    assert t == v + t[|v|..];
  }

  /** Rewriting a whole page: the display is the rewritten page, the source
      text is unchanged and every slot stands for a pair of the mapping. */
  lemma {:induction false} RewriteLift(st: Settings, syms: seq<Sym>, pairs: Dict<string, string>,
                                       m: Dict<string, string>) returns (out: seq<Sym>)
    requires WellShaped(m)
    requires forall p :: p in pairs ==> p in m
    requires SlotsIn(syms, m)
    ensures Shown(out) == RewritePage(st, Shown(syms), pairs)
    ensures Source(out) == Source(syms)
    ensures SlotsIn(out, m)
    decreases |pairs|
  {
    if pairs == [] {
      out := syms;
    } else {
      var k, v := pairs[0].0, pairs[0].1;
      assert pairs[0] in pairs;
      var t := ReplaceStep(st, Shown(syms), k, v);
      ReplaceStepSwapsOnly(st, Shown(syms), k, v);
      forall x | x in syms && x.Slot? ensures TagShaped(x.tag) && !Occurs(k, x.tag) {
        assert (x.key, x.tag) in m;
      }
      var mid := Lift(syms, t, k, v);
      forall x | x in mid && x.Slot? ensures (x.key, x.tag) in m {
        if x !in syms {
          assert x == Slot(k, v);
        }
      }
      assert forall p :: p in pairs[1..] ==> p in pairs;
      out := RewriteLift(st, mid, pairs[1..], m);
    }
  }

  /** The originals are non-empty and bracket-free, the replacements are
      placeholder-shaped, and no original occurs inside a replacement. */
  ghost predicate WellShaped(m: Dict<string, string>) {
    && (forall p :: p in m ==> p.0 != [] && BracketFree(p.0) && TagShaped(p.1))
    && (forall p, q :: p in m && q in m ==> !Occurs(p.0, q.1))
  }

  // ------------------------------------------------------------ reverting restores the source

  /** The first slot not yet reverted, or the length when there is none. */
  function FirstOpen(syms: seq<Sym>, done: set<string>): (n: nat)
    ensures n <= |syms|
    ensures n < |syms| ==> syms[n].Slot? && syms[n].tag !in done
    ensures forall j :: 0 <= j < n ==> !(syms[j].Slot? && syms[j].tag !in done)
    decreases |syms|
  {
    if syms == [] || (syms[0].Slot? && syms[0].tag !in done) then 0
    else
      var n := 1 + FirstOpen(syms[1..], done);
      assert forall j :: 0 < j < n ==> syms[j] == syms[1..][j - 1];
      n
  }

  /** No occurrence of a placeholder starts in a stretch that lacks it when
      the next thing is a placeholder (or nothing). */
  lemma NoMatchBeforeTag(x: string, y: string, v: string, i: nat)
    requires TagShaped(v) && !Occurs(v, x)
    requires y == [] || y[0] == '['
    requires i < |x|
    ensures !MatchAt(x + y, v, i)
  {
    var s := x + y;
    if i + |v| <= |x| {
      assert !MatchAt(x, v, i);
      assert s[i..i + |v|] == x[i..i + |v|];
    } else if i + |v| <= |s| {
      var o := |x| - i;
      assert s[i..i + |v|][o] == s[|x|] == y[0];
      assert v[o] != '[';
    }
  }

  lemma SkipPlain(x: string, y: string, v: string, k: string)
    requires TagShaped(v) && !Occurs(v, x)
    requires y == [] || y[0] == '['
    ensures ReplaceAll(x + y, v, k) == x + ReplaceAll(y, v, k)
  {
    forall i | 0 <= i < |x| ensures !MatchAt(x + y, v, i) {
      NoMatchBeforeTag(x, y, v, i);
    }
    ReplaceAllSkip(x, y, v, k);
  }

  /** A placeholder matches another only where it starts, and only if equal. */
  lemma NoMatchInOtherTag(w: string, y: string, v: string, i: nat)
    requires TagShaped(w) && TagShaped(v) && w != v
    requires i < |w|
    ensures !MatchAt(w + y, v, i)
  {
    var s := w + y;
    if i == 0 {
      if |v| < |w| {
        assert s[0..|v|][|v| - 1] == w[|v| - 1];
      } else if |v| == |w| {
        assert s[0..|v|] == w;
      } else if |v| <= |s| {
        assert s[0..|v|][|w| - 1] == w[|w| - 1];
      }
    } else if i + |v| <= |s| {
      assert s[i..i + |v|][0] == w[i];
    }
  }

  lemma TagSkip(w: string, y: string, v: string, k: string)
    requires TagShaped(w) && TagShaped(v) && w != v
    ensures ReplaceAll(w + y, v, k) == w + ReplaceAll(y, v, k)
  {
    forall i | 0 <= i < |w| ensures !MatchAt(w + y, v, i) {
      NoMatchInOtherTag(w, y, v, i);
    }
    ReplaceAllSkip(w, y, v, k);
  }

  lemma TagHit(v: string, y: string, k: string)
    requires v != []
    ensures ReplaceAll(v + y, v, k) == k + ReplaceAll(y, v, k)
  {
    assert (v + y)[..|v|] == v && (v + y)[|v|..] == y;
  }

  /** One step of the revert loop turns exactly the slots of one placeholder
      back into their original. */
  lemma {:induction false} RevertStep(syms: seq<Sym>, done: set<string>, v: string, k: string)
    requires TagShaped(v)
    requires TagsShaped(syms)
    requires forall x :: x in syms && x.Slot? && x.tag == v ==> x.key == k
    requires !Occurs(v, Source(syms))
    ensures ReplaceAll(Render(syms, done), v, k) == Render(syms, done + {v})
    decreases |syms|, 1
  {
    var n := FirstOpen(syms, done);
    var a, b := syms[..n], syms[n..];
    assert syms == a + b;
    forall x | x in a && x.Slot? ensures x.tag in done {
      var j :| 0 <= j < n && a[j] == x;
      assert syms[j] == x;
    }
    RenderClosed(a, done);
    RenderClosed(a, done + {v});
    RenderAppend(a, b, done);
    RenderAppend(a, b, done + {v});
    SourceAppend(a, b);
    AbsentFromParts(v, Source(a), Source(b));
    assert forall y :: y in b ==> y in syms;
    RevertOpen(b, done, v, k);
    var x := Source(a);
    if b == [] {
      SkipPlain(x, [], v, k);
      assert x + [] == x;
    } else {
      assert Render(b, done) == b[0].tag + Render(b[1..], done);
      SkipPlain(x, Render(b, done), v, k);
    }
  }

  /** The same step on symbols that are empty or start with a slot not yet reverted. */
  lemma {:induction false} RevertOpen(b: seq<Sym>, done: set<string>, v: string, k: string)
    requires TagShaped(v)
    requires TagsShaped(b)
    requires forall x :: x in b && x.Slot? && x.tag == v ==> x.key == k
    requires !Occurs(v, Source(b))
    requires b == [] || (b[0].Slot? && b[0].tag !in done)
    ensures ReplaceAll(Render(b, done), v, k) == Render(b, done + {v})
    decreases |b|, 0
  {
    if b != [] {
      var kk, w, c := b[0].key, b[0].tag, b[1..];
      assert b[0] in b;
      assert b == [b[0]] + c;
      assert Render(b, done) == w + Render(c, done);
      assert Source(b) == kk + Source(c);
      AbsentFromParts(v, kk, Source(c));
      assert forall y :: y in c ==> y in b;
      RevertStep(c, done, v, k);
      if w == v {
        TagHit(v, Render(c, done), k);
        assert Render(b, done + {v}) == kk + Render(c, done + {v});
      } else {
        TagSkip(w, Render(c, done), v, k);
        assert Render(b, done + {v}) == w + Render(c, done + {v});
      }
    }
  }

  /** The placeholders the revert loop has handled. */
  function Fakes(pairs: Dict<string, string>): set<string> {
    set p | p in pairs :: p.0
  }

  /** What the revert loop needs of the symbols and the mapping: every slot
      stands for a pair, replacements are tags that the source never shows,
      and each replacement has one original. */
  ghost predicate SlotsRevertible(syms: seq<Sym>, m: Dict<string, string>) {
    && SlotsIn(syms, m)
    && (forall p :: p in m ==> TagShaped(p.1) && !Occurs(p.1, Source(syms)))
    && (forall p, q :: p in m && q in m && p.1 == q.1 ==> p.0 == q.0)
  }

  /** The whole revert loop reverts every slot whose placeholder it visits. */
  lemma {:induction false} RevertAll(syms: seq<Sym>, done: set<string>, pairs: Dict<string, string>,
                                     m: Dict<string, string>)
    requires SlotsRevertible(syms, m)
    requires forall p :: p in pairs ==> (p.1, p.0) in m
    ensures RevertPage(Render(syms, done), pairs) == Render(syms, done + Fakes(pairs))
    decreases |pairs|
  {
    if pairs == [] {
      assert done + Fakes(pairs) == done;
    } else {
      var v, k, rest := pairs[0].0, pairs[0].1, pairs[1..];
      assert pairs[0] in pairs;
      RevertStepReady(syms, m, v, k);
      RevertStep(syms, done, v, k);
      assert forall p :: p in rest ==> p in pairs;
      RevertAll(syms, done + {v}, rest, m);
      FakesCons(pairs);
      assert done + {v} + Fakes(rest) == done + Fakes(pairs);
    }
  }

  /** A visited pair meets what one revert step needs. */
  lemma RevertStepReady(syms: seq<Sym>, m: Dict<string, string>, v: string, k: string)
    requires SlotsRevertible(syms, m)
    requires (k, v) in m
    ensures TagShaped(v) && TagsShaped(syms) && !Occurs(v, Source(syms))
    ensures forall x :: x in syms && x.Slot? && x.tag == v ==> x.key == k
  {
    forall x | x in syms && x.Slot? ensures TagShaped(x.tag) && (x.tag == v ==> x.key == k) {
      assert (x.key, x.tag) in m;
    }
  }

  lemma FakesCons(pairs: Dict<string, string>)
    requires pairs != []
    ensures Fakes(pairs) == {pairs[0].0} + Fakes(pairs[1..])
  {
    assert pairs == [pairs[0]] + pairs[1..];
  }

  // ------------------------------------------------------------ the round trip

  /** Distinct replacements determine their original. */
  lemma ValuesFunctional(m: Dict<string, string>)
    requires Distinct(Values(m))
    ensures forall p, q :: p in m && q in m && p.1 == q.1 ==> p.0 == q.0
  {
    forall p, q | p in m && q in m && p.1 == q.1 ensures p.0 == q.0 {
      var i :| 0 <= i < |m| && m[i] == p;
      var j :| 0 <= j < |m| && m[j] == q;
      assert Values(m)[i] == p.1 && Values(m)[j] == q.1;
      DistinctAt(Values(m), i, j);
    }
  }

  /** A plain page has no slots; it shows and stands for itself. */
  lemma CharsLift(page: string, m: Dict<string, string>)
    ensures SlotsIn(Chars(page), m)
    ensures Shown(Chars(page)) == page && Source(Chars(page)) == page
  {
    CharsPlain(page, {});
    forall x | x in Chars(page) ensures x.Ch? {
      var i :| 0 <= i < |page| && Chars(page)[i] == x;
    }
  }

  lemma LongestFirstWithin(m: Dict<string, string>)
    ensures forall p :: p in LongestFirst(m) ==> p in m
  {
    forall p | p in LongestFirst(m) ensures p in m {
      assert p in multiset(LongestFirst(m));
    }
  }

  /** With distinct replacements the revert loop visits exactly the swapped pairs of the mapping. */
  lemma RevertOrderSwapped(m: Dict<string, string>)
    requires Distinct(Values(m))
    ensures forall p :: p in RevertOrder(m) ==> (p.1, p.0) in m
    ensures forall p :: p in m ==> p.1 in Fakes(RevertOrder(m))
  {
    var back := RevertOrder(m);
    InvertDistinct(m);
    forall p | p in back ensures (p.1, p.0) in m {
      assert p in multiset(back);
      var i :| 0 <= i < |m| && Swap(m)[i] == p;
      assert m[i] == (p.1, p.0);
    }
    forall p | p in m ensures p.1 in Fakes(back) {
      var i :| 0 <= i < |m| && m[i] == p;
      assert Swap(m)[i] == (p.1, p.0);
      assert (p.1, p.0) in multiset(back);
    }
  }

  /** Reverting the rewritten page with the inverse mapping, longest
      replacement first, gives the page back. */
  lemma PageRoundTrip(st: Settings, page: string, m: Dict<string, string>)
    requires WellShaped(m) && Distinct(Values(m))
    requires forall p :: p in m ==> !Occurs(p.1, page)
    ensures RevertPage(RewritePage(st, page, LongestFirst(m)), RevertOrder(m)) == page
  {
    var syms := Chars(page);
    CharsLift(page, m);
    LongestFirstWithin(m);
    var out := RewriteLift(st, syms, LongestFirst(m), m);
    RevertRestores(out, m);
  }

  /** Reverting what a rewrite shows, with every slot standing for a pair of a
      well-shaped mapping, gives back the source. */
  lemma RevertRestores(out: seq<Sym>, m: Dict<string, string>)
    requires WellShaped(m) && Distinct(Values(m))
    requires SlotsIn(out, m)
    requires forall p :: p in m ==> !Occurs(p.1, Source(out))
    ensures RevertPage(Shown(out), RevertOrder(m)) == Source(out)
  {
    var back := RevertOrder(m);
    RevertibleOut(out, m);
    RevertOrderSwapped(m);
    AllSlotsVisited(out, m, back);
    RevertFromNothing(out, back, m);
  }

  /** Starting from nothing reverted, a loop that visits every slot's
      placeholder ends at the source. */
  lemma RevertFromNothing(out: seq<Sym>, back: Dict<string, string>, m: Dict<string, string>)
    requires SlotsRevertible(out, m)
    requires forall p :: p in back ==> (p.1, p.0) in m
    requires forall x :: x in out && x.Slot? ==> x.tag in Fakes(back)
    ensures RevertPage(Shown(out), back) == Source(out)
  {
    var none: set<string> := {};
    RevertAll(out, none, back, m);
    assert none + Fakes(back) == Fakes(back);
    RenderClosed(out, Fakes(back));
  }

  lemma RevertibleOut(out: seq<Sym>, m: Dict<string, string>)
    requires WellShaped(m) && Distinct(Values(m))
    requires SlotsIn(out, m)
    requires forall p :: p in m ==> !Occurs(p.1, Source(out))
    ensures SlotsRevertible(out, m)
  {
    ValuesFunctional(m);
  }

  lemma AllSlotsVisited(out: seq<Sym>, m: Dict<string, string>, back: Dict<string, string>)
    requires SlotsIn(out, m)
    requires forall p :: p in m ==> p.1 in Fakes(back)
    ensures forall x :: x in out && x.Slot? ==> x.tag in Fakes(back)
  {
    forall x | x in out && x.Slot? ensures x.tag in Fakes(back) {
      assert (x.key, x.tag) in m;
    }
  }

  /** What the round trip needs of a mapping and the pages it is applied to. */
  ghost predicate Reversible(m: Dict<string, string>, pages: seq<string>) {
    && WellShaped(m)
    && Distinct(Values(m))
    && forall p, i :: p in m && 0 <= i < |pages| ==> !Occurs(p.1, pages[i])
  }

  /** Anonymising and then reverting with the mapping produced gives back every page. */
  lemma AnonymizeThenRevert(st: Settings, pages: seq<string>, items: Dict<string, string>, draws: seq<Draw>)
    requires AnonymizeTexts(st, pages, items, draws).Some?
    requires Reversible(AnonymizeTexts(st, pages, items, draws).value.1, pages)
    ensures Revert(AnonymizeTexts(st, pages, items, draws).value.0,
                   AnonymizeTexts(st, pages, items, draws).value.1) == pages
  {
    var (anon, m) := AnonymizeTexts(st, pages, items, draws).value;
    var r := Revert(anon, m);
    forall i | 0 <= i < |pages| ensures r[i] == pages[i] {
      if m == [] {
        assert anon == pages;
        assert RevertOrder(m) == [];
      } else {
        assert anon[i] == RewritePage(st, pages[i], LongestFirst(m));
        PageRoundTrip(st, pages[i], m);
      }
    }
  }

  /** Characters a placeholder is made of. */
  predicate PlaceholderChar(c: char) {
    IsAsciiUpper(c) || IsDigit(c) || c == '_' || Bracket(c)
  }

  /** Entity kinds as spaCy and the recognisers name them (`PER`, `CPF`, `EMAIL_ADDRESS`). */
  predicate KindName(kind: string) {
    forall i :: 0 <= i < |kind| ==> IsAsciiUpper(kind[i]) || kind[i] == '_'
  }

  /** An original that cannot be mistaken for a piece of a placeholder. */
  predicate Distinguishable(orig: string) {
    && orig != [] && BracketFree(orig)
    && exists i :: 0 <= i < |orig| && !PlaceholderChar(orig[i])
  }

  lemma PlaceholderShape(kind: string, n: nat)
    requires KindName(kind)
    ensures TagShaped(Placeholder(kind, n))
    ensures forall i :: 0 <= i < |Placeholder(kind, n)| ==> PlaceholderChar(Placeholder(kind, n)[i])
  {
    var d, p := Decimal(n), Placeholder(kind, n);
    assert |p| == |kind| + |d| + 3;
    forall i | 0 <= i < |p| ensures PlaceholderChar(p[i]) && (0 < i < |p| - 1 ==> !Bracket(p[i])) {
      if i == 0 || i == |p| - 1 {
      } else if i <= |kind| {
        assert p[i] == kind[i - 1];
      } else if i == |kind| + 1 {
        assert p[i] == '_';
      } else {
        assert p[i] == d[i - |kind| - 2];
      }
    }
  }

  /** A pattern holding a character the text lacks does not occur in it. */
  lemma AbsentByChar(pat: string, s: string, j: nat)
    requires j < |pat|
    requires forall i :: 0 <= i < |s| ==> s[i] != pat[j]
    ensures !Occurs(pat, s)
  {
    forall i | 0 <= i <= |s| ensures !MatchAt(s, pat, i) {
      if i + |pat| <= |s| {
        assert s[i..i + |pat|][j] == s[i + j];
      }
    }
  }

  /** Placeholder mode with entity-kind names, distinguishable originals and
      pages free of `[` yields a mapping the round trip applies to. */
  lemma PlaceholderReversible(st: Settings, pages: seq<string>, items: Dict<string, string>, draws: seq<Draw>)
    requires st.usePlaceholders && DistinctKeys(items)
    requires forall i :: 0 <= i < |items| ==> Distinguishable(items[i].0) && KindName(items[i].1)
    requires forall p, i :: 0 <= p < |pages| && 0 <= i < |pages[p]| ==> pages[p][i] != '['
    ensures Reversible(Mapping(st, items, draws).value, pages)
  {
    var m := Mapping(st, items, draws).value;
    PlaceholdersDistinct(st, items, draws);
    PlaceholderPairs(st, items, draws);
    forall p, q | p in m && q in m ensures !Occurs(p.0, q.1) {
      var j :| 0 <= j < |p.0| && !PlaceholderChar(p.0[j]);
      AbsentByChar(p.0, q.1, j);
    }
    forall p, i | p in m && 0 <= i < |pages| ensures !Occurs(p.1, pages[i]) {
      AbsentByChar(p.1, pages[i], 0);
    }
  }

  /** Every pair of a placeholder mapping: a distinguishable original and a placeholder. */
  lemma PlaceholderPairs(st: Settings, items: Dict<string, string>, draws: seq<Draw>)
    requires st.usePlaceholders && DistinctKeys(items)
    requires forall i :: 0 <= i < |items| ==> Distinguishable(items[i].0) && KindName(items[i].1)
    ensures forall p :: p in Mapping(st, items, draws).value ==>
      && Distinguishable(p.0) && TagShaped(p.1)
      && forall i :: 0 <= i < |p.1| ==> PlaceholderChar(p.1[i])
  {
    var m := Mapping(st, items, draws).value;
    forall p | p in m
      ensures Distinguishable(p.0) && TagShaped(p.1)
      ensures forall i :: 0 <= i < |p.1| ==> PlaceholderChar(p.1[i])
    {
      var i :| 0 <= i < |m| && m[i] == p;
      PlaceholderPairAt(st, items, draws, i);
    }
  }

  lemma PlaceholderPairAt(st: Settings, items: Dict<string, string>, draws: seq<Draw>, i: nat)
    requires st.usePlaceholders && DistinctKeys(items)
    requires forall i :: 0 <= i < |items| ==> Distinguishable(items[i].0) && KindName(items[i].1)
    requires i < |Mapping(st, items, draws).value|
    ensures var p := Mapping(st, items, draws).value[i];
      && Distinguishable(p.0) && TagShaped(p.1)
      && forall j :: 0 <= j < |p.1| ==> PlaceholderChar(p.1[j])
  {
    var m := Mapping(st, items, draws).value;
    MappingKeys(st, items, draws);
    assert m[i].0 == Keys(m)[i] == items[i].0;
    MappingAt(st, items, draws, i);
    PlaceholderShape(items[i].1, KindCount(items[..i], items[i].1) + 1);
  }

  /** The end-to-end guarantee of placeholder mode: every page comes back, and
      the session revert reports that the whole text was restored. */
  lemma PlaceholderRoundTrip(st: Settings, pages: seq<string>, items: Dict<string, string>, draws: seq<Draw>)
    requires st.usePlaceholders && DistinctKeys(items)
    requires forall i :: 0 <= i < |items| ==> Distinguishable(items[i].0) && KindName(items[i].1)
    requires forall p, i :: 0 <= p < |pages| && 0 <= i < |pages[p]| ==> pages[p][i] != '['
    ensures var (anon, m) := AnonymizeTexts(st, pages, items, draws).value;
            && Revert(anon, m) == pages
            && (pages != [] && items != [] ==> RevertSession(pages, anon, m) == Success(SessionRevert(pages, true)))
  {
    var (anon, m) := AnonymizeTexts(st, pages, items, draws).value;
    if pages == [] || items == [] {
      assert m == [];
      assert Values(m) == [];
    } else {
      assert m == Mapping(st, items, draws).value;
      PlaceholderReversible(st, pages, items, draws);
      MappingKeys(st, items, draws);
      assert |m| == |items|;
    }
    AnonymizeThenRevert(st, pages, items, draws);
  }
}

=== FILE: Sorting.dfy ===
/** Python's `sorted` / `list.sort`: a stable sort. The ordering is given as a
    strict "goes before" relation on keys; elements that neither goes before the
    other keep their input order, exactly as Python's stable sort does. */
module Sorting {
  import opened Base

  /** Place `x` in front of the first element that does not go strictly before it. */
  function Insert<T>(x: T, s: seq<T>, before: (T, T) -> bool): (r: seq<T>)
    ensures |r| == |s| + 1
    ensures multiset(r) == multiset(s) + multiset{x}
  {
    if s == [] || !before(s[0], x) then [x] + s
    else
      assert s == [s[0]] + s[1..];
      [s[0]] + Insert(x, s[1..], before)
  }

  /** Insertion sort; inserting the head last makes it precede its equals. */
  function Sort<T>(s: seq<T>, before: (T, T) -> bool): (r: seq<T>)
    ensures |r| == |s|
    ensures multiset(r) == multiset(s)
  {
    if s == [] then []
    else
      assert s == [s[0]] + s[1..];
      Insert(s[0], Sort(s[1..], before), before)
  }

  ghost predicate Asymmetric<T(!new)>(before: (T, T) -> bool) {
    forall a, b :: before(a, b) ==> !before(b, a)
  }

  /** "Does not go after" is transitive (true of every strict weak order). */
  ghost predicate NotAfterTransitive<T(!new)>(before: (T, T) -> bool) {
    forall a, b, c :: !before(b, a) && !before(c, b) ==> !before(c, a)
  }

  /** No element goes strictly before its predecessor. */
  ghost predicate Sorted<T>(s: seq<T>, before: (T, T) -> bool) {
    forall i :: 0 < i < |s| ==> !before(s[i], s[i - 1])
  }

  lemma {:induction false} InsertSorted<T(!new)>(x: T, s: seq<T>, before: (T, T) -> bool)
    requires Asymmetric(before)
    requires Sorted(s, before)
    ensures Sorted(Insert(x, s, before), before)
    ensures Insert(x, s, before)[0] == x || (s != [] && Insert(x, s, before)[0] == s[0])
  {
    if s != [] && before(s[0], x) {
      InsertSorted(x, s[1..], before);
      var r := Insert(x, s[1..], before);
      assert Insert(x, s, before) == [s[0]] + r;
      if r[0] == x {
        assert !before(x, s[0]);
      } else {
        assert r[0] == s[1];
      }
    }
  }

  lemma {:induction false} SortSorted<T(!new)>(s: seq<T>, before: (T, T) -> bool)
    requires Asymmetric(before)
    ensures Sorted(Sort(s, before), before)
  {
    if s != [] {
      SortSorted(s[1..], before);
      InsertSorted(s[0], Sort(s[1..], before), before);
    }
  }

  /** Under a transitive "not after", sortedness of neighbours extends to every pair. */
  lemma {:induction false} SortedAllPairs<T(!new)>(s: seq<T>, before: (T, T) -> bool, i: nat, j: nat)
    requires NotAfterTransitive(before)
    requires Sorted(s, before)
    requires i < j < |s|
    ensures !before(s[j], s[i])
    decreases j - i
  {
    if j > i + 1 {
      SortedAllPairs(s, before, i, j - 1);
      assert !before(s[j], s[j - 1]);
    }
  }

  /** Filtering an element put in front. */
  lemma FilterCons<T>(y: T, t: seq<T>, same: T -> bool)
    ensures Filter([y] + t, same) == (if same(y) then [y] else []) + Filter(t, same)
  {
    var s := [y] + t;
    assert s[0] == y && s[1..] == t;
  }

  /** Two pieces of which one is empty can change places. */
  lemma SwapEmpty<T>(a: seq<T>, b: seq<T>, c: seq<T>)
    requires a == [] || b == []
    ensures a + (b + c) == b + (a + c)
  {
    if a == [] {
      assert a + (b + c) == b + c;
      assert a + c == c;
    } else {
      assert b + c == c;
      assert b + (a + c) == a + c;
    }
  }

  /** Of two elements one of which goes before the other, at most one is in the class. */
  lemma NotBothSame<T>(y: T, x: T, before: (T, T) -> bool, same: T -> bool)
    requires forall a, b :: same(a) && same(b) ==> !before(a, b)
    requires before(y, x)
    ensures !same(y) || !same(x)
  {
  }

  /** Putting `y` in front of both sides keeps them equal up to the place of `x`,
      when `x` and `y` are not both in the class. */
  lemma StableStep<T>(x: T, y: T, rest: seq<T>, tail: seq<T>, same: T -> bool)
    requires Filter(tail, same) == (if same(x) then [x] else []) + Filter(rest, same)
    requires !same(y) || !same(x)
    ensures Filter([y] + tail, same) == (if same(x) then [x] else []) + Filter([y] + rest, same)
  {
    var head, h0 := if same(x) then [x] else [], if same(y) then [y] else [];
    FilterCons(y, tail, same);
    FilterCons(y, rest, same);
    SwapEmpty(h0, head, Filter(rest, same));
  }

  /** Stability: inside a class of mutually unordered elements, the sort keeps input order. */
  lemma {:induction false} InsertStable<T(!new)>(x: T, s: seq<T>, before: (T, T) -> bool, same: T -> bool)
    requires forall a, b :: same(a) && same(b) ==> !before(a, b)
    ensures Filter(Insert(x, s, before), same) == (if same(x) then [x] else []) + Filter(s, same)
  {
    var head := if same(x) then [x] else [];
    if s == [] || !before(s[0], x) {
      FilterCons(x, s, same);
    } else {
      var y, rest := s[0], s[1..];
      var tail := Insert(x, rest, before);
      assert Insert(x, s, before) == [y] + tail;
      assert s == [y] + rest;
      InsertStable(x, rest, before, same);
      NotBothSame(y, x, before, same);
      StableStep(x, y, rest, tail, same);
    }
  }

  lemma {:induction false} SortStable<T(!new)>(s: seq<T>, before: (T, T) -> bool, same: T -> bool)
    requires forall a, b :: same(a) && same(b) ==> !before(a, b)
    ensures Filter(Sort(s, before), same) == Filter(s, same)
  {
    if s != [] {
      SortStable(s[1..], before, same);
      InsertStable(s[0], Sort(s[1..], before), before, same);
      FilterCons(s[0], s[1..], same);
      assert s == [s[0]] + s[1..];
    }
  }

  /** Every pair, not only neighbours, is in order. */
  ghost predicate SortedPairs<T>(s: seq<T>, before: (T, T) -> bool) {
    forall i, j :: 0 <= i < j < |s| ==> !before(s[j], s[i])
  }

  lemma SortedToPairs<T(!new)>(s: seq<T>, before: (T, T) -> bool)
    requires NotAfterTransitive(before)
    requires Sorted(s, before)
    ensures SortedPairs(s, before)
  {
    forall i, j | 0 <= i < j < |s| ensures !before(s[j], s[i]) {
      SortedAllPairs(s, before, i, j);
    }
  }

  /** Deleting elements from an ordered sequence leaves it ordered. */
  lemma {:induction false} SubseqSortedPairs<T>(a: seq<T>, b: seq<T>, before: (T, T) -> bool)
    requires IsSubseq(a, b)
    requires SortedPairs(b, before)
    ensures SortedPairs(a, before)
    decreases |b|
  {
    if a != [] {
      if a[0] == b[0] && IsSubseq(a[1..], b[1..]) {
        SubseqSortedPairs(a[1..], b[1..], before);
        SubseqMembers(a[1..], b[1..]);
        forall j | 0 < j < |a| ensures !before(a[j], a[0]) {
          assert a[j] in a[1..];
          var k :| 0 <= k < |b[1..]| && b[1..][k] == a[j];
          assert b[k + 1] == a[j];
        }
      } else {
        SubseqSortedPairs(a, b[1..], before);
      }
    }
  }
}

=== FILE: Text.dfy ===
/** String primitives with Python's semantics: character classes, `str.lower`,
    `str.strip`, substring search (`in`), `str.replace`, `str.join` and `str(int)`.
    Strings are sequences of Unicode scalar values; the character classes cover
    ASCII and Latin-1, which is where Portuguese text lives. */
module Text {

  predicate IsDigit(c: char) {
    '0' <= c <= '9'
  }

  predicate IsAsciiUpper(c: char) {
    'A' <= c <= 'Z'
  }

  predicate IsAsciiLower(c: char) {
    'a' <= c <= 'z'
  }

  /** Upper-case letters of Latin-1 (À..Þ without ×). */
  predicate IsLatinUpper(c: char) {
    (0xC0 <= c as int <= 0xDE) && c as int != 0xD7
  }

  /** Lower-case letters of Latin-1 (ß..ÿ without ÷, plus ª µ º). */
  predicate IsLatinLower(c: char) {
    || (0xDF <= c as int <= 0xFF && c as int != 0xF7)
    || c as int == 0xAA || c as int == 0xB5 || c as int == 0xBA
  }

  predicate IsUpperLetter(c: char) {
    IsAsciiUpper(c) || IsLatinUpper(c)
  }

  predicate IsLowerLetter(c: char) {
    IsAsciiLower(c) || IsLatinLower(c)
  }

  /** Python's `\w` for `str` patterns: alphanumerics and the underscore.
      Latin-1 superscript digits and vulgar fractions are numeric, hence word characters. */
  predicate IsWordChar(c: char) {
    || IsDigit(c) || IsUpperLetter(c) || IsLowerLetter(c) || c == '_'
    || c as int == 0xB2 || c as int == 0xB3 || c as int == 0xB9
    || (0xBC <= c as int <= 0xBE)
  }

  /** Python's `str.isspace` for a single character. */
  predicate IsSpace(c: char) {
    var n := c as int;
    || (0x09 <= n <= 0x0D) || (0x1C <= n <= 0x20) || n == 0x85 || n == 0xA0
    || n == 0x1680 || (0x2000 <= n <= 0x200A) || n == 0x2028 || n == 0x2029
    || n == 0x202F || n == 0x205F || n == 0x3000
  }

  function LowerChar(c: char): (d: char)
    ensures !IsUpperLetter(d)
    ensures !IsUpperLetter(c) ==> d == c
  {
    if IsUpperLetter(c) then (c as int + 32) as char else c
  }

  /** `s.lower()`. */
  function Lower(s: string): (r: string)
    ensures |r| == |s|
    ensures forall i :: 0 <= i < |s| ==> r[i] == LowerChar(s[i])
  {
    seq(|s|, i requires 0 <= i < |s| => LowerChar(s[i]))
  }

  /** `s.upper()` restricted to ASCII, which is all the pattern names use. */
  function UpperAscii(s: string): (r: string)
    ensures |r| == |s|
    ensures forall i :: 0 <= i < |s| ==> (IsAsciiLower(s[i]) ==> r[i] == (s[i] as int - 32) as char)
    ensures forall i :: 0 <= i < |s| ==> (!IsAsciiLower(s[i]) ==> r[i] == s[i])
  {
    seq(|s|, i requires 0 <= i < |s| => if IsAsciiLower(s[i]) then (s[i] as int - 32) as char else s[i])
  }

  function TrimStart(s: string): (r: string)
    ensures |r| <= |s| && r == s[|s| - |r|..]
    ensures r == [] || !IsSpace(r[0])
    ensures forall i :: 0 <= i < |s| - |r| ==> IsSpace(s[i])
  {
    if s != [] && IsSpace(s[0]) then TrimStart(s[1..]) else s
  }

  function TrimEnd(s: string): (r: string)
    ensures |r| <= |s| && r == s[..|r|]
    ensures r == [] || !IsSpace(r[|r| - 1])
    ensures forall i :: |r| <= i < |s| ==> IsSpace(s[i])
  {
    if s != [] && IsSpace(s[|s| - 1]) then TrimEnd(s[..|s| - 1]) else s
  }

  /** `s.strip()`: remove leading and trailing whitespace. */
  function Strip(s: string): (r: string)
    ensures r == [] || (!IsSpace(r[0]) && !IsSpace(r[|r| - 1]))
    ensures |r| <= |s|
  {
    TrimEnd(TrimStart(s))
  }

  /** A string is blank when `s.strip()` is empty, i.e. every character is whitespace. */
  lemma StripEmptyIffBlank(s: string)
    ensures Strip(s) == [] <==> forall i :: 0 <= i < |s| ==> IsSpace(s[i])
  {
  }

  predicate StartsWith(s: string, p: string) {
    |p| <= |s| && s[..|p|] == p
  }

  /** `pat` occurs in `s` starting at index `i`. */
  predicate MatchAt(s: string, pat: string, i: int) {
    0 <= i && i + |pat| <= |s| && s[i..i + |pat|] == pat
  }

  /** A match in a suffix is a match in the whole string, shifted. */
  lemma MatchShift(s: string, pat: string, n: nat, i: nat)
    requires n <= |s|
    ensures MatchAt(s[n..], pat, i) <==> MatchAt(s, pat, i + n)
  {
    if i + |pat| <= |s[n..]| {
      assert s[n..][i..i + |pat|] == s[i + n..i + n + |pat|];
    }
  }

  /** `pat in s`. */
  predicate Occurs(pat: string, s: string) {
    exists i | 0 <= i <= |s| :: MatchAt(s, pat, i)
  }

  /** Occurrence is inherited by every string that contains `s` as a factor. */
  lemma OccursInFactor(pat: string, a: string, s: string, b: string)
    requires Occurs(pat, s)
    ensures Occurs(pat, a + s + b)
  {
    var i :| 0 <= i <= |s| && MatchAt(s, pat, i);
    assert (a + s + b)[|a| + i..|a| + i + |pat|] == s[i..i + |pat|];
    assert MatchAt(a + s + b, pat, |a| + i);
  }

  /** What does not occur in a text does not occur in either part of it. */
  lemma AbsentFromParts(pat: string, x: string, y: string)
    requires !Occurs(pat, x + y)
    ensures !Occurs(pat, x) && !Occurs(pat, y)
  {
    var s := x + y;
    forall i | 0 <= i <= |x| ensures !MatchAt(x, pat, i) {
      assert !MatchAt(s, pat, i);
      if i + |pat| <= |x| {
        assert s[i..i + |pat|] == x[i..i + |pat|];
      }
    }
    forall i | 0 <= i <= |y| ensures !MatchAt(y, pat, i) {
      assert !MatchAt(s, pat, |x| + i);
      if i + |pat| <= |y| {
        assert s[|x| + i..|x| + i + |pat|] == y[i..i + |pat|];
      }
    }
  }

  /** Python's `s.replace("", rep)`: `rep` before every character and at the end. */
  function InsertEverywhere(s: string, rep: string): (r: string)
    ensures |r| == |s| + (|s| + 1) * |rep|
  {
    if s == [] then rep else rep + [s[0]] + InsertEverywhere(s[1..], rep)
  }

  /** `s.replace(pat, rep)`: leftmost, non-overlapping occurrences, scanned left to right. */
  function ReplaceAll(s: string, pat: string, rep: string): string
    decreases |s|
  {
    if pat == [] then InsertEverywhere(s, rep)
    else if |s| < |pat| then s
    else if s[..|pat|] == pat then rep + ReplaceAll(s[|pat|..], pat, rep)
    else [s[0]] + ReplaceAll(s[1..], pat, rep)
  }

  /** Replacing a pattern that does not occur changes nothing. */
  lemma {:induction false} ReplaceAbsent(s: string, pat: string, rep: string)
    requires pat != []
    requires !Occurs(pat, s)
    ensures ReplaceAll(s, pat, rep) == s
  {
    if |s| >= |pat| {
      assert s[0..0 + |pat|] == s[..|pat|];
      assert !MatchAt(s, pat, 0);
      if Occurs(pat, s[1..]) {
        var i :| 0 <= i <= |s[1..]| && MatchAt(s[1..], pat, i);
        MatchShift(s, pat, 1, i);
      }
      ReplaceAbsent(s[1..], pat, rep);
      assert s == [s[0]] + s[1..];
    }
  }

  /** Through a stretch where no occurrence starts, `str.replace` copies verbatim. */
  lemma {:induction false} ReplaceAllSkip(x: string, y: string, pat: string, rep: string)
    requires pat != []
    requires forall i :: 0 <= i < |x| ==> !MatchAt(x + y, pat, i)
    ensures ReplaceAll(x + y, pat, rep) == x + ReplaceAll(y, pat, rep)
    decreases |x|
  {
    if x == [] {
      assert x + y == y;
    } else {
      var s, tl := x + y, x[1..];
      assert s[1..] == tl + y;
      assert !MatchAt(s, pat, 0);
      ReplaceAllCopyHead(s, pat, rep);
      SkipTail(x, y, pat);
      ReplaceAllSkip(tl, y, pat, rep);
      ConsAssoc(x, ReplaceAll(y, pat, rep));
    }
  }

  /** With no occurrence at the front, the first character is copied. */
  lemma ReplaceAllCopyHead(s: string, pat: string, rep: string)
    requires pat != [] && s != [] && !MatchAt(s, pat, 0)
    ensures ReplaceAll(s, pat, rep) == [s[0]] + ReplaceAll(s[1..], pat, rep)
  {
    if |s| < |pat| {
      assert ReplaceAll(s[1..], pat, rep) == s[1..];
      assert s == [s[0]] + s[1..];
    } else {
      assert s[..|pat|] == s[0..0 + |pat|];
    }
  }

  lemma SkipTail(x: string, y: string, pat: string)
    requires x != []
    requires forall i :: 0 <= i < |x| ==> !MatchAt(x + y, pat, i)
    ensures forall i :: 0 <= i < |x[1..]| ==> !MatchAt(x[1..] + y, pat, i)
  {
    var s := x + y;
    assert s[1..] == x[1..] + y;
    forall i | 0 <= i < |x[1..]| ensures !MatchAt(x[1..] + y, pat, i) {
      MatchShift(s, pat, 1, i);
    }
  }

  lemma ConsAssoc(x: string, r: string)
    requires x != []
    ensures [x[0]] + (x[1..] + r) == x + r
  {
    assert x == [x[0]] + x[1..];
  }

  /** No occurrence starts at a character other than the pattern's first. */
  lemma MismatchAt(s: string, pat: string, i: nat)
    requires pat != [] && i < |s| && s[i] != pat[0]
    ensures !MatchAt(s, pat, i)
  {
    assert i + |pat| <= |s| ==> s[i..i + |pat|][0] == s[i];
  }

  /** A text without the pattern's first character is left alone. */
  lemma ReplaceMissingHead(s: string, pat: string, rep: string)
    requires pat != [] && pat[0] !in s
    ensures ReplaceAll(s, pat, rep) == s
  {
    assert s + [] == s;
    ReplaceAllSkip(s, [], pat, rep);
  }

  /** Replacing a whole string by itself yields the rep text. */
  lemma ReplaceWhole(s: string, rep: string)
    requires s != []
    ensures ReplaceAll(s, s, rep) == rep
  {
    assert s[..|s|] == s;
    assert s[|s|..] == [];
  }
  /** `sep.join(parts)`. */
  function Join(parts: seq<string>, sep: string): (r: string)
    ensures parts == [] ==> r == []
    ensures |parts| == 1 ==> r == parts[0]
  {
    if parts == [] then []
    else if |parts| == 1 then parts[0]
    else parts[0] + sep + Join(parts[1..], sep)
  }

  function DigitChar(d: nat): (c: char)
    requires d < 10
    ensures IsDigit(c) && c as int - '0' as int == d
  {
    ('0' as int + d) as char
  }

  /** `str(n)` for a natural number. */
  function Decimal(n: nat): (r: string)
    ensures |r| >= 1
    ensures forall i :: 0 <= i < |r| ==> IsDigit(r[i])
    ensures n >= 10 <==> |r| >= 2
  {
    if n < 10 then [DigitChar(n)] else Decimal(n / 10) + [DigitChar(n % 10)]
  }

  /** Distinct numbers print differently. */
  lemma {:induction false} DecimalInjective(a: nat, b: nat)
    requires Decimal(a) == Decimal(b)
    ensures a == b
  {
    if a >= 10 && b >= 10 {
      var da, db := Decimal(a), Decimal(b);
      assert da[|da| - 1] == DigitChar(a % 10);
      assert db[|db| - 1] == DigitChar(b % 10);
      assert da[..|da| - 1] == Decimal(a / 10);
      assert db[..|db| - 1] == Decimal(b / 10);
      DecimalInjective(a / 10, b / 10);
    }
  }
}

=== FILE: Validator.dfy ===
/** The deterministic scoring helpers of the enhanced validator: the CPF and
    CNPJ checks, false-positive filtering, confidence heuristics, severity
    tables, the de-duplication of findings, statistics, recommendations and
    the overall risk level. Confidences are integer hundredths (0.95 is 95). */
module Validator {
  import opened Base
  import opened Text
  import opened Sorting

  // ------------------------------------------------------------ digits

  /** `re.sub(r'[^\d]', '', s)`: the decimal digits of `s`, in order. */
  function DigitsOf(s: string): (r: string)
    ensures |r| <= |s|
    ensures forall i :: 0 <= i < |r| ==> IsDigit(r[i])
    decreases |s|
  {
    if s == [] then []
    else if IsDigit(s[0]) then [s[0]] + DigitsOf(s[1..])
    else DigitsOf(s[1..])
  }

  lemma {:induction false} DigitsOfDigits(s: string)
    requires forall i :: 0 <= i < |s| ==> IsDigit(s[i])
    ensures DigitsOf(s) == s
    decreases |s|
  {
    if s != [] {
      DigitsOfDigits(s[1..]);
      assert s == [s[0]] + s[1..];
    }
  }

  function DigitValue(c: char): int {
    c as int - '0' as int
  }

  /** `d == d[0] * len(d)`. */
  predicate AllSame(d: string) {
    forall i :: 0 <= i < |d| ==> d[i] == d[0]
  }

  // ------------------------------------------------------------ CPF

  /** `sum(digits[i] * (top - i) for i in range(n))`. */
  function WeightedSum(d: string, n: nat, top: int): int
    requires n <= |d|
  {
    if n == 0 then 0 else WeightedSum(d, n - 1, top) + DigitValue(d[n - 1]) * (top - (n - 1))
  }

  /** The check digit after the first `n` digits: weights `n + 1` down to 2,
      `(sum * 10) % 11`, with 10 read as 0. */
  function CheckDigit(d: string, n: nat): (c: int)
    requires n <= |d|
    ensures 0 <= c <= 9
  {
    Mod11Digit(WeightedSum(d, n, n + 1))
  }

  function Mod11Digit(sum: int): (c: int)
    ensures 0 <= c <= 9
  {
    var c := (sum * 10) % 11;
    if c == 10 then 0 else c
  }

  /** `_validate_cpf_checksum`. */
  predicate CpfValid(s: string) {
    var d := DigitsOf(s);
    && |d| == 11
    && !AllSame(d)
    && DigitValue(d[9]) == CheckDigit(d, 9)
    && DigitValue(d[10]) == CheckDigit(d, 10)
  }

  /** The check digit as the Receita Federal states it: the remainder `r` of the
      weighted sum by 11 gives 0 when `r < 2` and `11 - r` otherwise. */
  function StandardCheckDigit(d: string, n: nat): int
    requires n <= |d|
  {
    var r := WeightedSum(d, n, n + 1) % 11;
    if r < 2 then 0 else 11 - r
  }

  /** The remainder is the one value that completes a multiple of 11. */
  lemma ModElevenOf(y: int, a: int, b: int)
    requires y == 11 * a + b && 0 <= b < 11
    ensures y % 11 == b
  {
  }

  lemma TimesTenMod(s: int)
    ensures var r := s % 11; (s * 10) % 11 == (if r == 0 then 0 else 11 - r)
  {
    var q, r := s / 11, s % 11;
    assert s == 11 * q + r;
    if r == 0 {
      ModElevenOf(s * 10, 10 * q, 0);
    } else {
      ModElevenOf(s * 10, 10 * q + r - 1, 11 - r);
    }
  }

  /** The code's `(sum * 10) % 11` rule and the standard rule agree on every input. */
  lemma CheckDigitStandard(d: string, n: nat)
    requires n <= |d|
    ensures CheckDigit(d, n) == StandardCheckDigit(d, n)
  {
    TimesTenMod(WeightedSum(d, n, n + 1));
  }

  lemma {:induction false} WeightedSumPrefix(a: string, b: string, n: nat, top: int)
    requires n <= |a| && n <= |b| && a[..n] == b[..n]
    ensures WeightedSum(a, n, top) == WeightedSum(b, n, top)
  {
    if n > 0 {
      assert a[n - 1] == a[..n][n - 1] == b[..n][n - 1] == b[n - 1];
      assert a[..n - 1] == a[..n][..n - 1];
      assert b[..n - 1] == b[..n][..n - 1];
      WeightedSumPrefix(a, b, n - 1, top);
    }
  }

  /** Nine digits completed with their two check digits. */
  function WithCheckDigits(base: string): (d: string)
    requires |base| == 9
    ensures |d| == 11 && d[..9] == base
  {
    var d1 := base + [DigitChar(CheckDigit(base + "0", 9))];
    d1 + [DigitChar(CheckDigit(d1 + "0", 10))]
  }

  /** A CPF passes exactly when its digits are nine digits followed by their
      own check digits, not all eleven the same. */
  lemma CpfValidIff(s: string)
    ensures CpfValid(s) <==>
      var d := DigitsOf(s); |d| == 11 && !AllSame(d) && d == WithCheckDigits(d[..9])
  {
    var d := DigitsOf(s);
    if |d| == 11 {
      var w := WithCheckDigits(d[..9]);
      var d1 := d[..9] + [DigitChar(CheckDigit(d[..9] + "0", 9))];
      WeightedSumPrefix(d, d[..9] + "0", 9, 10);
      WeightedSumPrefix(d, d1 + "0", 9, 11);
      assert d1[..9] == d[..9];
      if DigitValue(d[9]) == CheckDigit(d, 9) {
        assert d[9] == DigitChar(CheckDigit(d, 9));
        assert d[..10] == d1;
        WeightedSumPrefix(d, d1 + "0", 10, 11);
        if DigitValue(d[10]) == CheckDigit(d, 10) {
          assert d == d[..10] + [d[10]];
          assert d == w;
        }
      }
      if d == w {
        assert w[9] == DigitChar(CheckDigit(d[..9] + "0", 9));
        assert d[..10] == d1;
        WeightedSumPrefix(d, d1 + "0", 10, 11);
      }
    }
  }

  lemma {:induction false} DigitsOfAppend(a: string, b: string)
    ensures DigitsOf(a + b) == DigitsOf(a) + DigitsOf(b)
    decreases |a|
  {
    if a == [] {
      assert a + b == b;
    } else {
      assert (a + b)[0] == a[0] && (a + b)[1..] == a[1..] + b;
      DigitsOfAppend(a[1..], b);
    }
  }

  predicate AllDigits(s: string) {
    forall i :: 0 <= i < |s| ==> IsDigit(s[i])
  }

  /** The digits of a formatted CPF `ddd.ddd.ddd-dd`. */
  lemma FormattedCpfDigits(a: string, b: string, c: string, e: string)
    requires AllDigits(a) && AllDigits(b) && AllDigits(c) && AllDigits(e)
    ensures DigitsOf(a + "." + b + "." + c + "-" + e) == a + b + c + e
  {
    var dot, dash := ".", "-";
    assert DigitsOf(dot) == [] && DigitsOf(dash) == [];
    DigitsOfDigits(a);
    DigitsOfDigits(b);
    DigitsOfDigits(c);
    DigitsOfDigits(e);
    var p1 := a + dot;
    DigitsOfAppend(a, dot);
    assert DigitsOf(p1) == a;
    var p2 := p1 + b;
    DigitsOfAppend(p1, b);
    var p3 := p2 + dot;
    DigitsOfAppend(p2, dot);
    assert DigitsOf(p3) == a + b;
    var p4 := p3 + c;
    DigitsOfAppend(p3, c);
    var p5 := p4 + dash;
    DigitsOfAppend(p4, dash);
    assert DigitsOf(p5) == a + b + c;
    DigitsOfAppend(p5, e);
  }

  /** The weighted sums of the nine digits 1 to 9, then of those and a 0. */
  lemma BaseSums()
    ensures WeightedSum("1234567890", 9, 10) == 210 && WeightedSum("1234567890", 10, 11) == 255
  {
    var b := "1234567890";
    assert WeightedSum(b, 3, 10) == 52;
    assert WeightedSum(b, 6, 10) == 140;
    assert WeightedSum(b, 3, 11) == 58;
    assert WeightedSum(b, 6, 11) == 161;
    assert WeightedSum(b, 9, 11) == 255;
  }

  /** Both sample CPFs start with the digits 1 to 9 and a 0. */
  lemma SampleSums(d: string, b: string)
    requires b == "1234567890" && |d| == 11 && d[..10] == b
    ensures WeightedSum(d, 9, 10) == 210 && WeightedSum(d, 10, 11) == 255
  {
    BaseSums();
    assert b[..10] == b;
    assert d[..9] == b[..9];
    WeightedSumPrefix(d, b, 9, 10);
    WeightedSumPrefix(d, b, 10, 11);
  }

  lemma SampleDigits()
    ensures Mod11Digit(210) == 0 && Mod11Digit(255) == 9
  {
    assert 210 * 10 == 2100 && 2100 % 11 == 10;
    assert 255 * 10 == 2550 && 2550 % 11 == 9;
  }

  // The sample "123.456.789-09", piece by piece. The facts are kept in separate
  // small lemmas so that each literal is unfolded in a context of its own.

  lemma GoodParts()
    ensures AllDigits("123") && AllDigits("456") && AllDigits("789") && AllDigits("09")
  {
  }

  lemma GoodText(s: string)
    requires s == "123.456.789-09"
    ensures s == "123" + "." + "456" + "." + "789" + "-" + "09"
  {
  }

  lemma GoodJoin()
    ensures "123" + "456" + "789" + "09" == "12345678909"
  {
  }

  lemma GoodDigits(s: string)
    requires s == "123.456.789-09"
    ensures DigitsOf(s) == "12345678909"
  {
    GoodParts();
    GoodText(s);
    FormattedCpfDigits("123", "456", "789", "09");
    GoodJoin();
  }

  lemma GoodCheckDigits(d: string)
    requires d == "12345678909"
    ensures !AllSame(d) && DigitValue(d[9]) == CheckDigit(d, 9) && DigitValue(d[10]) == CheckDigit(d, 10)
  {
    GoodPrefix(d);
    SampleSums(d, "1234567890");
    SampleDigits();
  }

  lemma GoodPrefix(d: string)
    requires d == "12345678909"
    ensures |d| == 11 && d[..10] == "1234567890"
    ensures d[0] == '1' && d[1] == '2' && d[9] == '0' && d[10] == '9'
  {
  }

  /** `123.456.789-09` passes: both check digits match. */
  lemma CpfAccepted(s: string)
    requires s == "123.456.789-09"
    ensures CpfValid(s)
  {
    GoodDigits(s);
    GoodCheckDigits(DigitsOf(s));
  }

  // The same for "123.456.789-00", whose last check digit is wrong.

  lemma WrongParts()
    ensures AllDigits("123") && AllDigits("456") && AllDigits("789") && AllDigits("00")
  {
  }

  lemma WrongText(s: string)
    requires s == "123.456.789-00"
    ensures s == "123" + "." + "456" + "." + "789" + "-" + "00"
  {
  }

  lemma WrongJoin()
    ensures "123" + "456" + "789" + "00" == "12345678900"
  {
  }

  lemma WrongDigits(s: string)
    requires s == "123.456.789-00"
    ensures DigitsOf(s) == "12345678900"
  {
    WrongParts();
    WrongText(s);
    FormattedCpfDigits("123", "456", "789", "00");
    WrongJoin();
  }

  lemma WrongPrefix(d: string)
    requires d == "12345678900"
    ensures |d| == 11 && d[..10] == "1234567890" && d[10] == '0'
  {
  }

  lemma WrongCheckDigit(d: string)
    requires d == "12345678900"
    ensures DigitValue(d[10]) != CheckDigit(d, 10)
  {
    WrongPrefix(d);
    SampleSums(d, "1234567890");
    SampleDigits();
  }

  /** `123.456.789-00` fails on its second check digit. */
  lemma CpfWrongCheckDigit(s: string)
    requires s == "123.456.789-00"
    ensures !CpfValid(s)
  {
    WrongDigits(s);
    WrongCheckDigit(DigitsOf(s));
  }

  /** `999.999.999-99` fails: one repeated digit. */
  lemma CpfRepeatedDigit(s: string)
    requires s == "999.999.999-99"
    ensures !CpfValid(s)
  {
    RepeatedParts();
    RepeatedText(s);
    FormattedCpfDigits("999", "999", "999", "99");
    RepeatedJoin();
  }

  lemma RepeatedParts()
    ensures AllDigits("999") && AllDigits("99")
  {
  }

  lemma RepeatedText(s: string)
    requires s == "999.999.999-99"
    ensures s == "999" + "." + "999" + "." + "999" + "-" + "99"
  {
  }

  lemma RepeatedJoin()
    ensures "999" + "999" + "999" + "99" == "99999999999"
    ensures AllSame("99999999999")
  {
  }

  // ------------------------------------------------------------ CNPJ

  function DigitTotal(d: string): int
    decreases |d|
  {
    if d == [] then 0 else DigitValue(d[0]) + DigitTotal(d[1..])
  }

  lemma {:induction false} DigitTotalPositive(d: string, i: nat)
    requires forall j :: 0 <= j < |d| ==> IsDigit(d[j])
    requires i < |d| && d[i] != '0'
    ensures DigitTotal(d) > 0
    decreases |d|
  {
    if i == 0 {
      DigitTotalNonNegative(d[1..]);
    } else {
      DigitTotalPositive(d[1..], i - 1);
    }
  }

  lemma {:induction false} DigitTotalNonNegative(d: string)
    requires forall j :: 0 <= j < |d| ==> IsDigit(d[j])
    ensures DigitTotal(d) >= 0
    decreases |d|
  {
    if d != [] {
      DigitTotalNonNegative(d[1..]);
    }
  }

  /** `_validate_cnpj_checksum`: fourteen digits, not all the same, with a
      positive digit sum. No check digit is computed. */
  predicate CnpjValidAsWritten(s: string) {
    var d := DigitsOf(s);
    |d| == 14 && !AllSame(d) && DigitTotal(d) > 0 && !AllSame(d)
  }

  /** The sum test is implied by the others: the check accepts exactly the
      strings with fourteen digits that are not all the same. */
  lemma CnpjValidIff(s: string)
    ensures CnpjValidAsWritten(s) <==> |DigitsOf(s)| == 14 && !AllSame(DigitsOf(s))
  {
    var d := DigitsOf(s);
    if |d| == 14 && !AllSame(d) {
      var i :| 0 <= i < |d| && d[i] != d[0];
      if d[0] != '0' {
        DigitTotalPositive(d, 0);
      } else {
        DigitTotalPositive(d, i);
      }
    }
  }

  /** Any two final digits are accepted: the check digits are never examined. */
  lemma CnpjIgnoresCheckDigits(base: string, x: char, y: char)
    requires |base| == 12 && !AllSame(base)
    requires forall i :: 0 <= i < 12 ==> IsDigit(base[i])
    requires IsDigit(x) && IsDigit(y)
    ensures CnpjValidAsWritten(base + [x, y])
  {
    var s := base + [x, y];
    DigitsOfDigits(s);
    var i :| 0 <= i < 12 && base[i] != base[0];
    assert s[i] != s[0];
    CnpjValidIff(s);
  }

  // ------------------------------------------------------------ false positives

  const NomeProprioFalsePositives: set<string> := {"dr", "dra", "sr", "sra", "art", "lei", "inc", "par"}
  const SuspiciousNumbersFalsePositives: set<string> := {"2023", "2024", "2025", "2022", "2021", "2020"}
  const NomeCompletoFalsePositives: set<string> := {"Código Civil", "Código Penal", "Lei Maria", "Lei Seca"}

  /** `_is_valid_match`: the false-positive tables, then the CPF and CNPJ checks. */
  predicate IsValidMatch(text: string, pattern: string) {
    if pattern == "nome_proprio" then Lower(text) !in NomeProprioFalsePositives
    else if pattern == "suspicious_numbers" then Lower(text) !in SuspiciousNumbersFalsePositives
    else if pattern == "nome_completo" then Lower(text) !in NomeCompletoFalsePositives
    else if pattern == "cpf_pattern" then CpfValid(text)
    else if pattern == "cnpj_pattern" then CnpjValidAsWritten(text)
    else true
  }

  /** The capitalised `nome_completo` entries are compared with lower-cased text
      and so never filter anything. */
  lemma NomeCompletoNeverFiltered(text: string)
    ensures IsValidMatch(text, "nome_completo")
  {
    var t := Lower(text);
    assert t == [] || !IsUpperLetter(t[0]);
    assert forall e :: e in NomeCompletoFalsePositives ==> e != [] && IsUpperLetter(e[0]);
  }

  // ------------------------------------------------------------ confidences

  /** `_calculate_pattern_confidence`. */
  function PatternConfidence(text: string, pattern: string): (c: int)
    ensures 40 <= c <= 95
  {
    var base :=
      if pattern in ["cpf_pattern", "cnpj_pattern", "email_pattern"] then 95
      else if pattern in ["nome_proprio", "suspicious_numbers"] then 60
      else 90;
    var adjusted := if |text| < 3 then base - 20 else base;
    Clamp(adjusted, 10, 100)
  }

  /** `max(lo, min(hi, x))`. */
  function Clamp(x: int, lo: int, hi: int): int {
    if x > hi then (if lo > hi then lo else hi) else if x < lo then lo else x
  }

  /** A match shorter than three characters scores exactly 20 less than a longer
      match of the same pattern. */
  lemma PatternConfidenceShortPenalty(short: string, long: string, pattern: string)
    requires |short| < 3 <= |long|
    ensures PatternConfidence(short, pattern) == PatternConfidence(long, pattern) - 20
  {
  }

  /** Python's `str.isdigit` on Latin-1: the decimal digits and the superscripts ¹ ² ³. */
  predicate IsDigitLike(c: char) {
    IsDigit(c) || c as int == 0xB2 || c as int == 0xB3 || c as int == 0xB9
  }

  /** Python's `str.isupper`: some cased character, and none in lower case. */
  predicate IsAllUpper(s: string) {
    (exists i :: 0 <= i < |s| && IsUpperLetter(s[i])) && forall i :: 0 <= i < |s| ==> !IsLowerLetter(s[i])
  }

  /** `_calculate_ner_confidence`. */
  function NerConfidence(text: string): (c: int)
    ensures 35 <= c <= 90
  {
    var n := |text|;
    var c0 := 80;
    var c1 := if n > 10 then c0 + 10 else if n < 3 then c0 - 20 else c0;
    var c2 := if exists i :: 0 <= i < n && IsDigitLike(text[i]) then c1 - 10 else c1;
    var c3 := if IsAllUpper(text) && n > 1 then c2 - 15 else c2;
    Clamp(c3, 10, 100)
  }

  /** The adjustments are independent: each applies its own fixed amount. */
  lemma NerConfidenceAdjustments(text: string)
    ensures NerConfidence(text) ==
      80
      + (if |text| > 10 then 10 else if |text| < 3 then -20 else 0)
      - (if exists i :: 0 <= i < |text| && IsDigitLike(text[i]) then 10 else 0)
      - (if IsAllUpper(text) && |text| > 1 then 15 else 0)
  {
  }

  // ------------------------------------------------------------ severities

  datatype Severity = High | Medium | Low

  /** `_get_severity`. */
  function PatternSeverity(pattern: string): Severity {
    if pattern in ["cpf_pattern", "rg_pattern", "cnpj_pattern", "email_pattern",
                   "phone_pattern", "nome_completo", "endereco_completo"] then High
    else if pattern in ["cep_pattern", "nome_proprio", "processo_numero"] then Medium
    else Low
  }

  /** `_get_ner_severity`: the severity table, with low for every other label. */
  function NerSeverity(entity: string): (s: Severity)
    ensures s == High <==> entity == "PER"
    ensures s == Low <==> entity != "PER" && entity != "ORG" && entity != "LOC"
  {
    if entity == "PER" then High
    else if entity == "ORG" || entity == "LOC" then Medium
    else Low
  }

  /** The patterns scored with the top confidence are all high-severity ones. */
  lemma StrongPatternsAreHigh(text: string, pattern: string)
    requires |text| >= 3 && PatternConfidence(text, pattern) == 95
    ensures PatternSeverity(pattern) == High
  {
  }

  // ------------------------------------------------------------ findings

  /** Which validation method produced a finding (`'type'`). */
  datatype Method = PatternMethod | NerMethod | ContextMethod

  /** One finding: what was matched, where, how sure, how serious. */
  datatype Finding = Finding(
    via: Method, category: string, text: string,
    start: int, end: int, confidence: int, severity: Severity)

  /** The overlap test of `_deduplicate_findings`. */
  predicate Overlaps(a: Finding, b: Finding) {
    a.start < b.end && a.end > b.start
  }

  /** `findings.sort(key=lambda x: x['start'])` orders by start only. */
  predicate StartsBefore(a: Finding, b: Finding) {
    a.start < b.start
  }

  /** The first kept finding that overlaps `f`, if any. */
  function FirstOverlap(kept: seq<Finding>, f: Finding): (r: Option<nat>)
    ensures r.Some? ==> r.value < |kept| && Overlaps(f, kept[r.value])
    ensures r.Some? ==> forall i :: 0 <= i < r.value ==> !Overlaps(f, kept[i])
    ensures r.None? ==> forall i :: 0 <= i < |kept| ==> !Overlaps(f, kept[i])
    decreases |kept|
  {
    if kept == [] then None
    else if Overlaps(f, kept[0]) then Some(0)
    else match FirstOverlap(kept[1..], f)
      case None => None
      case Some(j) => Some(j + 1)
  }

  function RemoveAt<T>(s: seq<T>, j: nat): (r: seq<T>)
    requires j < |s|
    ensures |r| == |s| - 1
    ensures forall i :: 0 <= i < j ==> r[i] == s[i]
    ensures forall i :: j <= i < |r| ==> r[i] == s[i + 1]
  {
    s[..j] + s[j + 1..]
  }

  /** One turn of the loop: keep `f` when nothing kept overlaps it; otherwise
      it replaces the first overlapping finding if strictly more confident,
      and is dropped if not. `deduplicated.remove(existing)` deletes the first
      element equal to `existing`, which is that first overlapping one. */
  function DedupStep(kept: seq<Finding>, f: Finding): seq<Finding> {
    match FirstOverlap(kept, f)
    case None => kept + [f]
    case Some(j) => if f.confidence > kept[j].confidence then RemoveAt(kept, j) + [f] else kept
  }

  function DedupFrom(kept: seq<Finding>, todo: seq<Finding>): seq<Finding>
    decreases |todo|
  {
    if todo == [] then kept else DedupFrom(DedupStep(kept, todo[0]), todo[1..])
  }

  /** `_deduplicate_findings`. */
  function Deduplicate(findings: seq<Finding>): seq<Finding> {
    if findings == [] then [] else DedupFrom([], Sort(findings, StartsBefore))
  }

  /** No two findings overlap. */
  ghost predicate Apart(fs: seq<Finding>) {
    forall i, j :: 0 <= i < j < |fs| ==> !Overlaps(fs[i], fs[j])
  }

  ghost predicate StartOrdered(fs: seq<Finding>) {
    forall i, j :: 0 <= i < j < |fs| ==> fs[i].start <= fs[j].start
  }

  /** Kept findings that start no later than `f` and overlap it all contain
      the point where `f` starts, so two of them would overlap each other. */
  lemma OnlyOneOverlaps(kept: seq<Finding>, f: Finding, i: nat, j: nat)
    requires Apart(kept)
    requires i < |kept| && j < |kept| && kept[i].start <= f.start && kept[j].start <= f.start
    ensures Overlaps(f, kept[i]) && Overlaps(f, kept[j]) ==> i == j
  {
    if i < j {
      assert Overlaps(f, kept[i]) && Overlaps(f, kept[j]) ==> Overlaps(kept[i], kept[j]);
    } else if j < i {
      assert Overlaps(f, kept[i]) && Overlaps(f, kept[j]) ==> Overlaps(kept[j], kept[i]);
    }
  }

  lemma ApartSnoc(kept: seq<Finding>, f: Finding)
    requires Apart(kept) && StartOrdered(kept)
    requires forall i :: 0 <= i < |kept| ==> !Overlaps(f, kept[i]) && kept[i].start <= f.start
    ensures Apart(kept + [f]) && StartOrdered(kept + [f])
  {
    var r := kept + [f];
    forall i, j | 0 <= i < j < |r| ensures !Overlaps(r[i], r[j]) && r[i].start <= r[j].start {
      if j == |kept| {
        assert r[i] == kept[i] && r[j] == f;
      } else {
        assert r[i] == kept[i] && r[j] == kept[j];
      }
    }
  }

  lemma ApartRemove(kept: seq<Finding>, j: nat)
    requires j < |kept| && Apart(kept) && StartOrdered(kept)
    ensures Apart(RemoveAt(kept, j)) && StartOrdered(RemoveAt(kept, j))
  {
    var r := RemoveAt(kept, j);
    forall a, b | 0 <= a < b < |r| ensures !Overlaps(r[a], r[b]) && r[a].start <= r[b].start {
      var a', b' := if a < j then a else a + 1, if b < j then b else b + 1;
      assert r[a] == kept[a'] && r[b] == kept[b'];
    }
  }

  lemma RemoveAtMultiset<T>(s: seq<T>, j: nat)
    requires j < |s|
    ensures multiset(RemoveAt(s, j)) + multiset{s[j]} == multiset(s)
  {
    assert s == s[..j] + [s[j]] + s[j + 1..];
  }

  /** One turn takes findings only from what was kept and `f`, and never
      leaves the list empty. */
  lemma DedupStepDrawn(kept: seq<Finding>, f: Finding)
    ensures multiset(DedupStep(kept, f)) <= multiset(kept) + multiset{f}
    ensures DedupStep(kept, f) != []
  {
    match FirstOverlap(kept, f)
    case None =>
    case Some(j) =>
      if f.confidence > kept[j].confidence {
        RemoveAtMultiset(kept, j);
      }
  }

  /** One turn keeps the kept findings apart and ordered by start. */
  lemma DedupStepKeeps(kept: seq<Finding>, f: Finding)
    requires Apart(kept) && StartOrdered(kept)
    requires forall x :: x in kept ==> x.start <= f.start
    ensures Apart(DedupStep(kept, f)) && StartOrdered(DedupStep(kept, f))
    ensures forall x :: x in DedupStep(kept, f) ==> x.start <= f.start
  {
    assert forall i :: 0 <= i < |kept| ==> kept[i] in kept;
    match FirstOverlap(kept, f)
    case None =>
      ApartSnoc(kept, f);
    case Some(j) =>
      if f.confidence > kept[j].confidence {
        DedupEvictKeeps(kept, f, j);
        var r := RemoveAt(kept, j) + [f];
        forall x | x in r ensures x.start <= f.start {
          var k :| 0 <= k < |r| && r[k] == x;
          if k < |r| - 1 { assert x == kept[if k < j then k else k + 1]; }
        }
      }
  }

  /** Replacing the first overlapping finding: it was the only overlapping one. */
  lemma DedupEvictKeeps(kept: seq<Finding>, f: Finding, j: nat)
    requires Apart(kept) && StartOrdered(kept)
    requires forall i :: 0 <= i < |kept| ==> kept[i].start <= f.start
    requires j < |kept| && Overlaps(f, kept[j])
    ensures Apart(RemoveAt(kept, j) + [f]) && StartOrdered(RemoveAt(kept, j) + [f])
  {
    var r := RemoveAt(kept, j);
    ApartRemove(kept, j);
    forall i | 0 <= i < |r| ensures !Overlaps(f, r[i]) && r[i].start <= f.start {
      var i' := if i < j then i else i + 1;
      assert r[i] == kept[i'];
      OnlyOneOverlaps(kept, f, i', j);
    }
    ApartSnoc(r, f);
  }

  /** The whole loop, from a state that respects the invariant. */
  lemma {:induction false} DedupFromKeeps(kept: seq<Finding>, todo: seq<Finding>)
    requires Apart(kept) && StartOrdered(kept)
    requires forall i, j :: 0 <= i < j < |todo| ==> todo[i].start <= todo[j].start
    requires todo != [] ==> forall x :: x in kept ==> x.start <= todo[0].start
    ensures Apart(DedupFrom(kept, todo)) && StartOrdered(DedupFrom(kept, todo))
    decreases |todo|
  {
    if todo != [] {
      var f, rest := todo[0], todo[1..];
      DedupStepKeeps(kept, f);
      if rest != [] {
        assert f.start <= rest[0].start by { assert rest[0] == todo[1]; }
      }
      DedupFromKeeps(DedupStep(kept, f), rest);
    }
  }

  /** The loop only draws on what was kept and what it was given, and ends
      non-empty once it has seen anything. */
  lemma {:induction false} DedupFromDrawn(kept: seq<Finding>, todo: seq<Finding>)
    ensures multiset(DedupFrom(kept, todo)) <= multiset(kept) + multiset(todo)
    ensures kept != [] || todo != [] ==> DedupFrom(kept, todo) != []
    decreases |todo|
  {
    if todo != [] {
      var f, rest := todo[0], todo[1..];
      var next := DedupStep(kept, f);
      DedupStepDrawn(kept, f);
      DedupFromDrawn(next, rest);
      assert todo == [f] + rest;
      calc {
        multiset(DedupFrom(next, rest));
      <= multiset(next) + multiset(rest);
      <= multiset(kept) + multiset{f} + multiset(rest);
      == multiset(kept) + multiset(todo);
      }
    }
  }

  lemma SortedByStart(findings: seq<Finding>)
    ensures forall i, j :: 0 <= i < j < |findings| ==>
      Sort(findings, StartsBefore)[i].start <= Sort(findings, StartsBefore)[j].start
  {
    var s := Sort(findings, StartsBefore);
    assert Asymmetric(StartsBefore);
    assert NotAfterTransitive(StartsBefore);
    SortSorted(findings, StartsBefore);
    SortedToPairs(s, StartsBefore);
    forall i, j | 0 <= i < j < |s| ensures s[i].start <= s[j].start {
      assert !StartsBefore(s[j], s[i]);
    }
  }

  /** The de-duplicated findings come from the input (none repeated more often
      than there), are ordered by start, no two overlap, and some survive
      whenever there was any. */
  lemma DeduplicateSound(findings: seq<Finding>)
    ensures multiset(Deduplicate(findings)) <= multiset(findings)
    ensures Apart(Deduplicate(findings)) && StartOrdered(Deduplicate(findings))
    ensures Deduplicate(findings) == [] <==> findings == []
  {
    if findings != [] {
      SortedByStart(findings);
      DedupFromKeeps([], Sort(findings, StartsBefore));
      DedupFromDrawn([], Sort(findings, StartsBefore));
    }
  }

  /** A helper for examples: a pattern finding at `[start, end)`. */
  function At(start: int, end: int, confidence: int): Finding {
    Finding(PatternMethod, "cpf_pattern", "", start, end, confidence, High)
  }

  /** Of two overlapping findings the later one is dropped when not more confident ... */
  lemma DeduplicateKeepsFirst(c: int)
    requires c >= 80
    ensures Deduplicate([At(0, 10, c), At(5, 15, 80)]) == [At(0, 10, c)]
  {
    var a, x := At(0, 10, c), At(5, 15, 80);
    DedupPair(a, x);
    assert FirstOverlap([a], x) == Some(0);
  }

  /** ... and replaces the earlier one when strictly more confident. */
  lemma DeduplicateReplaces(c: int)
    requires c < 80
    ensures Deduplicate([At(0, 10, c), At(5, 15, 80)]) == [At(5, 15, 80)]
  {
    var a, x := At(0, 10, c), At(5, 15, 80);
    DedupPair(a, x);
    assert FirstOverlap([a], x) == Some(0);
    assert RemoveAt([a], 0) == [];
  }

  /** Two findings already in start order go through the loop in that order. */
  lemma DedupPair(a: Finding, x: Finding)
    requires a.start < x.start
    ensures Deduplicate([a, x]) == DedupStep([a], x)
  {
    assert Sort([x], StartsBefore) == [x];
    assert Sort([a, x], StartsBefore) == Insert(a, [x], StartsBefore) == [a, x];
    assert DedupStep([], a) == [a];
    assert DedupFrom([], [a, x]) == DedupFrom([a], [x]) == DedupFrom(DedupStep([a], x), []);
  }

  // ------------------------------------------------------------ statistics

  /** The counts `_calculate_statistics` reports, with the coverage and the
      average confidence kept as exact integer totals. */
  datatype Statistics = Statistics(
    high: nat, medium: nat, low: nat,
    coveredChars: int, textChars: nat, confidenceTotal: int, count: nat)

  function SeverityCount(findings: seq<Finding>, sev: Severity): (n: nat)
    ensures n <= |findings|
    decreases |findings|
  {
    if findings == [] then 0
    else (if findings[0].severity == sev then 1 else 0) + SeverityCount(findings[1..], sev)
  }

  function Covered(findings: seq<Finding>): int
    decreases |findings|
  {
    if findings == [] then 0 else findings[0].end - findings[0].start + Covered(findings[1..])
  }

  function ConfidenceTotal(findings: seq<Finding>): int
    decreases |findings|
  {
    if findings == [] then 0 else findings[0].confidence + ConfidenceTotal(findings[1..])
  }

  /** `_calculate_statistics` (the text enters only through its length). */
  function CalculateStatistics(findings: seq<Finding>, textChars: nat): Statistics {
    if findings == [] then Statistics(0, 0, 0, 0, textChars, 0, 0)
    else Statistics(
      SeverityCount(findings, High), SeverityCount(findings, Medium), SeverityCount(findings, Low),
      Covered(findings), textChars, ConfidenceTotal(findings), |findings|)
  }

  lemma {:induction false} SeverityCountsSum(findings: seq<Finding>)
    ensures SeverityCount(findings, High) + SeverityCount(findings, Medium) + SeverityCount(findings, Low) == |findings|
    decreases |findings|
  {
    if findings != [] {
      SeverityCountsSum(findings[1..]);
    }
  }

  /** Every finding is counted under exactly one severity. */
  lemma StatisticsCountAll(findings: seq<Finding>, textChars: nat)
    ensures var st := CalculateStatistics(findings, textChars);
      st.high + st.medium + st.low == |findings| && st.count == |findings|
  {
    SeverityCountsSum(findings);
  }

  /** `coverage_percentage > 10`, the percentage taken exactly. */
  predicate OverDetected(st: Statistics) {
    st.textChars > 0 && st.coveredChars * 100 > 10 * st.textChars
  }

  /** `confidence_average < 0.7`; an empty report has average 0. */
  predicate LowAverage(st: Statistics) {
    st.count == 0 || st.confidenceTotal < 70 * st.count
  }

  datatype Recommendation =
    | ReviewHighSeverity(count: nat)
    | ReviewStopTerms(count: nat)
    | OverDetection
    | LowConfidence
    | AllClear

  /** `_generate_recommendations`, message by message. */
  function Recommendations(findings: seq<Finding>, st: Statistics): seq<Recommendation> {
    (if st.high > 0 then [ReviewHighSeverity(st.high)] else [])
    + (if st.medium > 3 then [ReviewStopTerms(st.medium)] else [])
    + (if OverDetected(st) then [OverDetection] else [])
    + (if LowAverage(st) then [LowConfidence] else [])
    + (if findings == [] then [AllClear] else [])
  }

  /** With nothing found, the average of 0 still draws the low-confidence
      warning, next to the all-clear message. */
  lemma NothingFoundRecommendations(textChars: nat)
    ensures Recommendations([], CalculateStatistics([], textChars)) == [LowConfidence, AllClear]
  {
  }

  /** The all-clear message appears exactly when nothing was found. */
  lemma AllClearIffNothingFound(findings: seq<Finding>, st: Statistics)
    ensures AllClear in Recommendations(findings, st) <==> findings == []
  {
    var head := (if st.high > 0 then [ReviewHighSeverity(st.high)] else [])
      + (if st.medium > 3 then [ReviewStopTerms(st.medium)] else [])
      + (if OverDetected(st) then [OverDetection] else [])
      + (if LowAverage(st) then [LowConfidence] else []);
    assert AllClear !in head;
    assert Recommendations(findings, st) == head + (if findings == [] then [AllClear] else []);
  }

  datatype Risk = LowRisk | MediumRisk | HighRisk

  function CountWhereSeverity(findings: seq<Finding>, sev: Severity): nat {
    CountWhere(findings, (f: Finding) => f.severity == sev)
  }

  /** `_assess_risk_level`. */
  function AssessRisk(findings: seq<Finding>): Risk {
    if findings == [] then LowRisk
    else if CountWhereSeverity(findings, High) > 0 then HighRisk
    else if CountWhereSeverity(findings, Medium) > 2 then MediumRisk
    else LowRisk
  }

  lemma {:induction false} CountsAgree(findings: seq<Finding>, sev: Severity)
    ensures CountWhereSeverity(findings, sev) == SeverityCount(findings, sev)
    decreases |findings|
  {
    if findings != [] {
      CountsAgree(findings[1..], sev);
    }
  }

  /** The risk level follows the statistics: high when any finding is
      high-severity, medium when more than two are medium, low otherwise. */
  lemma RiskFromStatistics(findings: seq<Finding>, textChars: nat)
    ensures var st := CalculateStatistics(findings, textChars);
      && (AssessRisk(findings) == HighRisk <==> st.high > 0)
      && (AssessRisk(findings) == MediumRisk <==> st.high == 0 && st.medium > 2)
  {
    CountsAgree(findings, High);
    CountsAgree(findings, Medium);
  }

  /** A high risk level always comes with the advice to re-process. */
  lemma HighRiskIsReported(findings: seq<Finding>, textChars: nat)
    requires AssessRisk(findings) == HighRisk
    ensures var st := CalculateStatistics(findings, textChars);
      |Recommendations(findings, st)| > 0 && Recommendations(findings, st)[0] == ReviewHighSeverity(st.high)
  {
    RiskFromStatistics(findings, textChars);
  }

  // ------------------------------------------------------------ the report

  datatype Report = Report(
    totalFindings: nat, findings: seq<Finding>, statistics: Statistics,
    recommendations: seq<Recommendation>, complete: bool, risk: Risk)

  /** `comprehensive_validation` once the three methods have produced their findings. */
  function ComprehensiveValidation(patternFindings: seq<Finding>, nerFindings: seq<Finding>,
                                   contextFindings: seq<Finding>, textChars: nat): (r: Report)
    ensures r.complete && r.totalFindings == |r.findings|
  {
    var unique := Deduplicate(patternFindings + nerFindings + contextFindings);
    var st := CalculateStatistics(unique, textChars);
    Report(|unique|, unique, st, Recommendations(unique, st), true, AssessRisk(unique))
  }

  /** The report's findings are a non-overlapping selection of all findings,
      and its risk level agrees with its statistics. */
  lemma ReportConsistent(patternFindings: seq<Finding>, nerFindings: seq<Finding>,
                         contextFindings: seq<Finding>, textChars: nat)
    ensures var r := ComprehensiveValidation(patternFindings, nerFindings, contextFindings, textChars);
      && multiset(r.findings) <= multiset(patternFindings + nerFindings + contextFindings)
      && Apart(r.findings)
      && (r.findings == [] <==> patternFindings + nerFindings + contextFindings == [])
      && (r.risk == HighRisk <==> r.statistics.high > 0)
      && r.statistics.high + r.statistics.medium + r.statistics.low == r.totalFindings
  {
    var all := patternFindings + nerFindings + contextFindings;
    DeduplicateSound(all);
    RiskFromStatistics(Deduplicate(all), textChars);
    StatisticsCountAll(Deduplicate(all), textChars);
  }
}
